=== FILE: README.md ===
# Storefront and admin console — a Dafny model

This project models the logic of a browser lighting store: the customer shop and the admin console. Each screen keeps its business rules in small handlers. They read whole collections from a browser key/value store and compute new collections. They write those collections back whole, and they announce each change on a cross-tab notification layer.

The model is written as pure functions over sequences of records:

- **Options, Text, Seqs.** Shared building blocks:
  - `Option`/`Result`;
  - ASCII case folding, the JavaScript string `<=` used on ISO dates, and `includes`;
  - `filter`, `find`, `some`, `slice` and sums.
- **Domain.** The four persisted entities: products, orders, promotions and reviews. Also the facts several screens share: the low-stock test, lookup by id, JavaScript truthiness of optional fields, and the category and name filters.
- **Store.** The key/value store as four optional slots, plus the seed arrays the data module falls back to:
  - a getter falls back to the seed array when its key is absent;
  - a save replaces one slot whole;
  - `initializeData` fills only the absent slots;
  - the seed data and its invariants are included.
- **Effects.** What a handler does, in order: `Save` one collection, or `Notify` a change. Handlers return such a trace. `Run` applies the saves.
- **DataSync.** One tab's notification layer:
  - the listener set and its disposers;
  - listener delivery, which stops at the first listener that throws;
  - the storage-event handler and `broadcastChange`;
  - delivery over the BroadcastChannel to another tab;
  - the `useAutoRefresh` filter and the `useDataSync` guard.
- **CustomerShop, Cart, ProductListing, ProductDetail, ReviewDialog, OrderHistory.** The customer screens.
- **Inventory, OrderManagement, PromotionManagement, ProductCatalog, Dashboard, ReviewManagement, AddProduct.** The admin screens.
- **Login.** Sign-up and sign-in.
- **Consistency.** How the screens affect each other through whole-collection saves.

Ids, timestamps and today's date are parameters. So are the number parser of the forms, the JSON codec of the notification layer, and whether a given listener throws.

Some screens act on a list they were handed earlier: inventory, orders, promotions and the review list. Those handlers take that list, called `view`. Handlers that read the store when they run take the store.

## Model

| member | source | states |
|---|---|---|
| Seqs.FilterSubsequence | src/components/customer/ProductListing.tsx:17-21 | `filter` keeps the relative order of the elements it keeps: its result can be matched against the input from left to right |
| Seqs.FilterPositions | src/components/customer/ProductListing.tsx:17-21 | `filter` keeps exactly the positions whose element passes, in increasing order, and the result holds those elements in turn |
| Seqs.FilterMultiplicity | src/components/customer/ProductListing.tsx:17-21 | `filter` keeps each passing value as often as the input holds it, and no failing value |
| Domain.FindProduct | src/components/customer/CustomerShop.tsx:81 | `products.find(p => p.id === id)`: none exactly when no product has the id; otherwise a stored product with that id, which is the product at the matching index when ids are distinct |
| Store.Apply | src/data/mockData.ts:284-313 | a save makes its key present and leaves the other three keys exactly as they were |
| Store.GetAfterSave | src/data/mockData.ts:279-313 | reading a collection right after saving it returns exactly what was saved |
| Store.GetProducts | src/data/mockData.ts:279-282 | no contract of its own: it reads the stored products, or the seed products when the key is absent; Store.GetAfterSave, Store.FreshStoreReadsSeeds and Store.InitializeInvisibleToGetters state what it returns |
| Store.GetOrders | src/data/mockData.ts:288-291 | no contract of its own: the stored orders, or the seed orders when the key is absent; stated by the same three lemmas |
| Store.GetPromotions | src/data/mockData.ts:297-300 | no contract of its own: the stored promotions, or the seed promotions when the key is absent; stated by the same three lemmas |
| Store.GetReviews | src/data/mockData.ts:306-309 | no contract of its own: the stored reviews, or the seed reviews when the key is absent; stated by the same three lemmas |
| Store.LastSaveWins | src/data/mockData.ts:284-286 | of two saves to one key the later wins and the earlier leaves no trace |
| Store.SavesToDifferentKeysCommute | src/data/mockData.ts:284-313 | saves to different keys can be made in either order |
| Store.FinalSaveDecides | src/data/mockData.ts:284-313 | after any sequence of saves, the key of the last save holds exactly that save's collection; nothing is merged |
| Store.ApplyAllFrame | src/data/mockData.ts:284-313 | saves to other keys never touch a key |
| Store.FillIfAbsent | src/data/mockData.ts:264-266 | one step of `initializeData` writes the seed collection under a key if and only if the key is absent, and leaves the other keys alone |
| Store.Initialize | src/data/mockData.ts:263-276 | afterwards every key is present; present keys keep their collection, even an empty one; absent keys receive the seed collection |
| Store.InitializeIdempotent | src/data/mockData.ts:263-276 | running `initializeData` twice is the same as running it once |
| Store.InitializeInvisibleToGetters | src/data/mockData.ts:263-309 | the getters read the same before and after `initializeData`, because they already fall back to the seeds |
| Store.FreshStoreReadsSeeds | src/data/mockData.ts:263-309 | with nothing stored, every getter returns its seed array, and `initializeData` writes exactly the seed arrays |
| Store.SeedProductsNonNegative | src/data/mockData.ts:49-170 | seed products have non-negative price, stock and threshold |
| Store.SeedProductIdsDistinct | src/data/mockData.ts:49-170 | seed product ids are pairwise distinct |
| Store.SeedOrderTotals | src/data/mockData.ts:172-216 | every seed order has no discount, and its total is the sum of price times quantity over its lines |
| Store.SeedPromotionsWellFormed | src/data/mockData.ts:218-239 | every seed promotion is active, has both counts, has uses left, and its validity window starts no later than it ends |
| Store.SeedPromotionDatesOrdered | src/data/mockData.ts:223-224 | each seed promotion's `validFrom` is at or before its `validTo` under the string order the cart uses on dates |
| Store.SeedReviewRatings | src/data/mockData.ts:241-260 | every seed rating lies between 1 and 5 |
| Store.SeedReviewsReferenceSeedOrders | src/data/mockData.ts:172-260 | every seed review names a seed order of the same customer that bought the reviewed product |
| DataSync.NewTab | src/contexts/DataSyncContext.tsx:25-33 | a new provider has no listeners, and has a channel exactly when the environment offers BroadcastChannel |
| DataSync.Add | src/contexts/DataSyncContext.tsx:61 | `Set.add`: the listener is present afterwards; a listener already present keeps its place; earlier listeners keep their order; no duplicates arise |
| DataSync.Remove | src/contexts/DataSyncContext.tsx:64 | `Set.delete`: the listener is absent afterwards, every other listener stays, no duplicates arise, and a missing listener changes nothing |
| DataSync.Subscribe | src/contexts/DataSyncContext.tsx:60-66 | registers the listener and returns the disposer for it; the set gains exactly that listener |
| DataSync.Dispose | src/contexts/DataSyncContext.tsx:63-65 | the disposer removes exactly its listener |
| DataSync.SubscribeTwiceIsOnce | src/contexts/DataSyncContext.tsx:33 | subscribing the same listener twice leaves the registry as one subscription does |
| DataSync.DisposeIdempotent | src/contexts/DataSyncContext.tsx:63-65 | calling a disposer a second time is a no-op |
| DataSync.SubscribeThenDispose | src/contexts/DataSyncContext.tsx:60-66 | subscribing a new listener and running its disposer restores the registry exactly |
| DataSync.OneDisposerCancelsDoubleSubscription | src/contexts/DataSyncContext.tsx:33 | one disposer removes a listener that was subscribed twice, because the registry is a set |
| DataSync.Deliver | src/contexts/DataSyncContext.tsx:56 | `forEach` calls the listeners in set order with the event; it stops right after the first listener that throws, and the exception escapes exactly when some listener throws |
| DataSync.CallsOfCountsOnce | src/contexts/DataSyncContext.tsx:56 | a complete pass calls each registered listener exactly once and nothing else |
| DataSync.DeliverSkipsOutsiders | src/contexts/DataSyncContext.tsx:56 | a listener not in the set is never called |
| DataSync.HandleStorage | src/contexts/DataSyncContext.tsx:85-93 | other keys, a missing value or an empty value are ignored; an unparsable value is logged and reaches nobody; a listener that throws is caught and logged too, and the remaining listeners are skipped |
| DataSync.DataKeyStorageEventsIgnored | src/contexts/DataSyncContext.tsx:86 | storage events for a collection key never reach a listener |
| DataSync.BroadcastChange | src/contexts/DataSyncContext.tsx:36-57 | the event carries the given type and action and the current time; it is posted only when there is a channel; the direct pass delivers it as `forEach` does |
| DataSync.BroadcastReachesEachListenerTwice | src/contexts/DataSyncContext.tsx:48-56 | in the broadcasting tab each registered listener is called twice per broadcast (self-dispatched storage event, then the direct loop) and an unregistered one never |
| DataSync.DisposedListenerHearsNothing | src/contexts/DataSyncContext.tsx:56 | after its disposer has run, a listener gets no call from a broadcast by either path |
| DataSync.ThrowingListenerEscapesBroadcast | src/contexts/DataSyncContext.tsx:56 | a throwing listener is not isolated: both passes stop at it, the storage pass logs, and the exception escapes `broadcastChange` |
| DataSync.NoChannelStillNotifiesLocally | src/contexts/DataSyncContext.tsx:44-56 | without a channel nothing is posted, but every local listener is still called directly |
| DataSync.ReceiveMessage | src/contexts/DataSyncContext.tsx:69-81 | a tab without a channel hears nothing; a tab with one calls each of its listeners with the received event |
| DataSync.CrossTabDeliversOnce | src/contexts/DataSyncContext.tsx:44-46 | another tab's listener receives a broadcast exactly once when both tabs have a channel, and never otherwise |
| DataSync.AutoRefreshFires | src/contexts/DataSyncContext.tsx:132-136 | `onRefresh` runs exactly when the event type is in the interest list |
| DataSync.AutoRefreshIgnoresActionAndTime | src/contexts/DataSyncContext.tsx:133 | the action and timestamp never matter, and an empty list never fires |
| DataSync.RefreshCountOfCalls | src/contexts/DataSyncContext.tsx:132-136 | one delivery pass runs a subscribed `onRefresh` once if its type is of interest, otherwise not at all |
| DataSync.AutoRefreshInBroadcastingTab | src/contexts/DataSyncContext.tsx:48-56 | a screen in the broadcasting tab refreshes twice per broadcast of a type it watches, and not at all otherwise |
| DataSync.UseDataSync | src/contexts/DataSyncContext.tsx:119-124 | returns the provider's value when there is a provider, otherwise fails with the error message the code throws |
| Effects.RunAppend | src/components/customer/CustomerShop.tsx:73-148 | running two effect traces one after the other is running their concatenation |
| CustomerShop.AddToCart | src/components/customer/CustomerShop.tsx:39-51 | an existing line gains the quantity in place; a new product gets a new line at the end; other products' quantities stay; stock is not consulted; distinct lines stay distinct |
| CustomerShop.AddToCartIgnoresStock | src/components/customer/CustomerShop.tsx:39-51 | adding one unit twice to a product with stock 1 puts 2 in the cart |
| CustomerShop.UpdateCartQuantity | src/components/customer/CustomerShop.tsx:53-63 | a quantity of 0 or less removes the product; otherwise it sets that product's quantity, and every line keeps its product and place; other products' quantities stay |
| CustomerShop.RemoveFromCart | src/components/customer/CustomerShop.tsx:65-67 | no line for the product remains; every other line stays, in their stored order and each as often as stored; nothing is added |
| CustomerShop.RemoveKeepsOtherQuantities | src/components/customer/CustomerShop.tsx:65-67 | removing one product leaves every other product's quantity unchanged |
| CustomerShop.ClearCart | src/components/customer/CustomerShop.tsx:69-71 | the cart holds no line for any product |
| CustomerShop.CartOperationsKeepLinesDistinct | src/components/customer/CustomerShop.tsx:39-67 | add, update and remove never create a second line for a product |
| CustomerShop.DiscountedTotal | src/components/customer/CustomerShop.tsx:74-76 | a missing or zero discount leaves the subtotal; otherwise the subtotal is reduced by that percentage |
| CustomerShop.DiscountedTotalBounds | src/components/customer/CustomerShop.tsx:74-76 | a discount between 0 and 100 percent gives a total between 0 and the subtotal |
| CustomerShop.OrderItems | src/components/customer/CustomerShop.tsx:88-102 | one order line per cart line, copying id, name, price and quantity |
| CustomerShop.OrderItemsSubtotal | src/components/customer/CustomerShop.tsx:74-102 | the order lines add up to the cart subtotal |
| CustomerShop.DecrementStock | src/components/customer/CustomerShop.tsx:105-115 | every product keeps its place and other fields and loses the quantity the cart holds of it |
| CustomerShop.IncrementUses | src/components/customer/CustomerShop.tsx:128-139 | promotions whose code matches ignoring case gain one use (a missing count counts as 0); the others are unchanged |
| CustomerShop.PlaceOrder | src/components/customer/CustomerShop.tsx:73-148 | it aborts, writing nothing, exactly when some line's product is gone or short of stock; otherwise it creates a pending order with the given id, customer, date and promotion, whose lines are the cart's lines copied one for one (id, name, price, quantity) and add up to the cart subtotal, and whose total is the discounted subtotal; the cart is emptied after a placement and kept after an abort |
| CustomerShop.PlacementWrites | src/components/customer/CustomerShop.tsx:105-139 | a placement saves products, then orders, then promotions only when a code was given |
| CustomerShop.PlacementStore | src/components/customer/CustomerShop.tsx:105-139 | afterwards the store holds the decremented products and the new order in front of the old orders; promotions change only with a code; reviews are untouched |
| CustomerShop.PlaceOrderBroadcastOrder | src/components/customer/CustomerShop.tsx:118-142 | the announcements are inventory update, products update, orders create, then promotions update only with a code |
| CustomerShop.PlaceOrderPrependsOrder | src/components/customer/CustomerShop.tsx:121-122 | the stored orders become the new order followed by the previous orders |
| CustomerShop.PlaceOrderStock | src/components/customer/CustomerShop.tsx:78-115 | an abort leaves the products alone; a placement lowers each product by its cart quantity and leaves every other product as it was, and no product in the cart goes negative |
| CustomerShop.PlaceOrderCountsPromoUse | src/components/customer/CustomerShop.tsx:128-142 | with a code the stored promotions become the incremented list; without one they stay as they were |
| CustomerShop.InterruptedPlacementLosesStock | src/components/customer/CustomerShop.tsx:112-122 | if a listener throws at the first announcement, the stock is already saved and no order records it |
| Cart.ApplyPromoCode | src/components/customer/Cart.tsx:37-63 | a code is applied exactly when the first promotion that matches (same code ignoring case, active, today within its dates) has not reached its limit; success carries the stored code and discount with no error; no match gives the invalid-code error; a spent first match gives the limit error |
| Cart.AppliedCodeIsStoredCode | src/components/customer/Cart.tsx:57 | whatever spelling was typed, the cart records the stored code and its discount |
| Cart.FalsyCountsNeverLimit | src/components/customer/Cart.tsx:51 | a limit of 0, a count of 0, or a missing limit or count never triggers the usage limit |
| Cart.ZeroLimitAccepted | src/components/customer/Cart.tsx:51 | a matching promotion with limit 0 and 7 uses is accepted |
| Cart.FirstMatchDecides | src/components/customer/Cart.tsx:42-55 | a spent first match refuses the code even when a later promotion with the same code would accept it |
| Cart.DiscountAmount | src/components/customer/Cart.tsx:29 | no discount without an applied promotion; otherwise that percentage of the subtotal |
| Cart.CartTotal | src/components/customer/Cart.tsx:28-30 | the subtotal without a promotion; with one, the remaining 100 − discount percent of the subtotal |
| Cart.PlaceOrderArgs | src/components/customer/Cart.tsx:224 | the code and the discount are passed both or neither, and they are the applied promotion's |
| Cart.PlacedTotalMatchesCartTotal | src/components/customer/Cart.tsx:28-30 | the placed order's total equals the total the cart showed, including for a 0 % promotion |
| Cart.IncrementStaysWithinStock | src/components/customer/Cart.tsx:139 | pressing an enabled + raises the line by one and never beyond the stock it shows |
| Inventory.ClampedStock | src/components/admin/InventoryManagement.tsx:20 | new stock is stock plus change when that is not negative, and 0 otherwise; never negative |
| Inventory.HandleStockUpdate | src/components/admin/InventoryManagement.tsx:16-32 | an unknown id does nothing; otherwise only products with that id change, to the clamped stock, and the list is saved and an inventory update announced |
| Inventory.StockUpdateSavesList | src/components/admin/InventoryManagement.tsx:26-28 | the store holds the adjusted list; orders are untouched; the only announcement is inventory update, with no products event |
| Inventory.UpdateIsPointUpdate | src/components/admin/InventoryManagement.tsx:21-23 | with distinct ids an update replaces exactly one product, in place |
| Inventory.OppositeAdjustmentRestores | src/components/admin/InventoryManagement.tsx:20-23 | an adjustment that stays at or above zero is undone by the opposite adjustment |
| Inventory.ClampingLosesUnits | src/components/admin/InventoryManagement.tsx:20 | clamping is not additive: -10 then +10 on a stock of 5 leaves 10 |
| Inventory.QuickAdjust | src/components/admin/InventoryManagement.tsx:34-36 | the product's pending change becomes the typed number, or 0 when it does not parse; others stay |
| Inventory.ResetChange | src/components/admin/InventoryManagement.tsx:31 | after an update the product's Update button is hidden, and other pending changes stay |
| Inventory.LowStockCount | src/components/admin/InventoryManagement.tsx:161 | the count is 0 exactly when no product is low on stock |
| Inventory.LowStockCountComplement | src/components/admin/InventoryManagement.tsx:161 | low-stock and other products together number all products |
| Inventory.TotalStockAfterUpdate | src/components/admin/InventoryManagement.tsx:155 | an update moves the total stock by exactly the product's change after clamping |
| Domain.TotalStock | src/components/admin/DashboardOverview.tsx:19 | 0 for no products, and never negative when no product's stock is |
| Domain.TotalStockCons | src/components/admin/DashboardOverview.tsx:19 | each product adds exactly its own stock to the total, so the total is the sum of the stocks |
| Domain.TotalStockAppend | src/components/admin/InventoryManagement.tsx:155 | the total of two product lists is the sum of their totals |
| OrderManagement.UpdateOrderStatus | src/components/admin/OrderManagement.tsx:16-29 | orders with the id take the new status, whatever they had; every other order is unchanged; the list is saved and an orders update announced |
| OrderManagement.StatusUpdateSavesList | src/components/admin/OrderManagement.tsx:20-23 | the store holds the updated list, products are untouched, and one orders update is announced |
| OrderManagement.UpdateEnforcesNoTransitionRule | src/components/admin/OrderManagement.tsx:16-19 | a completed order can be set back to pending |
| OrderManagement.RefreshSelected | src/components/admin/OrderManagement.tsx:24-26 | the open detail dialog shows the new status when it shows that order, and is otherwise unchanged |
| OrderManagement.OfferedStatuses | src/components/admin/OrderManagement.tsx:121-147 | pending offers processing and cancelled; processing offers completed and cancelled; completed and cancelled offer nothing |
| OrderManagement.OfferedActionsAdvance | src/components/admin/OrderManagement.tsx:212-235 | the offered moves are exactly those four and each moves forward; completed and cancelled are terminal |
| OrderManagement.OfferedPathsAreShort | src/components/admin/OrderManagement.tsx:121-147 | following offered actions, an order passes through at most three statuses and never returns to one |
| OrderManagement.FilterOrders | src/components/admin/OrderManagement.tsx:31-33 | 'All' shows every order in order; a status shows exactly the orders with that status, in their stored order and each as often as stored |
| OrderManagement.StatusFiltersPartition | src/components/admin/OrderManagement.tsx:31-33 | the four status lists together are as long as the whole list |
| PromotionManagement.EditForm | src/components/admin/PromotionManagement.tsx:38-51 | the edit form shows the promotion's fields; a missing or zero limit shows empty, and a missing or zero count shows "0" |
| PromotionManagement.FromForm | src/components/admin/PromotionManagement.tsx:68-78 | the code is stored upper-cased; the discount is the parsed discount field; dates and the active flag are copied from the form; an empty limit means no limit and a filled one its parsed value; an empty count means 0 and a filled one its parsed value |
| PromotionManagement.Submit | src/components/admin/PromotionManagement.tsx:66-95 | editing replaces the promotion with that id in place and keeps the id; creating puts the new promotion first; the list is saved and an update or create announced |
| PromotionManagement.EditUnchangedRoundTrips | src/components/admin/PromotionManagement.tsx:38-85 | saving an unchanged edit form gives the promotion back when its code is upper case, its limit is not 0 and its count is present |
| PromotionManagement.EditDropsZeroLimit | src/components/admin/PromotionManagement.tsx:47 | saving an unchanged edit form turns a limit of 0 into no limit |
| PromotionManagement.Delete | src/components/admin/PromotionManagement.tsx:53-64 | exactly the promotions with the id go; the rest stay in their order, each as often as before; a delete is announced |
| PromotionManagement.DeleteUndoesCreate | src/components/admin/PromotionManagement.tsx:53-95 | deleting a promotion just created under a fresh id restores the list |
| PromotionManagement.CartMatchIsValidity | src/components/admin/PromotionManagement.tsx:97-100 | the cart accepts the code exactly when the codes agree ignoring case and the promotion is valid; validity ignores use counts |
| PromotionManagement.ActiveButSpent | src/components/admin/PromotionManagement.tsx:97-102 | a promotion listed as active can still be refused by the cart for its usage limit |
| PromotionManagement.ActiveExpiredPartition | src/components/admin/PromotionManagement.tsx:102-103 | the active and expired lists hold every promotion exactly as often as the whole list, each on the right side |
| PromotionManagement.IsPromotionValid | src/components/admin/PromotionManagement.tsx:97-100 | a valid promotion's window is non-empty: its start date is at or before its end date |
| PromotionManagement.ActivePromotions | src/components/admin/PromotionManagement.tsx:102 | exactly the valid promotions, in their stored order and each as often as stored |
| PromotionManagement.ExpiredPromotions | src/components/admin/PromotionManagement.tsx:103 | exactly the promotions that are not valid, in their stored order and each as often as stored |
| PromotionManagement.ExpiryIsPermanent | src/components/admin/PromotionManagement.tsx:97-100 | once today is past the end date, the promotion is invalid on every later day |
| Login.SignUp | src/components/LoginPage.tsx:38-86 | the checks run in order (length below 6, mismatch, name taken) and the first failure is reported; success appends exactly one account at the end |
| Login.ReservedNamesAreCaseSensitive | src/components/LoginPage.tsx:58-59 | 'Admin' can be registered, while a registered name blocks every spelling of itself |
| Login.SignIn | src/components/LoginPage.tsx:88-116 | admin/admin123 alone gives the admin role; the built-in customer or an exact name and password match logs in; anything else is refused with the credentials error |
| Login.RegisteredAccountsAreCustomers | src/components/LoginPage.tsx:94-115 | a registered account logs in as a customer, never as admin |
| Login.SignUpThenSignIn | src/components/LoginPage.tsx:65-115 | whoever signs up can sign in with the same name and password |
| Login.SignInIsCaseSensitive | src/components/LoginPage.tsx:107-109 | an account registered as Maria cannot sign in as maria |
| ProductListing.CustomerListing | src/components/customer/ProductListing.tsx:17-21 | exactly the products with the chosen category, a name containing the search ignoring case, and stock left, in their stored order and each as often as stored; none without stock |
| ProductListing.UnfilteredListingIsInStock | src/components/customer/ProductListing.tsx:17-21 | with all categories and an empty search the listing is every in-stock product, in order |
| ProductListing.HandleAddToCart | src/components/customer/ProductListing.tsx:23-31 | a product without stock leaves the cart unchanged; otherwise exactly one unit is added |
| ProductListing.BadgedListedProducts | src/components/customer/ProductListing.tsx:99 | a listed product with the Low Stock badge has between 1 unit and its threshold |
| ProductCatalog.AdminListing | src/components/admin/ProductCatalog.tsx:32-36 | exactly the products matching the search and category, including those without stock, in their stored order and each as often as stored |
| ProductCatalog.CustomerGridIsCatalogInStock | src/components/admin/ProductCatalog.tsx:32-36 | the customer grid is the admin catalogue under the same filter minus the products without stock |
| ProductCatalog.StockLabelOf | src/components/admin/ProductCatalog.tsx:155-167 | In Stock above the threshold; Low Stock from 1 up to it; Out of Stock otherwise; exactly one applies |
| ProductCatalog.LabelsAgreeWithLowStock | src/components/admin/ProductCatalog.tsx:149-167 | every label but In Stock marks exactly the low-stock products; with a non-negative threshold Out of Stock means no units |
| ProductCatalog.NegativeThresholdHidesEmptyStock | src/components/admin/ProductCatalog.tsx:157-158 | a threshold of -1 labels an empty product In Stock |
| ProductCatalog.ProductReviews | src/components/admin/ProductCatalog.tsx:22-24 | exactly the stored reviews of the product, in their stored order and each as often as stored |
| ProductCatalog.CatalogAverage | src/components/admin/ProductCatalog.tsx:26-30 | without reviews no stars show and the average is 0; with reviews the stars show and the average lies between 1 and 5 |
| Reviews.ReviewsFor | src/components/ProductDetailModal.tsx:14 | exactly the reviews with the product's id, in their stored order and each as often as stored |
| Reviews.AverageWithinScale | src/components/admin/ReviewManagement.tsx:43-45 | the mean of ratings between 1 and 5 lies between 1 and 5 |
| Reviews.AverageRating | src/components/admin/ReviewManagement.tsx:43-45 | 0 without reviews; otherwise the mean, which times the number of reviews gives the sum of the ratings (the same computation as ProductDetailModal.tsx:16-18 and ProductCatalog.tsx:26-30) |
| Dashboard.LowStockProducts | src/components/admin/DashboardOverview.tsx:17 | exactly the low-stock products, in their stored order and each as often as stored |
| Dashboard.LowStockAgreesWithInventory | src/components/admin/DashboardOverview.tsx:17 | the dashboard and the inventory screen count the same low-stock products |
| Dashboard.PendingCount | src/components/admin/DashboardOverview.tsx:20 | as many as the order table lists under the Pending filter; 0 exactly when no order is pending |
| Dashboard.PendingCountCons | src/components/admin/DashboardOverview.tsx:20 | each order adds one to the pending count exactly when its status is pending |
| Dashboard.PendingCountAppend | src/components/admin/DashboardOverview.tsx:20 | the pending count of two order lists together is the sum of their pending counts |
| Dashboard.RevenueByStatus | src/components/admin/DashboardOverview.tsx:21-23 | revenue is the sum over all orders of the total of completed ones; other orders add nothing |
| Dashboard.Revenue | src/components/admin/DashboardOverview.tsx:21-23 | 0 when no order is completed; the sum of all totals when every order is |
| Dashboard.RecentOrders | src/components/admin/DashboardOverview.tsx:25 | the first min(5, n) orders in stored order |
| Dashboard.PlacementOnDashboard | src/components/admin/DashboardOverview.tsx:20-25 | a placed order becomes the most recent, adds one pending order and leaves revenue unchanged |
| Dashboard.StatusChangeMovesRevenue | src/components/admin/DashboardOverview.tsx:21-23 | completing an order adds its total to revenue, leaving completed takes it away, and keeping the status changes nothing |
| ProductDetail.Decrement | src/components/ProductDetailModal.tsx:131 | one less, never below 1 |
| ProductDetail.Increment | src/components/ProductDetailModal.tsx:145 | one more, never above the stock |
| ProductDetail.Typed | src/components/ProductDetailModal.tsx:141 | a number between 1 and the stock is taken as typed; 0 or a non-number gives 1; the result is at least 1 and, when there is stock, at most the stock |
| ProductDetail.QuantityStaysInRange | src/components/ProductDetailModal.tsx:131-145 | with stock left, any series of -, + and typing keeps the quantity between 1 and the stock |
| ProductDetail.PickerQuantitiesAreServable | src/components/ProductDetailModal.tsx:13 | from the initial quantity of 1, every quantity the picker reaches is between 1 and the stock |
| ProductDetail.ModalAddToCart | src/components/ProductDetailModal.tsx:38-43 | adds that quantity and closes exactly when there is a callback and the quantity is positive; otherwise nothing changes |
| ProductDetail.ShownPickerAlwaysAdds | src/components/ProductDetailModal.tsx:125 | whenever the picker is shown, Add to Cart adds and closes |
| ReviewDialog.DefaultProduct | src/components/customer/ReviewDialog.tsx:17 | the first line's product, or empty for an order without lines |
| ReviewDialog.SubmitReview | src/components/customer/ReviewDialog.tsx:20-51 | no rating refuses; then no product refuses; otherwise a review carrying the order id, customer, rating and comment is put first in a fresh read of the reviews, and a review creation is announced |
| ReviewDialog.SubmitPrependsReview | src/components/customer/ReviewDialog.tsx:43-47 | afterwards the stored reviews are the new review followed by the old ones; nothing else changes; only a review creation is announced |
| ReviewDialog.SavedRatingsAreOnScale | src/components/customer/ReviewDialog.tsx:104-108 | a rating picked with the stars is saved only when it is between 1 and 5 |
| ReviewDialog.DefaultProductReviewsFirstLine | src/components/customer/ReviewDialog.tsx:17-31 | with a rating, the default product reviews the order's first line; an order without lines is refused |
| OrderHistory.CustomerOrders | src/components/customer/OrderHistory.tsx:24 | exactly the orders whose customer name equals the user's, case-sensitively, in their stored order and each as often as stored, so newest first as the shop prepends them |
| OrderHistory.PlacementHeadsHistory | src/components/customer/OrderHistory.tsx:24 | after a placement the new order tops the customer's history above what was listed before, and every other customer's history is unchanged |
| OrderHistory.ReviewMarksExclusive | src/components/customer/OrderHistory.tsx:125-135 | an order never shows both Write Review and Reviewed; a completed order shows exactly one |
| OrderHistory.HistoryRefreshesOnOrdersAndReviews | src/components/customer/OrderHistory.tsx:20-22 | the history refreshes on order and review events and on nothing else |
| OrderHistory.ReviewClosesWriteReview | src/components/customer/OrderHistory.tsx:37-39 | once a review of the order is saved it shows Reviewed and no longer offers Write Review; other orders' Reviewed marks stay |
| ReviewManagement.DeleteReview | src/components/admin/ReviewManagement.tsx:13-20 | exactly the reviews with the id go; the rest of the screen's list is saved in its order, each review as often as before; nothing is announced |
| ReviewManagement.DeleteIsSilent | src/components/admin/ReviewManagement.tsx:13-20 | the store holds the shortened list and nothing is announced |
| ReviewManagement.StaleDeleteDropsNewReviews | src/components/admin/ReviewManagement.tsx:10-16 | a review saved after the screen loaded its list is lost from the store at the next deletion |
| ReviewManagement.Distribution | src/components/admin/ReviewManagement.tsx:47-53 | five rows, counting ratings 5 down to 1 |
| ReviewManagement.RatingCount | src/components/admin/ReviewManagement.tsx:49 | at most the number of reviews, and 0 exactly when no review has that rating |
| ReviewManagement.DistributionCoversAll | src/components/admin/ReviewManagement.tsx:47-53 | with ratings between 1 and 5 the five counts add up to the number of reviews |
| ReviewManagement.Percentage | src/components/admin/ReviewManagement.tsx:50-52 | 0 without reviews, and always between 0 and 100 |
| ReviewManagement.PercentagesSumToHundred | src/components/admin/ReviewManagement.tsx:47-53 | with ratings between 1 and 5 the five bars of a non-empty list add up to 100 % |
| ReviewManagement.GetOrderDetails | src/components/admin/ReviewManagement.tsx:22-24 | none exactly when no order has the id; otherwise the first stored order with that id |
| ReviewManagement.SubmittedReviewFindsItsOrder | src/components/admin/ReviewManagement.tsx:22-24 | a review written from the dialog finds its order while that order is stored |
| AddProduct.Submit | src/components/admin/AddProductDialog.tsx:26-68 | an incomplete form is refused; otherwise the product carries the form's fields and the new id, with the placeholder image when none was given; it is appended to a fresh read of the products, and a product creation is announced |
| AddProduct.FormAfterSubmit | src/components/admin/AddProductDialog.tsx:55-63 | after an add the form is blank again with category Ceiling; after a refusal it stays as typed |
| AddProduct.SubmitAppendsProduct | src/components/admin/AddProductDialog.tsx:36-52 | the stored products become the old list followed by the new product; nothing else changes |
| AddProduct.FreshIdKeepsIdsDistinct | src/components/admin/AddProductDialog.tsx:38-49 | a new id keeps the stored product ids distinct |
| AddProduct.BlankFormRefused | src/components/admin/AddProductDialog.tsx:12-33 | the form as it opens cannot be submitted |
| Consistency.StaleInventoryUpdateUndoesSale | src/components/admin/InventoryManagement.tsx:16-26 | an inventory adjustment computed from a list loaded before a sale puts the sold product's stock back, while the order stays recorded |
| Consistency.RefreshedInventoryUpdateKeepsSale | src/components/admin/InventoryManagement.tsx:16-26 | the same adjustment on a list re-read after the sale keeps the sale's decrement |
| Consistency.ConcurrentAdjustmentsLastWins | src/components/admin/InventoryManagement.tsx:20-26 | of two screens adjusting the same product from the same list, the later save decides and the earlier adjustment is lost |

## Left out

- Rendering is not modelled: JSX, styling, modal visibility, toasts, `alert`, `window.confirm` (a deletion is modelled as confirmed), QR codes, image previews, `FileReader`, hover highlighting of stars and the theme toggle. They are presentation only.
- `App.tsx`, `AdminDashboard.tsx` and `Receipt.tsx` are not part of this model. They hold session routing, resize handling, refresh wiring and display-only arithmetic.
- The seed arrays are not fixed constants but a field of the store state, so that no proof about reads and writes depends on their contents. The operations hold for any seed arrays; `Store.MockSeeds()` holds the actual arrays of `mockData.ts`, and the seed lemmas are about those.
- localStorage and JSON are abstract. The store is four optional slots; a corrupt stored value (where `JSON.parse` would throw) is not represented. Event JSON is a `Codec` parameter.
- Real browser concurrency is not modelled. BroadcastChannel timing and interleaving, and the `storage` events the browser fires in other tabs, are left out. Cross-tab delivery is one explicit step, `DataSync.CrossTab`. Concurrent screens are explicit sequences of whole-collection saves.
- Floating point is replaced by exact `real` arithmetic. This covers order totals after a discount, discount amounts, averages and percentages. `toFixed`, `Math.round` on stars and `toLocaleString` formatting are not modelled.
- `Date.now()` ids and timestamps, and today's date, are parameters.
- Number parsing is a parameter, `parse`. It is a total function, so a field that does not parse (NaN in the browser) is not represented, except where the code replaces NaN by a default (`|| 0`, `|| 1`), which is modelled with `Option`. Prices are whole numbers, so a fractional `parseFloat` price is not represented.
- Promotion discounts are whole percentages. The form reads the discount with `parseFloat` (src/components/admin/PromotionManagement.tsx:71), so a discount such as 12.5 % is possible in the source but not represented in the model.
- Case folding is ASCII-only. The browser's `toUpperCase`/`toLowerCase` fold all of Unicode (for example in src/components/customer/Cart.tsx:42, src/components/customer/CustomerShop.tsx:131, src/components/admin/PromotionManagement.tsx:70, src/components/LoginPage.tsx:59 and src/components/customer/ProductListing.tsx:19). So "ñ" and "Ñ" match in the browser but not in the model, and promotion codes, usernames and searches with non-ASCII letters are compared more strictly here.
- String length counts characters, not UTF-16 code units. `password.length` (src/components/LoginPage.tsx:44) counts a character outside the Basic Multilingual Plane, such as an emoji, as two. A password of three such characters passes the source's six-character check but is refused by `Login.SignUp`.
- After a successful order the shop switches to the history view and shows a toast (src/components/customer/CustomerShop.tsx:146-147). These are navigation and presentation; the cart being emptied (line 145) is modelled by `CustomerShop.PlaceOutcome.CartAfter`.
- The sign-up `setTimeout` is left out, as is the accounts list's own storage key: the accounts are a parameter.
- React hook re-subscription is not modelled: one stable subscription per screen. Teardown is a disposer run.
- The cart's item-count badge is left out. It is a display sum.
- Security is not modelled. Credentials are plaintext in the source; only validation and resolution are modelled.
- CustomerShop.PlaceOrderStock: it requires distinct product ids. The source looks products up by id, and with duplicate ids the stock check reads only the first match, so this case is not covered.
- Consistency.StaleInventoryUpdateUndoesSale, Consistency.RefreshedInventoryUpdateKeepsSale, Consistency.ConcurrentAdjustmentsLastWins: they require distinct product ids, for the same reason.
- Dashboard.StatusChangeMovesRevenue: it requires the order's id to be unique in the list. Otherwise every order with that id changes status.
- Reviews.AverageWithinScale, ReviewManagement.DistributionCoversAll, ReviewManagement.PercentagesSumToHundred: they require ratings between 1 and 5. The dialog only saves such ratings (ReviewDialog.SavedRatingsAreOnScale), but the store type does not enforce it.
- PromotionManagement.EditUnchangedRoundTrips: it holds only for upper-case codes, a limit other than 0 and a present count. The code changes the other cases on an unchanged save: lower-case codes are upper-cased and a limit of 0 is dropped (PromotionManagement.EditDropsZeroLimit).

## Delivery behaviour of the sync layer

Three behaviours of `broadcastChange` in src/contexts/DataSyncContext.tsx that a reader of its comments might not expect. The model follows the code in each case:

- **Each listener runs twice in the broadcasting tab.** Lines 48-53 dispatch a `storage` event to the tab's own window. Its handler (lines 85-89) calls every listener. Line 56 then calls every listener directly. `DataSync.BroadcastReachesEachListenerTwice` states this, and `DataSync.AutoRefreshInBroadcastingTab` states the resulting two refreshes.
- **A throwing listener is not isolated.** The direct loop at line 56 has no `try`, so the exception stops the loop and escapes `broadcastChange`; `DataSync.ThrowingListenerEscapesBroadcast` states this. The storage handler's `try` (lines 87-93) swallows the exception but skips the listeners after the one that threw; `DataSync.HandleStorage` states this.
- **The storage "fallback" stays in the broadcasting tab.** The comment at line 48 calls it a fallback, but `window.dispatchEvent` (line 53) reaches only the tab's own window, and nothing writes the sync key to `localStorage`. Only `channel.postMessage` (lines 44-46) reaches other tabs. `DataSync.CrossTabDeliversOnce` states that another tab hears a change once, and only when both tabs have a channel.

=== FILE: add_product.dfy ===
/** The admin Add Product dialog: its form, its validation and what
    submitting writes. Number fields are read by `parse`, standing for
    `parseInt`/`parseFloat`. */
module AddProduct {
  import opened Domain
  import Seqs
  import Store
  import DataSync
  import opened Effects

  /** The form as typed. */
  datatype ProductForm = ProductForm(
    name: string,
    category: Category,
    price: string,
    stock: string,
    description: string,
    lowStockThreshold: string,
    image: string)

  /** The form when the dialog opens and after a product is added. */
  const BlankForm: ProductForm := ProductForm("", Ceiling, "", "", "", "", "")

  /** The image used when none is given. */
  const PlaceholderImage: string := "product-placeholder"

  /** Every required field holds text; the image may stay empty. */
  predicate Complete(f: ProductForm) {
    f.name != "" && f.price != "" && f.stock != "" && f.description != "" && f.lowStockThreshold != ""
  }

  datatype AddOutcome =
    | Incomplete
    | Added(product: Product, effects: seq<Effect>)

  /** `handleSubmit`: an incomplete form is refused; otherwise the product,
      with id `newId`, is appended to a fresh read of the stored products
      and a product creation is announced. */
  function Submit(s: Store.Store, f: ProductForm, newId: string, parse: string -> int): (r: AddOutcome)
    ensures r.Incomplete? <==> !Complete(f)
    ensures r.Added? ==>
              && r.product.id == newId && r.product.name == f.name && r.product.category == f.category
              && r.product.price == parse(f.price) && r.product.stock == parse(f.stock)
              && r.product.lowStockThreshold == parse(f.lowStockThreshold)
              && r.product.description == f.description
              && (f.image == "" ==> r.product.image == PlaceholderImage)
              && (f.image != "" ==> r.product.image == f.image)
              && r.effects == [Save(Store.SaveProducts(Store.GetProducts(s) + [r.product])),
                               Notify(DataSync.Products, DataSync.Create)]
  {
    if !Complete(f) then Incomplete
    else
      var p := Product(newId, f.name, f.category, parse(f.price), parse(f.stock),
                       if f.image != "" then f.image else PlaceholderImage,
                       f.description, parse(f.lowStockThreshold));
      Added(p, [Save(Store.SaveProducts(Store.GetProducts(s) + [p])), Notify(DataSync.Products, DataSync.Create)])
  }

  /** The form after pressing Add: back to blank (category Ceiling) once a
      product was added, as typed after a refusal. */
  function FormAfterSubmit(f: ProductForm, r: AddOutcome): (next: ProductForm)
    ensures r.Added? ==> next.category == Ceiling && !Complete(next) && next.image == ""
    ensures r.Incomplete? ==> next == f
  {
    if r.Added? then BlankForm else f
  }

  /** The store afterwards holds the products that were there followed by
      the new one; nothing else changes; a product creation is announced. */
  lemma SubmitAppendsProduct(s: Store.Store, f: ProductForm, newId: string, parse: string -> int)
    ensures var r := Submit(s, f, newId, parse);
            r.Added? ==>
              var after := Run(s, r.effects);
              && Store.GetProducts(after) == Store.GetProducts(s) + [r.product]
              && after.orders == s.orders && after.promotions == s.promotions && after.reviews == s.reviews
              && Notices(r.effects) == [Notice(DataSync.Products, DataSync.Create)]
  {
    var r := Submit(s, f, newId, parse);
    if r.Added? {
      assert r.effects == [r.effects[0]] + ([r.effects[1]] + []);
      WritesCons(r.effects[0], [r.effects[1]] + []);
      WritesCons(r.effects[1], []);
      NoticesCons(r.effects[0], [r.effects[1]] + []);
      NoticesCons(r.effects[1], []);
      ApplyAllCons(s, r.effects[0].write, []);
    }
  }

  /** A new id keeps the stored product ids distinct. */
  lemma FreshIdKeepsIdsDistinct(s: Store.Store, f: ProductForm, newId: string, parse: string -> int)
    requires ProductIdsDistinct(Store.GetProducts(s))
    requires forall i :: 0 <= i < |Store.GetProducts(s)| ==> Store.GetProducts(s)[i].id != newId
    ensures var r := Submit(s, f, newId, parse);
            r.Added? ==> ProductIdsDistinct(Store.GetProducts(Run(s, r.effects)))
  {
    var r := Submit(s, f, newId, parse);
    if r.Added? {
      SubmitAppendsProduct(s, f, newId, parse);
    }
  }

  /** The blank form is refused: a product needs every field. */
  lemma BlankFormRefused(s: Store.Store, newId: string, parse: string -> int)
    ensures Submit(s, BlankForm, newId, parse).Incomplete?
  {
  }
}

=== FILE: cart.dfy ===
/** The cart screen: promo-code acceptance, the totals it shows, the
    stock-capped increment button, and the arguments it hands to
    `placeOrder`. */
module Cart {
  import opened Options
  import opened Domain
  import Seqs
  import Text
  import CustomerShop
  import Store

  /** The promotion the cart holds once a code is accepted. */
  datatype AppliedPromo = AppliedPromo(code: string, discount: int)

  const LimitMessage: string := "This promo code has reached its usage limit"
  const InvalidMessage: string := "Invalid or expired promo code"

  /** What pressing Apply leaves behind: the applied promotion (none after a
      rejection) and the error shown (empty on success). */
  datatype PromoState = PromoState(applied: Option<AppliedPromo>, error: string)

  /** The promotion answers to the typed code on `today`: same code ignoring
      case, active, and `today` within its validity window (ISO dates
      compared as strings). */
  predicate Matches(p: Promotion, typed: string, today: string) {
    && Text.Upper(p.code) == Text.Upper(typed)
    && p.active
    && Text.LexLe(p.validFrom, today)
    && Text.LexLe(today, p.validTo)
  }

  /** The usage-limit test as written: it rejects only when both counts are
      truthy, so a limit of 0, a missing limit, or a count of 0 or missing
      never rejects. */
  predicate LimitReached(p: Promotion) {
    TruthyNumber(p.maxUses) && TruthyNumber(p.currentUses) && p.currentUses.value >= p.maxUses.value
  }

  /** `applyPromoCode()` with the typed code, against the stored promotions.
      Only the first matching promotion is considered. */
  function ApplyPromoCode(promos: seq<Promotion>, typed: string, today: string): (st: PromoState)
    ensures st.applied.Some? <==> exists k :: 0 <= k < |promos| && Matches(promos[k], typed, today)
                                             && !LimitReached(promos[k])
                                             && forall j :: 0 <= j < k ==> !Matches(promos[j], typed, today)
    ensures st.applied.Some? ==> exists k :: 0 <= k < |promos| && Matches(promos[k], typed, today)
                                            && st.applied.value == AppliedPromo(promos[k].code, promos[k].discount)
    ensures st.applied.Some? <==> st.error == ""
    ensures st.error == InvalidMessage <==> forall k :: 0 <= k < |promos| ==> !Matches(promos[k], typed, today)
    ensures st.applied.None? ==> st.error == InvalidMessage || st.error == LimitMessage
  {
    var found := Seqs.Find(promos, (p: Promotion) => Matches(p, typed, today));
    match found
    case None => PromoState(None, InvalidMessage)
    case Some(p) =>
      if LimitReached(p) then
        assert exists k :: 0 <= k < |promos| && promos[k] == p && Matches(promos[k], typed, today)
                           && forall j :: 0 <= j < k ==> !Matches(promos[j], typed, today);
        FirstMatchUnique(promos, typed, today, p);
        PromoState(None, LimitMessage)
      else
        PromoState(Some(AppliedPromo(p.code, p.discount)), "")
  }

  /** Whatever index witnesses "first match" holds the promotion `find`
      returned. */
  lemma FirstMatchUnique(promos: seq<Promotion>, typed: string, today: string, p: Promotion)
    requires exists k :: 0 <= k < |promos| && promos[k] == p && Matches(promos[k], typed, today)
                         && forall j :: 0 <= j < k ==> !Matches(promos[j], typed, today)
    ensures forall k :: (0 <= k < |promos| && Matches(promos[k], typed, today)
                         && forall j :: 0 <= j < k ==> !Matches(promos[j], typed, today)) ==> promos[k] == p
  {
    var k0 :| 0 <= k0 < |promos| && promos[k0] == p && Matches(promos[k0], typed, today)
              && forall j :: 0 <= j < k0 ==> !Matches(promos[j], typed, today);
    forall k | 0 <= k < |promos| && Matches(promos[k], typed, today)
               && (forall j :: 0 <= j < k ==> !Matches(promos[j], typed, today))
      ensures promos[k] == p
    {
    }
  }

  /** The cart records the code as stored, not as typed: the stored code
      is applied for any spelling of it, with the stored discount. */
  lemma AppliedCodeIsStoredCode(promos: seq<Promotion>, k: nat, typed: string, today: string)
    requires k < |promos| && Matches(promos[k], typed, today) && !LimitReached(promos[k])
    requires forall j :: 0 <= j < k ==> !Matches(promos[j], typed, today)
    ensures ApplyPromoCode(promos, typed, today) == PromoState(Some(AppliedPromo(promos[k].code, promos[k].discount)), "")
  {
    FirstMatchUnique(promos, typed, today, promos[k]);
  }

  /** A promotion whose limit is 0, or whose use count is still 0 or
      missing, is accepted however its counts compare. */
  lemma FalsyCountsNeverLimit(p: Promotion)
    requires p.maxUses == Some(0) || p.currentUses == Some(0) || p.currentUses.None? || p.maxUses.None?
    ensures !LimitReached(p)
  {
  }

  /** A promotion with a limit of 0 and any number of uses is accepted by a
      code that matches it. */
  lemma ZeroLimitAccepted(p: Promotion, today: string)
    requires Matches(p, p.code, today)
    requires p.maxUses == Some(0) && p.currentUses == Some(7)
    ensures ApplyPromoCode([p], p.code, today).applied == Some(AppliedPromo(p.code, p.discount))
  {
  }

  /** Only the first matching promotion counts: when it has reached its
      limit the code is rejected, even if a later promotion with the same
      code would be accepted. */
  lemma FirstMatchDecides(spent: Promotion, usable: Promotion, typed: string, today: string)
    requires Matches(spent, typed, today) && LimitReached(spent)
    requires Matches(usable, typed, today) && !LimitReached(usable)
    ensures ApplyPromoCode([spent, usable], typed, today) == PromoState(None, LimitMessage)
  {
  }

  // ----- totals -----

  /** The percentage taken off the subtotal; nothing without an applied
      promotion. */
  function DiscountAmount(cart: seq<CustomerShop.CartItem>, applied: Option<AppliedPromo>): (d: real)
    ensures applied.None? ==> d == 0.0
    ensures applied.Some? ==> d == CustomerShop.CartSubtotal(cart) as real * applied.value.discount as real / 100.0
  {
    match applied
    case None => 0.0
    case Some(a) => CustomerShop.CartSubtotal(cart) as real * a.discount as real / 100.0
  }

  /** The total the cart shows: the subtotal without a promotion, and
      the remaining `100 - discount` percent of it with one. */
  function CartTotal(cart: seq<CustomerShop.CartItem>, applied: Option<AppliedPromo>): (t: real)
    ensures applied.None? ==> t == CustomerShop.CartSubtotal(cart) as real
    ensures applied.Some? ==>
              t * 100.0 == CustomerShop.CartSubtotal(cart) as real * (100 - applied.value.discount) as real
  {
    CustomerShop.CartSubtotal(cart) as real - DiscountAmount(cart, applied)
  }

  /** `onPlaceOrder(appliedPromo?.code, appliedPromo?.discount)`: both
      arguments present or both absent. */
  function PlaceOrderArgs(applied: Option<AppliedPromo>): (args: (Option<string>, Option<int>))
    ensures args.0.Some? <==> applied.Some?
    ensures args.1.Some? <==> applied.Some?
    ensures applied.Some? ==> args.0.value == applied.value.code && args.1.value == applied.value.discount
  {
    match applied
    case None => (None, None)
    case Some(a) => (Some(a.code), Some(a.discount))
  }

  /** The order placed from the cart carries the total the cart showed,
      whether or not a promotion (even a 0 % one) was applied. */
  lemma PlacedTotalMatchesCartTotal(cart: seq<CustomerShop.CartItem>, applied: Option<AppliedPromo>)
    ensures CustomerShop.DiscountedTotal(CustomerShop.CartSubtotal(cart), PlaceOrderArgs(applied).1)
            == CartTotal(cart, applied)
  {
  }

  // ----- the increment button -----

  /** The + button is disabled, and the "maximum available" warning shown,
      when the line's quantity has reached the stock of the product snapshot
      in the cart. */
  predicate AtStockLimit(item: CustomerShop.CartItem) {
    item.quantity >= item.product.stock
  }

  /** Pressing an enabled + never takes a line beyond the snapshot's stock,
      and the button is disabled again once the line reaches it. */
  lemma IncrementStaysWithinStock(cart: seq<CustomerShop.CartItem>, k: nat)
    requires k < |cart|
    requires cart[k].quantity >= 0
    requires !AtStockLimit(cart[k])
    ensures var r := CustomerShop.UpdateCartQuantity(cart, cart[k].product.id, cart[k].quantity + 1);
            r[k].quantity == cart[k].quantity + 1 && r[k].quantity <= r[k].product.stock
  {
  }
}

=== FILE: consistency.dfy ===
/** What the screens do to each other through the shared store. Every save
    replaces a whole collection, so the last save wins; a screen that
    computes its save from a list it read earlier puts that list's other
    entries back. */
module Consistency {
  import opened Options
  import opened Domain
  import Store
  import opened Effects
  import CustomerShop
  import Inventory

  /** The inventory screen loaded the products before a customer ordered.
      An adjustment of another product made from that list afterwards
      puts the ordered product's stock back to what it was before the
      sale, while the order stays recorded. */
  lemma StaleInventoryUpdateUndoesSale(s: Store.Store, cart: seq<CustomerShop.CartItem>, customer: string,
                                       promoCode: Option<string>, discount: Option<int>, orderId: string,
                                       today: string, k: nat, change: int, j: nat)
    requires ProductIdsDistinct(Store.GetProducts(s))
    requires k < |Store.GetProducts(s)| && j < |Store.GetProducts(s)| && j != k
    ensures var view := Store.GetProducts(s);
            var r := CustomerShop.PlaceOrder(s, cart, customer, promoCode, discount, orderId, today);
            var u := Inventory.HandleStockUpdate(view, view[k].id, change);
            r.Placed? ==>
              var sold := Run(s, r.effects);
              && u.Updated?
              && |Store.GetProducts(sold)| == |view| && |Store.GetProducts(Run(sold, u.effects))| == |view|
              && Store.GetProducts(sold)[j].stock == view[j].stock - CustomerShop.QuantityOf(cart, view[j].id)
              && Store.GetProducts(Run(sold, u.effects))[j].stock == view[j].stock
              && Store.GetOrders(Run(sold, u.effects)) == [r.order] + Store.GetOrders(s)
  {
    var view := Store.GetProducts(s);
    var r := CustomerShop.PlaceOrder(s, cart, customer, promoCode, discount, orderId, today);
    if r.Placed? {
      var sold := Run(s, r.effects);
      CustomerShop.PlaceOrderStock(s, cart, customer, promoCode, discount, orderId, today);
      CustomerShop.PlaceOrderPrependsOrder(s, cart, customer, promoCode, discount, orderId, today);
      Inventory.UpdateIsPointUpdate(view, k, change);
      Inventory.StockUpdateSavesList(sold, view, view[k].id, change);
    }
  }

  /** Had the screen re-read the products after the sale's announcement,
      the same adjustment would keep the sale. */
  lemma RefreshedInventoryUpdateKeepsSale(s: Store.Store, cart: seq<CustomerShop.CartItem>, customer: string,
                                          promoCode: Option<string>, discount: Option<int>, orderId: string,
                                          today: string, k: nat, change: int, j: nat)
    requires ProductIdsDistinct(Store.GetProducts(s))
    requires k < |Store.GetProducts(s)| && j < |Store.GetProducts(s)| && j != k
    ensures var view := Store.GetProducts(s);
            var r := CustomerShop.PlaceOrder(s, cart, customer, promoCode, discount, orderId, today);
            r.Placed? ==>
              var sold := Run(s, r.effects);
              var reread := Store.GetProducts(sold);
              var u := Inventory.HandleStockUpdate(reread, view[k].id, change);
              && u.Updated?
              && |Store.GetProducts(Run(sold, u.effects))| == |view|
              && Store.GetProducts(Run(sold, u.effects))[j].stock
                 == view[j].stock - CustomerShop.QuantityOf(cart, view[j].id)
  {
    var view := Store.GetProducts(s);
    var r := CustomerShop.PlaceOrder(s, cart, customer, promoCode, discount, orderId, today);
    if r.Placed? {
      var sold := Run(s, r.effects);
      var reread := Store.GetProducts(sold);
      CustomerShop.PlaceOrderStock(s, cart, customer, promoCode, discount, orderId, today);
      assert |reread| == |view|;
      assert reread[k].id == view[k].id;
      SameIdsKeepDistinct(view, reread);
      Inventory.UpdateIsPointUpdate(reread, k, change);
      Inventory.StockUpdateSavesList(sold, reread, view[k].id, change);
    }
  }

  /** Two inventory screens that loaded the same list each adjust the same
      product: the second save wins and the first adjustment is lost. */
  lemma ConcurrentAdjustmentsLastWins(s: Store.Store, k: nat, a: int, b: int)
    requires ProductIdsDistinct(Store.GetProducts(s)) && k < |Store.GetProducts(s)|
    ensures var view := Store.GetProducts(s);
            var first := Inventory.HandleStockUpdate(view, view[k].id, a);
            var second := Inventory.HandleStockUpdate(view, view[k].id, b);
            && first.Updated? && second.Updated?
            && |Store.GetProducts(Run(Run(s, first.effects), second.effects))| == |view|
            && Store.GetProducts(Run(Run(s, first.effects), second.effects))[k].stock
               == Inventory.ClampedStock(view[k].stock, b)
  {
    var view := Store.GetProducts(s);
    Inventory.UpdateIsPointUpdate(view, k, a);
    Inventory.UpdateIsPointUpdate(view, k, b);
    var first := Inventory.HandleStockUpdate(view, view[k].id, a);
    Inventory.StockUpdateSavesList(Run(s, first.effects), view, view[k].id, b);
  }
}

=== FILE: customer_shop.dfy ===
/** The customer's cart and order placement (the `CustomerShop` screen).
    The cart is screen state: a list of lines, each a product snapshot taken
    when it was added and a quantity. `placeOrder` re-reads the store and
    returns its effects in the order the screen performs them. */
module CustomerShop {
  import opened Options
  import opened Domain
  import Seqs
  import Text
  import Store
  import DataSync
  import opened Effects

  datatype CartItem = CartItem(product: Product, quantity: int)

  /** The cart has a line for product `id`. */
  predicate HasLine(cart: seq<CartItem>, id: string) {
    exists i :: 0 <= i < |cart| && cart[i].product.id == id
  }

  /** No two cart lines are for the same product. */
  predicate CartIdsDistinct(cart: seq<CartItem>) {
    forall i, j :: 0 <= i < j < |cart| ==> cart[i].product.id != cart[j].product.id
  }

  /** The quantity on the first line for product `id`, 0 when there is
      none; this is the line `cart.find` returns. */
  function QuantityOf(cart: seq<CartItem>, id: string): int
    decreases |cart|
  {
    if |cart| == 0 then 0
    else if cart[0].product.id == id then cart[0].quantity
    else QuantityOf(cart[1..], id)
  }

  lemma {:induction false} HasLineCons(cart: seq<CartItem>, id: string)
    requires |cart| > 0
    ensures HasLine(cart, id) <==> cart[0].product.id == id || HasLine(cart[1..], id)
  {
    if HasLine(cart, id) && cart[0].product.id != id {
      var i :| 0 <= i < |cart| && cart[i].product.id == id;
      assert cart[1..][i - 1].product.id == id;
    }
    if HasLine(cart[1..], id) {
      var i :| 0 <= i < |cart[1..]| && cart[1..][i].product.id == id;
      assert cart[i + 1].product.id == id;
    }
  }

  /** Without a line for `id` the quantity is 0. */
  lemma {:induction false} QuantityOfAbsent(cart: seq<CartItem>, id: string)
    requires !HasLine(cart, id)
    ensures QuantityOf(cart, id) == 0
    decreases |cart|
  {
    if |cart| > 0 {
      HasLineCons(cart, id);
      QuantityOfAbsent(cart[1..], id);
    }
  }

  /** The lines for `id` have their quantity replaced by `f` of it; every
      line keeps its product and its place. */
  function Retarget(cart: seq<CartItem>, id: string, f: int -> int): (r: seq<CartItem>)
    ensures |r| == |cart|
    ensures forall i :: 0 <= i < |cart| ==> r[i].product == cart[i].product
    ensures forall i :: 0 <= i < |cart| && cart[i].product.id == id ==> r[i].quantity == f(cart[i].quantity)
    ensures forall i :: 0 <= i < |cart| && cart[i].product.id != id ==> r[i] == cart[i]
    ensures CartIdsDistinct(cart) ==> CartIdsDistinct(r)
    decreases |cart|
  {
    if |cart| == 0 then []
    else
      var head := if cart[0].product.id == id then cart[0].(quantity := f(cart[0].quantity)) else cart[0];
      [head] + Retarget(cart[1..], id, f)
  }

  /** What `Retarget` does to the quantities `find` reads: the lines for
      `id` read `f` of the old quantity, and every other product reads as
      before. */
  lemma {:induction false} RetargetQuantities(cart: seq<CartItem>, id: string, f: int -> int)
    ensures HasLine(cart, id) ==> QuantityOf(Retarget(cart, id, f), id) == f(QuantityOf(cart, id))
    ensures forall other :: other != id ==> QuantityOf(Retarget(cart, id, f), other) == QuantityOf(cart, other)
    ensures HasLine(Retarget(cart, id, f), id) == HasLine(cart, id)
    ensures !HasLine(cart, id) ==> Retarget(cart, id, f) == cart
    decreases |cart|
  {
    if |cart| > 0 {
      var r := Retarget(cart, id, f);
      RetargetQuantities(cart[1..], id, f);
      assert r[1..] == Retarget(cart[1..], id, f);
      HasLineCons(cart, id);
      HasLineCons(r, id);
    }
  }

  /** `addToCart(product, quantity)`: a product already in the cart gets its
      quantity raised, in place; a new product is appended as a new line.
      Stock is not consulted. */
  function AddToCart(cart: seq<CartItem>, product: Product, quantity: int): (r: seq<CartItem>)
    ensures HasLine(cart, product.id) ==> |r| == |cart|
    ensures !HasLine(cart, product.id) ==> |r| == |cart| + 1 && r[|cart|] == CartItem(product, quantity)
    ensures forall i :: 0 <= i < |cart| ==> r[i].product == cart[i].product
    ensures HasLine(r, product.id)
    ensures QuantityOf(r, product.id) == QuantityOf(cart, product.id) + quantity
    ensures forall other :: other != product.id ==> QuantityOf(r, other) == QuantityOf(cart, other)
    ensures CartIdsDistinct(cart) ==> CartIdsDistinct(r)
  {
    if HasLine(cart, product.id) then
      RetargetQuantities(cart, product.id, q => q + quantity);
      Retarget(cart, product.id, q => q + quantity)
    else
      var r := cart + [CartItem(product, quantity)];
      QuantityOfAbsent(cart, product.id);
      QuantityOfAppend(cart, CartItem(product, quantity));
      forall other | !HasLine(cart, other) ensures QuantityOf(cart, other) == 0 {
        QuantityOfAbsent(cart, other);
      }
      assert r[|cart|].product.id == product.id;
      r
  }

  /** Appending a line changes no quantity already in the cart, and gives a
      new product the appended line's quantity. */
  lemma {:induction false} QuantityOfAppend(cart: seq<CartItem>, x: CartItem)
    ensures forall id :: HasLine(cart, id) ==> QuantityOf(cart + [x], id) == QuantityOf(cart, id)
    ensures !HasLine(cart, x.product.id) ==> QuantityOf(cart + [x], x.product.id) == x.quantity
    ensures forall id :: id != x.product.id && !HasLine(cart, id) ==> QuantityOf(cart + [x], id) == 0
    decreases |cart|
  {
    if |cart| == 0 {
      assert forall id :: !HasLine(cart, id);
      assert ([] + [x])[1..] == [];
    } else {
      assert (cart + [x])[1..] == cart[1..] + [x];
      QuantityOfAppend(cart[1..], x);
      forall id ensures HasLine(cart, id) <==> cart[0].product.id == id || HasLine(cart[1..], id) {
        HasLineCons(cart, id);
      }
    }
  }

  /** `removeFromCart(productId)`: keeps every line for another product, in
      order. */
  function RemoveFromCart(cart: seq<CartItem>, id: string): (r: seq<CartItem>)
    ensures !HasLine(r, id)
    ensures forall i :: 0 <= i < |cart| && cart[i].product.id != id ==> cart[i] in r
    ensures forall i :: 0 <= i < |r| ==> r[i] in cart
    ensures !HasLine(cart, id) ==> r == cart
    ensures Seqs.Subsequence(r, cart)
    ensures forall x :: multiset(r)[x] == if x.product.id != id then multiset(cart)[x] else 0
  {
    var keep := (item: CartItem) => item.product.id != id;
    var r := Seqs.Filter(cart, keep);
    assert forall x :: multiset(r)[x] == if x.product.id != id then multiset(cart)[x] else 0 by {
      forall x ensures multiset(r)[x] == if x.product.id != id then multiset(cart)[x] else 0 {
        Seqs.FilterMultiplicity(cart, keep, x);
      }
    }
    Seqs.FilterSubsequence(cart, keep);
    if !HasLine(cart, id) then
      Seqs.FilterAllPass(cart, keep);
      r
    else
      r
  }

  /** Removing a product's lines leaves every other product's quantity
      alone. */
  lemma {:induction false} RemoveKeepsOtherQuantities(cart: seq<CartItem>, id: string, other: string)
    requires other != id
    ensures QuantityOf(RemoveFromCart(cart, id), other) == QuantityOf(cart, other)
    decreases |cart|
  {
    if |cart| > 0 {
      RemoveKeepsOtherQuantities(cart[1..], id, other);
    }
  }

  /** `updateCartQuantity(productId, quantity)`: a quantity of 0 or less
      removes the product; any other quantity replaces it on the product's
      line and touches nothing else. */
  function UpdateCartQuantity(cart: seq<CartItem>, id: string, quantity: int): (r: seq<CartItem>)
    ensures quantity <= 0 ==> r == RemoveFromCart(cart, id)
    ensures quantity > 0 ==> |r| == |cart| && forall i :: 0 <= i < |cart| ==> r[i].product == cart[i].product
    ensures quantity > 0 && HasLine(cart, id) ==> QuantityOf(r, id) == quantity
    ensures quantity > 0 ==> forall i :: 0 <= i < |cart| && cart[i].product.id == id ==> r[i].quantity == quantity
    ensures quantity > 0 && !HasLine(cart, id) ==> r == cart
    ensures forall other :: other != id ==> QuantityOf(r, other) == QuantityOf(cart, other)
  {
    if quantity <= 0 then
      var r := RemoveFromCart(cart, id);
      forall other | other != id ensures QuantityOf(r, other) == QuantityOf(cart, other) {
        RemoveKeepsOtherQuantities(cart, id, other);
      }
      r
    else
      RetargetQuantities(cart, id, q => quantity);
      Retarget(cart, id, q => quantity)
  }

  /** `clearCart()`. */
  function ClearCart(): (r: seq<CartItem>)
    ensures forall id :: !HasLine(r, id)
  {
    []
  }

  /** The cart never holds two lines for one product, whatever sequence of
      add, update and remove built it. */
  lemma CartOperationsKeepLinesDistinct(cart: seq<CartItem>, product: Product, id: string, q: int)
    requires CartIdsDistinct(cart)
    ensures CartIdsDistinct(AddToCart(cart, product, q))
    ensures CartIdsDistinct(UpdateCartQuantity(cart, id, q))
    ensures CartIdsDistinct(RemoveFromCart(cart, id))
  {
    RemovePreservesDistinct(cart, id);
  }

  lemma {:induction false} RemovePreservesDistinct(cart: seq<CartItem>, id: string)
    requires CartIdsDistinct(cart)
    ensures CartIdsDistinct(RemoveFromCart(cart, id))
    decreases |cart|
  {
    if |cart| > 0 {
      RemovePreservesDistinct(cart[1..], id);
      var r := RemoveFromCart(cart, id);
      var rest := RemoveFromCart(cart[1..], id);
      if cart[0].product.id != id {
        assert r == [cart[0]] + rest;
        forall j | 0 <= j < |rest| ensures rest[j].product.id != cart[0].product.id {
          assert rest[j] in cart[1..];
        }
      }
    }
  }

  /** The cart lets a product be added beyond its stock: nothing caps the
      quantity until the order is placed. */
  lemma AddToCartIgnoresStock(p: Product)
    requires p.stock == 1
    ensures QuantityOf(AddToCart(AddToCart([], p, 1), p, 1), p.id) == 2
  {
  }

  // ----- placeOrder -----

  /** Price times quantity of a cart line, at the price captured in the
      cart. */
  function LineTotal(item: CartItem): int {
    item.product.price * item.quantity
  }

  /** `cart.reduce((sum, item) => sum + item.product.price * item.quantity, 0)`. */
  function CartSubtotal(cart: seq<CartItem>): int {
    Seqs.Sum(cart, LineTotal)
  }

  /** The total of an order for a subtotal and an optional percentage
      discount; a missing or zero discount leaves the subtotal. The value
      is exact, where the browser computes it in floating point. */
  function DiscountedTotal(subtotal: int, discount: Option<int>): (t: real)
    ensures !TruthyNumber(discount) ==> t == subtotal as real
    ensures TruthyNumber(discount) ==> t == subtotal as real * (100 - discount.value) as real / 100.0
  {
    var off := if TruthyNumber(discount) then subtotal as real * discount.value as real / 100.0 else 0.0;
    subtotal as real - off
  }

  /** A discount between 0 and 100 percent keeps a non-negative total within
      the subtotal. */
  lemma DiscountedTotalBounds(subtotal: int, discount: Option<int>)
    requires subtotal >= 0
    requires discount.Some? ==> 0 <= discount.value <= 100
    ensures 0.0 <= DiscountedTotal(subtotal, discount) <= subtotal as real
  {
    if TruthyNumber(discount) {
      var a := subtotal as real;
      var k := (100 - discount.value) as real;
      assert 0.0 <= a * k <= a * 100.0;
    }
  }

  /** The line cannot be served: its product is gone from the store, or the
      stored stock is below the line's quantity. */
  predicate Unavailable(ps: seq<Product>, item: CartItem) {
    var cur := FindProduct(ps, item.product.id);
    cur.None? || cur.value.stock < item.quantity
  }

  /** The order lines: id, name and price from the cart's snapshot, and the
      cart quantity. */
  function OrderItems(cart: seq<CartItem>): (items: seq<OrderItem>)
    ensures |items| == |cart|
    ensures forall i :: 0 <= i < |cart| ==>
              items[i].productId == cart[i].product.id && items[i].productName == cart[i].product.name
              && items[i].quantity == cart[i].quantity && items[i].price == cart[i].product.price
  {
    seq(|cart|, i requires 0 <= i < |cart| =>
      OrderItem(cart[i].product.id, cart[i].product.name, cart[i].quantity, cart[i].product.price))
  }

  /** The order lines add up to the cart subtotal. */
  lemma {:induction false} OrderItemsSubtotal(cart: seq<CartItem>)
    ensures ItemsSubtotal(OrderItems(cart)) == CartSubtotal(cart)
    decreases |cart|
  {
    if |cart| > 0 {
      OrderItemsSubtotal(cart[1..]);
      assert OrderItems(cart)[1..] == OrderItems(cart[1..]);
    }
  }

  /** Every stored product that the cart holds loses the cart quantity; the
      others are kept as they are. */
  function DecrementStock(ps: seq<Product>, cart: seq<CartItem>): (r: seq<Product>)
    ensures |r| == |ps|
    ensures forall i :: 0 <= i < |ps| ==> r[i] == ps[i].(stock := ps[i].stock - QuantityOf(cart, ps[i].id))
  {
    var r := seq(|ps|, i requires 0 <= i < |ps| =>
      if HasLine(cart, ps[i].id) then ps[i].(stock := ps[i].stock - QuantityOf(cart, ps[i].id)) else ps[i]);
    forall i | 0 <= i < |ps| && !HasLine(cart, ps[i].id) ensures QuantityOf(cart, ps[i].id) == 0 {
      QuantityOfAbsent(cart, ps[i].id);
    }
    r
  }

  /** Every promotion whose code matches `code` ignoring case has its use
      count raised by one (a missing count counts as 0). */
  function IncrementUses(promos: seq<Promotion>, code: string): (r: seq<Promotion>)
    ensures |r| == |promos|
    ensures forall i :: 0 <= i < |promos| && Text.Upper(promos[i].code) == Text.Upper(code) ==>
              r[i] == promos[i].(currentUses := Some(UsesOrZero(promos[i]) + 1))
    ensures forall i :: 0 <= i < |promos| && Text.Upper(promos[i].code) != Text.Upper(code) ==> r[i] == promos[i]
  {
    seq(|promos|, i requires 0 <= i < |promos| =>
      if Text.Upper(promos[i].code) == Text.Upper(code)
      then promos[i].(currentUses := Some(UsesOrZero(promos[i]) + 1))
      else promos[i])
  }

  datatype PlaceOutcome =
    | OutOfStock(item: CartItem)
    | Placed(order: Order, effects: seq<Effect>)
  {
    /** What the call did to the outside world. */
    function Trace(): seq<Effect> {
      if Placed? then effects else []
    }

    /** The cart the shop holds after the call: `clearCart()` runs only
        once the order is placed. */
    function CartAfter(cart: seq<CartItem>): seq<CartItem> {
      if Placed? then ClearCart() else cart
    }
  }

  /** The effects after the stock check: save the decremented products,
      announce inventory and products, prepend the order to a fresh read of
      the orders and announce it, then, with a promo code, raise its use
      count and announce promotions. */
  function PlacementEffects(s: Store.Store, cart: seq<CartItem>, order: Order, promoCode: Option<string>): seq<Effect> {
    var s1 := Store.Apply(s, Store.SaveProducts(DecrementStock(Store.GetProducts(s), cart)));
    var s2 := Store.Apply(s1, Store.SaveOrders([order] + Store.GetOrders(s1)));
    Shape(Store.SaveProducts(DecrementStock(Store.GetProducts(s), cart)),
          Store.SaveOrders([order] + Store.GetOrders(s1)),
          PromoEffects(s2, promoCode))
  }

  /** With a promo code: raise its use count and announce promotions. */
  function PromoEffects(s: Store.Store, promoCode: Option<string>): seq<Effect> {
    if TruthyText(promoCode) then
      [Save(Store.SavePromotions(IncrementUses(Store.GetPromotions(s), promoCode.value)))]
      + [Notify(DataSync.Promotions, DataSync.Update)]
    else []
  }

  /** `placeOrder(promoCode, discount)` by `customer` on `today`, the new
      order taking id `orderId`. The first cart line that the store cannot
      serve aborts the call before anything is written. */
  function PlaceOrder(s: Store.Store, cart: seq<CartItem>, customer: string, promoCode: Option<string>,
                      discount: Option<int>, orderId: string, today: string): (r: PlaceOutcome)
    ensures r.OutOfStock? <==> exists i :: 0 <= i < |cart| && Unavailable(Store.GetProducts(s), cart[i])
    ensures r.OutOfStock? ==> r.item in cart && Unavailable(Store.GetProducts(s), r.item) && r.Trace() == []
    ensures r.OutOfStock? ==> r.CartAfter(cart) == cart
    ensures r.Placed? ==> forall id :: !HasLine(r.CartAfter(cart), id)
    ensures r.Placed? ==>
              && r.order.id == orderId && r.order.customerName == customer
              && r.order.status == Pending && r.order.date == today
              && r.order.promoCode == promoCode && r.order.discount == discount
              && r.order.items == OrderItems(cart)
              && ItemsSubtotal(r.order.items) == CartSubtotal(cart)
              && r.order.total == DiscountedTotal(ItemsSubtotal(r.order.items), discount)
  {
    var ps := Store.GetProducts(s);
    match Seqs.Find(cart, (item: CartItem) => Unavailable(ps, item))
    case Some(item) => OutOfStock(item)
    case None =>
      var subtotal := CartSubtotal(cart);
      var order := Order(orderId, customer, OrderItems(cart), DiscountedTotal(subtotal, discount),
                         Pending, today, promoCode, discount);
      OrderItemsSubtotal(cart);
      Placed(order, PlacementEffects(s, cart, order, promoCode))
  }

  /** The saves of a placement, spelled out. */
  lemma PlacementWrites(s: Store.Store, cart: seq<CartItem>, order: Order, promoCode: Option<string>)
    ensures var ps := DecrementStock(Store.GetProducts(s), cart);
            var os := [order] + Store.GetOrders(s);
            Writes(PlacementEffects(s, cart, order, promoCode))
              == [Store.SaveProducts(ps), Store.SaveOrders(os)]
                 + (if TruthyText(promoCode) then [Store.SavePromotions(IncrementUses(Store.GetPromotions(s), promoCode.value))] else [])
  {
    var ps := DecrementStock(Store.GetProducts(s), cart);
    var s1 := Store.Apply(s, Store.SaveProducts(ps));
    var s2 := Store.Apply(s1, Store.SaveOrders([order] + Store.GetOrders(s1)));
    PlacementShape(Store.SaveProducts(ps), Store.SaveOrders([order] + Store.GetOrders(s1)), PromoEffects(s2, promoCode));
    PromoShape(s2, promoCode);
  }

  /** The notices of a placement, spelled out. */
  lemma PlacementNotices(s: Store.Store, cart: seq<CartItem>, order: Order, promoCode: Option<string>)
    ensures Notices(PlacementEffects(s, cart, order, promoCode))
              == [Notice(DataSync.Inventory, DataSync.Update), Notice(DataSync.Products, DataSync.Update),
                  Notice(DataSync.Orders, DataSync.Create)]
                 + (if TruthyText(promoCode) then [Notice(DataSync.Promotions, DataSync.Update)] else [])
  {
    var ps := DecrementStock(Store.GetProducts(s), cart);
    var s1 := Store.Apply(s, Store.SaveProducts(ps));
    var s2 := Store.Apply(s1, Store.SaveOrders([order] + Store.GetOrders(s1)));
    PlacementShape(Store.SaveProducts(ps), Store.SaveOrders([order] + Store.GetOrders(s1)), PromoEffects(s2, promoCode));
    PromoShape(s2, promoCode);
  }

  /** A trace shaped like a placement: save, two notices, save, notice,
      then `tail`. */
  function Shape(w1: Store.Write, w2: Store.Write, tail: seq<Effect>): seq<Effect> {
    [Save(w1)] + ([Notify(DataSync.Inventory, DataSync.Update)]
    + ([Notify(DataSync.Products, DataSync.Update)] + ([Save(w2)]
    + ([Notify(DataSync.Orders, DataSync.Create)] + tail))))
  }

  lemma PlacementShape(w1: Store.Write, w2: Store.Write, tail: seq<Effect>)
    ensures Writes(Shape(w1, w2, tail)) == [w1, w2] + Writes(tail)
    ensures Notices(Shape(w1, w2, tail))
              == [Notice(DataSync.Inventory, DataSync.Update), Notice(DataSync.Products, DataSync.Update),
                  Notice(DataSync.Orders, DataSync.Create)] + Notices(tail)
  {
    ShapeWrites(w1, w2, tail);
    ShapeNotices(w1, w2, tail);
  }

  lemma ShapeWrites(w1: Store.Write, w2: Store.Write, tail: seq<Effect>)
    ensures Writes(Shape(w1, w2, tail)) == [w1, w2] + Writes(tail)
  {
    var e4 := [Notify(DataSync.Orders, DataSync.Create)] + tail;
    var e3 := [Save(w2)] + e4;
    var e2 := [Notify(DataSync.Products, DataSync.Update)] + e3;
    var e1 := [Notify(DataSync.Inventory, DataSync.Update)] + e2;
    WritesCons(Notify(DataSync.Orders, DataSync.Create), tail);
    WritesCons(Save(w2), e4);
    assert Writes(e3) == [w2] + Writes(tail);
    WritesCons(Notify(DataSync.Products, DataSync.Update), e3);
    WritesCons(Notify(DataSync.Inventory, DataSync.Update), e2);
    WritesCons(Save(w1), e1);
    assert Writes(Shape(w1, w2, tail)) == [w1] + ([w2] + Writes(tail));
  }

  lemma ShapeNotices(w1: Store.Write, w2: Store.Write, tail: seq<Effect>)
    ensures Notices(Shape(w1, w2, tail))
              == [Notice(DataSync.Inventory, DataSync.Update), Notice(DataSync.Products, DataSync.Update),
                  Notice(DataSync.Orders, DataSync.Create)] + Notices(tail)
  {
    var e4 := [Notify(DataSync.Orders, DataSync.Create)] + tail;
    var e3 := [Save(w2)] + e4;
    var e2 := [Notify(DataSync.Products, DataSync.Update)] + e3;
    var e1 := [Notify(DataSync.Inventory, DataSync.Update)] + e2;
    var tn := Notices(tail);
    NoticesCons(Notify(DataSync.Orders, DataSync.Create), tail);
    NoticesCons(Save(w2), e4);
    assert Notices(e3) == [Notice(DataSync.Orders, DataSync.Create)] + tn;
    NoticesCons(Notify(DataSync.Products, DataSync.Update), e3);
    NoticesCons(Notify(DataSync.Inventory, DataSync.Update), e2);
    NoticesCons(Save(w1), e1);
    assert Notices(e1) == [Notice(DataSync.Inventory, DataSync.Update)] + Notices(e2);
    assert Notices(Shape(w1, w2, tail))
             == [Notice(DataSync.Inventory, DataSync.Update)] + ([Notice(DataSync.Products, DataSync.Update)]
                + ([Notice(DataSync.Orders, DataSync.Create)] + Notices(tail)));
  }

  /** The saves and notices of the promotion step. */
  lemma PromoShape(s: Store.Store, promoCode: Option<string>)
    ensures Writes(PromoEffects(s, promoCode))
              == if TruthyText(promoCode) then [Store.SavePromotions(IncrementUses(Store.GetPromotions(s), promoCode.value))] else []
    ensures Notices(PromoEffects(s, promoCode))
              == if TruthyText(promoCode) then [Notice(DataSync.Promotions, DataSync.Update)] else []
  {
    if TruthyText(promoCode) {
      var w := Store.SavePromotions(IncrementUses(Store.GetPromotions(s), promoCode.value));
      assert PromoEffects(s, promoCode) == [Save(w)] + [Notify(DataSync.Promotions, DataSync.Update)];
      WritesCons(Save(w), [Notify(DataSync.Promotions, DataSync.Update)]);
      WritesCons(Notify(DataSync.Promotions, DataSync.Update), []);
      NoticesCons(Save(w), [Notify(DataSync.Promotions, DataSync.Update)]);
      NoticesCons(Notify(DataSync.Promotions, DataSync.Update), []);
    }
  }

  /** The store after a placement: products and orders replaced, and the
      promotions too when a promo code was used; reviews untouched. */
  lemma PlacementStore(s: Store.Store, cart: seq<CartItem>, order: Order, promoCode: Option<string>)
    ensures var ps := DecrementStock(Store.GetProducts(s), cart);
            var os := [order] + Store.GetOrders(s);
            var after := Run(s, PlacementEffects(s, cart, order, promoCode));
            && after.products == Some(ps) && after.orders == Some(os) && after.reviews == s.reviews
            && after.promotions == if TruthyText(promoCode)
                                   then Some(IncrementUses(Store.GetPromotions(s), promoCode.value))
                                   else s.promotions
  {
    var ps := DecrementStock(Store.GetProducts(s), cart);
    var os := [order] + Store.GetOrders(s);
    PlacementWrites(s, cart, order, promoCode);
    var tail := if TruthyText(promoCode) then [Store.SavePromotions(IncrementUses(Store.GetPromotions(s), promoCode.value))] else [];
    assert [Store.SaveProducts(ps), Store.SaveOrders(os)] + tail == [Store.SaveProducts(ps)] + ([Store.SaveOrders(os)] + tail);
    var s1 := Store.Apply(s, Store.SaveProducts(ps));
    ApplyAllCons(s, Store.SaveProducts(ps), [Store.SaveOrders(os)] + tail);
    ApplyAllCons(s1, Store.SaveOrders(os), tail);
    if TruthyText(promoCode) {
      ApplyAllCons(Store.Apply(s1, Store.SaveOrders(os)), tail[0], []);
      assert tail == [tail[0]] + [];
    }
  }

  /** The broadcasts of a successful placement, in order: inventory,
      products, orders, and promotions only when a promo code was used. */
  lemma PlaceOrderBroadcastOrder(s: Store.Store, cart: seq<CartItem>, customer: string, promoCode: Option<string>,
                                 discount: Option<int>, orderId: string, today: string)
    ensures var r := PlaceOrder(s, cart, customer, promoCode, discount, orderId, today);
            r.Placed? ==>
              Notices(r.effects)
                == [Notice(DataSync.Inventory, DataSync.Update), Notice(DataSync.Products, DataSync.Update),
                    Notice(DataSync.Orders, DataSync.Create)]
                   + (if TruthyText(promoCode) then [Notice(DataSync.Promotions, DataSync.Update)] else [])
  {
    var r := PlaceOrder(s, cart, customer, promoCode, discount, orderId, today);
    if r.Placed? {
      PlacementNotices(s, cart, r.order, promoCode);
    }
  }

  /** After a successful placement the stored orders are the new order
      followed by the orders that were there before. */
  lemma PlaceOrderPrependsOrder(s: Store.Store, cart: seq<CartItem>, customer: string, promoCode: Option<string>,
                                discount: Option<int>, orderId: string, today: string)
    ensures var r := PlaceOrder(s, cart, customer, promoCode, discount, orderId, today);
            r.Placed? ==>
              && Store.GetOrders(Run(s, r.effects)) == [r.order] + Store.GetOrders(s)
              && Store.GetReviews(Run(s, r.effects)) == Store.GetReviews(s)
  {
    var r := PlaceOrder(s, cart, customer, promoCode, discount, orderId, today);
    if r.Placed? {
      PlacementStore(s, cart, r.order, promoCode);
    }
  }

  /** After a successful placement every product keeps its place and its
      other fields, loses exactly the quantity the cart holds of it, and no
      product the cart holds goes negative. Products are found by id, so
      this needs product ids to be distinct. */
  lemma PlaceOrderStock(s: Store.Store, cart: seq<CartItem>, customer: string, promoCode: Option<string>,
                        discount: Option<int>, orderId: string, today: string)
    requires ProductIdsDistinct(Store.GetProducts(s))
    ensures var r := PlaceOrder(s, cart, customer, promoCode, discount, orderId, today);
            var before := Store.GetProducts(s);
            var after := Store.GetProducts(Run(s, r.Trace()));
            && (r.OutOfStock? ==> after == before)
            && (r.Placed? ==> |after| == |before|)
            && (r.Placed? ==> forall i :: 0 <= i < |before| ==>
                  after[i] == before[i].(stock := before[i].stock - QuantityOf(cart, before[i].id)))
            && (r.Placed? ==> forall i :: 0 <= i < |before| && HasLine(cart, before[i].id) ==> after[i].stock >= 0)
            && (r.Placed? ==> forall i :: 0 <= i < |before| && !HasLine(cart, before[i].id) ==> after[i] == before[i])
  {
    var r := PlaceOrder(s, cart, customer, promoCode, discount, orderId, today);
    var before := Store.GetProducts(s);
    if r.Placed? {
      PlacementStore(s, cart, r.order, promoCode);
      forall i | 0 <= i < |before| && HasLine(cart, before[i].id)
        ensures before[i].stock - QuantityOf(cart, before[i].id) >= 0
      {
        var k := FirstLine(cart, before[i].id);
        assert !Unavailable(before, cart[k]);
      }
      forall i | 0 <= i < |before| && !HasLine(cart, before[i].id)
        ensures QuantityOf(cart, before[i].id) == 0
      {
        QuantityOfAbsent(cart, before[i].id);
      }
    }
  }

  /** The index of the line `QuantityOf` reads. */
  lemma {:induction false} FirstLine(cart: seq<CartItem>, id: string) returns (k: nat)
    requires HasLine(cart, id)
    ensures k < |cart| && cart[k].product.id == id && cart[k].quantity == QuantityOf(cart, id)
    decreases |cart|
  {
    HasLineCons(cart, id);
    if cart[0].product.id == id {
      k := 0;
    } else {
      var j := FirstLine(cart[1..], id);
      k := j + 1;
    }
  }

  /** A promo code raises the use count of every promotion whose code
      matches it ignoring case; without a code the promotions are left
      alone. */
  lemma PlaceOrderCountsPromoUse(s: Store.Store, cart: seq<CartItem>, customer: string, promoCode: Option<string>,
                                 discount: Option<int>, orderId: string, today: string)
    ensures var r := PlaceOrder(s, cart, customer, promoCode, discount, orderId, today);
            r.Placed? ==>
              Store.GetPromotions(Run(s, r.effects))
                == if TruthyText(promoCode) then IncrementUses(Store.GetPromotions(s), promoCode.value)
                   else Store.GetPromotions(s)
  {
    var r := PlaceOrder(s, cart, customer, promoCode, discount, orderId, today);
    if r.Placed? {
      PlacementStore(s, cart, r.order, promoCode);
    }
  }

  /** A listener that throws during the first broadcast stops `placeOrder`
      after the stock has been saved and before the order is: the stock is
      gone and no order records it. */
  lemma InterruptedPlacementLosesStock(s: Store.Store, cart: seq<CartItem>, customer: string, promoCode: Option<string>,
                                       discount: Option<int>, orderId: string, today: string)
    ensures var r := PlaceOrder(s, cart, customer, promoCode, discount, orderId, today);
            r.Placed? ==>
              var ran := Run(s, r.effects[..2]);
              && r.effects[1] == Notify(DataSync.Inventory, DataSync.Update)
              && Store.GetProducts(ran) == DecrementStock(Store.GetProducts(s), cart)
              && Store.GetOrders(ran) == Store.GetOrders(s)
  {
    var r := PlaceOrder(s, cart, customer, promoCode, discount, orderId, today);
    if r.Placed? {
      var ps := DecrementStock(Store.GetProducts(s), cart);
      var pre := r.effects[..2];
      assert pre == [Save(Store.SaveProducts(ps))] + ([Notify(DataSync.Inventory, DataSync.Update)] + []);
      WritesCons(Save(Store.SaveProducts(ps)), [Notify(DataSync.Inventory, DataSync.Update)] + []);
      WritesCons(Notify(DataSync.Inventory, DataSync.Update), []);
      ApplyAllCons(s, Store.SaveProducts(ps), []);
    }
  }
}

=== FILE: dashboard.dfy ===
/** The admin dashboard's figures: products, total stock, low-stock
    products, pending orders, revenue and the five most recent orders. */
module Dashboard {
  import opened Options
  import opened Domain
  import Seqs
  import Store
  import opened Effects
  import CustomerShop
  import OrderManagement
  import Inventory

  /** The products at or below their threshold, in order. */
  function LowStockProducts(ps: seq<Product>): (r: seq<Product>)
    ensures forall i :: 0 <= i < |r| ==> r[i] in ps && IsLowStock(r[i])
    ensures forall i :: 0 <= i < |ps| && IsLowStock(ps[i]) ==> ps[i] in r
    ensures Seqs.Subsequence(r, ps)
    ensures forall x :: multiset(r)[x] == if IsLowStock(x) then multiset(ps)[x] else 0
  {
    var r := Seqs.Filter(ps, IsLowStock);
    assert forall x :: multiset(r)[x] == if IsLowStock(x) then multiset(ps)[x] else 0 by {
      forall x ensures multiset(r)[x] == if IsLowStock(x) then multiset(ps)[x] else 0 {
        Seqs.FilterMultiplicity(ps, IsLowStock, x);
      }
    }
    Seqs.FilterSubsequence(ps, IsLowStock);
    r
  }

  /** The dashboard and the inventory screen report the same number of
      low-stock products. */
  lemma LowStockAgreesWithInventory(ps: seq<Product>)
    ensures |LowStockProducts(ps)| == Inventory.LowStockCount(ps)
  {
  }

  predicate IsPending(o: Order) { o.status == Pending }
  predicate IsCompleted(o: Order) { o.status == Completed }

  /** The number of pending orders: as many as the order table lists
      under the Pending filter. */
  function PendingCount(os: seq<Order>): (n: nat)
    ensures n <= |os|
    ensures n == 0 <==> forall i :: 0 <= i < |os| ==> os[i].status != Pending
    ensures n == |OrderManagement.FilterOrders(os, OrderManagement.Only(Pending))|
  {
    CountPendingIsFiltered(os);
    Seqs.Count(os, IsPending)
  }

  lemma {:induction false} CountPendingIsFiltered(os: seq<Order>)
    ensures Seqs.Count(os, IsPending) == |OrderManagement.FilterOrders(os, OrderManagement.Only(Pending))|
    decreases |os|
  {
    if |os| > 0 {
      CountPendingIsFiltered(os[1..]);
      OrderManagement.FilterOrdersCons(os, Pending);
    }
  }

  /** Each order adds one to the pending count exactly when it is pending. */
  lemma PendingCountCons(o: Order, os: seq<Order>)
    ensures PendingCount([o] + os) == (if o.status == Pending then 1 else 0) + PendingCount(os)
  {
    assert ([o] + os)[0] == o;
    assert ([o] + os)[1..] == os;
  }

  /** The pending count of two order lists together is the sum of their
      pending counts. */
  lemma PendingCountAppend(os: seq<Order>, more: seq<Order>)
    ensures PendingCount(os + more) == PendingCount(os) + PendingCount(more)
  {
    Seqs.FilterAppend(os, more, IsPending);
  }

  function TotalOf(o: Order): real { o.total }

  /** The sum of the totals of the completed orders. */
  function Revenue(os: seq<Order>): (rev: real)
    ensures (forall i :: 0 <= i < |os| ==> os[i].status != Completed) ==> rev == 0.0
    ensures (forall i :: 0 <= i < |os| ==> os[i].status == Completed) ==> rev == Seqs.SumReal(os, TotalOf)
  {
    var done := Seqs.Filter(os, IsCompleted);
    assert |done| > 0 ==> done[0] in os && done[0].status == Completed;
    if forall i :: 0 <= i < |os| ==> IsCompleted(os[i]) then
      Seqs.FilterAllPass(os, IsCompleted);
      Seqs.SumReal(done, TotalOf)
    else
      Seqs.SumReal(done, TotalOf)
  }

  /** What an order contributes to revenue: its total once completed,
      nothing otherwise. */
  function CompletedAmount(o: Order): real {
    if o.status == Completed then o.total else 0.0
  }

  /** Revenue counts every order by its status alone: completed orders add
      their totals, all others add nothing. */
  lemma {:induction false} RevenueByStatus(os: seq<Order>)
    ensures Revenue(os) == Seqs.SumReal(os, CompletedAmount)
    decreases |os|
  {
    if |os| > 0 {
      RevenueByStatus(os[1..]);
    }
  }

  /** The five most recent orders: the first five of the stored list,
      which holds the newest first. */
  function RecentOrders(os: seq<Order>): (r: seq<Order>)
    ensures |r| == if |os| < 5 then |os| else 5
    ensures forall i :: 0 <= i < |r| ==> r[i] == os[i]
  {
    Seqs.Take(os, 5)
  }

  /** A placed order is the most recent one, raises the pending count by
      one and leaves revenue where it was. */
  lemma PlacementOnDashboard(s: Store.Store, cart: seq<CustomerShop.CartItem>, customer: string,
                             promoCode: Option<string>, discount: Option<int>, orderId: string, today: string)
    ensures var r := CustomerShop.PlaceOrder(s, cart, customer, promoCode, discount, orderId, today);
            var before := Store.GetOrders(s);
            var after := Store.GetOrders(Run(s, r.Trace()));
            r.Placed? ==>
              && |after| > 0 && RecentOrders(after)[0] == r.order
              && PendingCount(after) == PendingCount(before) + 1
              && Revenue(after) == Revenue(before)
  {
    var r := CustomerShop.PlaceOrder(s, cart, customer, promoCode, discount, orderId, today);
    if r.Placed? {
      CustomerShop.PlaceOrderPrependsOrder(s, cart, customer, promoCode, discount, orderId, today);
      var before := Store.GetOrders(s);
      var after := [r.order] + before;
      assert after[1..] == before;
      assert Seqs.Filter(after, IsPending) == [r.order] + Seqs.Filter(before, IsPending);
      assert Seqs.Filter(after, IsCompleted) == Seqs.Filter(before, IsCompleted);
    }
  }

  /** Completing an order that was not completed adds its total to revenue;
      moving a completed order to any other status takes it away. Ids are
      assumed unique so that the update touches one order. */
  lemma StatusChangeMovesRevenue(view: seq<Order>, k: nat, status: OrderStatus)
    requires k < |view|
    requires forall j :: 0 <= j < |view| && j != k ==> view[j].id != view[k].id
    ensures var after := OrderManagement.UpdateOrderStatus(view, view[k].id, status).orders;
            && (view[k].status != Completed && status == Completed ==> Revenue(after) == Revenue(view) + view[k].total)
            && (view[k].status == Completed && status != Completed ==> Revenue(after) == Revenue(view) - view[k].total)
            && (view[k].status == status ==> Revenue(after) == Revenue(view))
  {
    var after := OrderManagement.UpdateOrderStatus(view, view[k].id, status).orders;
    assert after == view[k := view[k].(status := status)];
    RevenueByStatus(view);
    RevenueByStatus(after);
    Seqs.SumRealUpdate(view, k, view[k].(status := status), CompletedAmount);
  }
}

=== FILE: data_sync.dfy ===
/** The change-notification layer of the storefront, for one browser tab:
    the listener registry, `subscribeToChanges` with its disposer,
    `broadcastChange`, the `storage` event handler, the BroadcastChannel
    message handler, `useAutoRefresh`'s filter and `useDataSync`'s provider
    guard.

    Listeners are identified by an id (the source compares callbacks by
    reference). Whether a listener throws when called with an event is a
    parameter, `throws`, because the callbacks' bodies belong to the screens.
    JSON is a parameter too: a `Codec` pairs the `JSON.stringify` the
    broadcaster uses with the `JSON.parse` the storage handler uses. */
module DataSync {
  import opened Options

  datatype SyncEventType = Orders | Products | Promotions | Reviews | Inventory

  datatype SyncAction = Create | Update | Delete

  datatype SyncEvent = SyncEvent(kind: SyncEventType, action: SyncAction, timestamp: int)

  type ListenerId = nat

  /** The key the broadcaster puts on the storage event it dispatches. */
  const SyncKey: string := "laroza-sync-event"

  /** A tab's registry: the listener set in insertion order (the iteration
      order of a JavaScript `Set`), and whether the tab has a
      BroadcastChannel. */
  datatype Tab = Tab(listeners: seq<ListenerId>, hasChannel: bool)

  predicate NoDuplicates(ls: seq<ListenerId>) {
    forall i, j :: 0 <= i < j < |ls| ==> ls[i] != ls[j]
  }

  /** A tab as the provider creates it: no listeners yet, and a channel
      exactly when the environment offers BroadcastChannel. */
  function NewTab(channelSupported: bool): (t: Tab)
    ensures t.listeners == [] && t.hasChannel == channelSupported
  {
    Tab([], channelSupported)
  }

  // ----- subscribeToChanges and its disposer -----

  /** The function `subscribeToChanges` returns; running it deletes the
      listener from the set. */
  datatype Disposer = Disposer(listener: ListenerId)

  /** `listenersRef.current.add(callback)`: a listener already present keeps
      its place; a new one goes to the end. */
  function Add(ls: seq<ListenerId>, l: ListenerId): (r: seq<ListenerId>)
    ensures l in r
    ensures forall x :: x in r <==> x in ls || x == l
    ensures |r| >= |ls| && r[..|ls|] == ls
    ensures NoDuplicates(ls) ==> NoDuplicates(r)
  {
    if l in ls then ls else ls + [l]
  }

  /** `listenersRef.current.delete(callback)`: the others keep their order. */
  function Remove(ls: seq<ListenerId>, l: ListenerId): (r: seq<ListenerId>)
    ensures l !in r
    ensures forall x :: x != l ==> (x in r <==> x in ls)
    ensures l !in ls ==> r == ls
    ensures NoDuplicates(ls) ==> NoDuplicates(r)
    ensures |r| <= |ls|
    decreases |ls|
  {
    if |ls| == 0 then []
    else if ls[0] == l then Remove(ls[1..], l)
    else
      var rest := Remove(ls[1..], l);
      assert ls == [ls[0]] + ls[1..];
      assert NoDuplicates(ls) ==> ls[0] !in ls[1..];
      [ls[0]] + rest
  }

  /** `subscribeToChanges(callback)`: registers the listener and hands back
      its disposer. */
  function Subscribe(t: Tab, l: ListenerId): (r: (Tab, Disposer))
    ensures l in r.0.listeners && r.1.listener == l
    ensures forall x :: x in r.0.listeners <==> x in t.listeners || x == l
    ensures r.0.hasChannel == t.hasChannel
  {
    (t.(listeners := Add(t.listeners, l)), Disposer(l))
  }

  /** Running a disposer. */
  function Dispose(t: Tab, d: Disposer): (r: Tab)
    ensures d.listener !in r.listeners
    ensures forall x :: x != d.listener ==> (x in r.listeners <==> x in t.listeners)
    ensures r.hasChannel == t.hasChannel
  {
    t.(listeners := Remove(t.listeners, d.listener))
  }

  /** Subscribing the same callback twice leaves a single entry. */
  lemma SubscribeTwiceIsOnce(t: Tab, l: ListenerId)
    ensures Subscribe(Subscribe(t, l).0, l) == Subscribe(t, l)
  {
  }

  /** Running a disposer a second time does nothing. */
  lemma DisposeIdempotent(t: Tab, d: Disposer)
    ensures Dispose(Dispose(t, d), d) == Dispose(t, d)
  {
  }

  /** Subscribing and then disposing restores a registry that did not hold
      the listener. */
  lemma {:induction false} SubscribeThenDispose(t: Tab, l: ListenerId)
    requires l !in t.listeners
    ensures Dispose(Subscribe(t, l).0, Subscribe(t, l).1) == t
  {
    RemoveAppended(t.listeners, l);
  }

  lemma {:induction false} RemoveAppended(ls: seq<ListenerId>, l: ListenerId)
    requires l !in ls
    ensures Remove(ls + [l], l) == ls
    decreases |ls|
  {
    if |ls| == 0 {
      assert [l][1..] == [];
    } else {
      assert (ls + [l])[1..] == ls[1..] + [l];
      RemoveAppended(ls[1..], l);
      assert ls == [ls[0]] + ls[1..];
    }
  }

  /** Because the registry is a set, one disposer cancels a callback that
      was subscribed twice: the two subscriptions are not independent. */
  lemma OneDisposerCancelsDoubleSubscription(t: Tab, l: ListenerId)
    ensures var (t1, d1) := Subscribe(t, l);
            var (t2, _) := Subscribe(t1, l);
            l !in Dispose(t2, d1).listeners
  {
  }

  // ----- delivering one event to the listener set -----

  /** One invocation of a listener with an event. */
  datatype Call = Call(listener: ListenerId, event: SyncEvent)

  /** The calls a `forEach` over the set made, and whether a listener threw
      (which ends the `forEach`). */
  datatype Delivery = Delivery(calls: seq<Call>, thrown: bool)

  /** Every listener called once with `e`, in registry order. */
  function CallsOf(ls: seq<ListenerId>, e: SyncEvent): (r: seq<Call>)
    ensures |r| == |ls|
    ensures forall i :: 0 <= i < |ls| ==> r[i] == Call(ls[i], e)
  {
    seq(|ls|, i requires 0 <= i < |ls| => Call(ls[i], e))
  }

  /** `listenersRef.current.forEach(listener => listener(event))`: listeners
      are called in order; the first one that throws ends the loop, and the
      exception leaves the loop. */
  function Deliver(ls: seq<ListenerId>, e: SyncEvent, throws: (ListenerId, SyncEvent) -> bool): (d: Delivery)
    ensures |d.calls| <= |ls|
    ensures forall i :: 0 <= i < |d.calls| ==> d.calls[i] == Call(ls[i], e)
    ensures d.thrown <==> exists i :: 0 <= i < |ls| && throws(ls[i], e)
    ensures !d.thrown ==> d.calls == CallsOf(ls, e)
    ensures d.thrown ==> |d.calls| > 0 && throws(ls[|d.calls| - 1], e)
                         && forall i :: 0 <= i < |d.calls| - 1 ==> !throws(ls[i], e)
    decreases |ls|
  {
    if |ls| == 0 then Delivery([], false)
    else if throws(ls[0], e) then Delivery([Call(ls[0], e)], true)
    else
      var rest := Deliver(ls[1..], e, throws);
      assert forall i :: 1 <= i < |ls| ==> ls[i] == ls[1..][i - 1];
      Delivery([Call(ls[0], e)] + rest.calls, rest.thrown)
  }

  // ----- storage events -----

  /** `JSON.stringify` as used on events, and `JSON.parse` as used by the
      storage handler (`None` when it throws). */
  datatype Codec = Codec(encode: SyncEvent -> string, parse: string -> Option<SyncEvent>)

  /** Parsing what was stringified gives the event back, and the text is
      never empty. */
  predicate RoundTrips(c: Codec, e: SyncEvent) {
    |c.encode(e)| > 0 && c.parse(c.encode(e)) == Some(e)
  }

  /** A `storage` event as the window delivers it: `key` and `newValue` may
      be null. */
  datatype StorageNotice = StorageNotice(key: Option<string>, newValue: Option<string>)

  /** What the storage handler did: the listener calls it made, and whether
      it reached its `catch` (which logs and swallows the error). */
  datatype HandlerOutcome = HandlerOutcome(calls: seq<Call>, logged: bool)

  /** `handleStorageEvent`: only the sync key with a non-empty value is
      considered; its value is parsed and the event handed to every
      listener. The `try` covers both the parse and the listener loop, so a
      throwing listener is caught and logged like a bad payload, and the
      remaining listeners are skipped. */
  function HandleStorage(t: Tab, n: StorageNotice, c: Codec, throws: (ListenerId, SyncEvent) -> bool): (h: HandlerOutcome)
    ensures (n.key != Some(SyncKey) || n.newValue.None? || n.newValue == Some("")) ==> h == HandlerOutcome([], false)
    ensures (n.key == Some(SyncKey) && n.newValue.Some? && n.newValue.value != "" && c.parse(n.newValue.value).None?)
              ==> h == HandlerOutcome([], true)
    ensures (n.key == Some(SyncKey) && n.newValue.Some? && n.newValue.value != "" && c.parse(n.newValue.value).Some?)
              ==> var d := Deliver(t.listeners, c.parse(n.newValue.value).value, throws);
                  h.calls == d.calls && h.logged == d.thrown
  {
    if n.key == Some(SyncKey) && n.newValue.Some? && |n.newValue.value| > 0 then
      match c.parse(n.newValue.value)
      case None => HandlerOutcome([], true)
      case Some(e) =>
        var d := Deliver(t.listeners, e, throws);
        HandlerOutcome(d.calls, d.thrown)
    else
      HandlerOutcome([], false)
  }

  // ----- broadcastChange -----

  /** Everything one `broadcastChange` call does in the calling tab: the
      event it built, the message it posted on the channel (none without a
      channel), the listener calls made through the self-dispatched storage
      event and then through the direct loop, whether the storage handler
      logged an error, and whether an exception escaped to the caller. */
  datatype Broadcast = Broadcast(
    event: SyncEvent,
    posted: Option<SyncEvent>,
    storageCalls: seq<Call>,
    directCalls: seq<Call>,
    logged: bool,
    thrown: bool)
  {
    function AllCalls(): seq<Call> { storageCalls + directCalls }
  }

  /** `broadcastChange(type, action)` at time `now`. The event goes first to
      the channel (when there is one), then through a synthetic `storage`
      event that `window.dispatchEvent` delivers synchronously to this
      tab's own storage handler, then to every listener directly. */
  function BroadcastChange(t: Tab, kind: SyncEventType, action: SyncAction, now: int,
                           c: Codec, throws: (ListenerId, SyncEvent) -> bool): (b: Broadcast)
    ensures b.event.kind == kind && b.event.action == action && b.event.timestamp == now
    ensures b.posted == (if t.hasChannel then Some(b.event) else None)
    ensures var d := Deliver(t.listeners, b.event, throws);
            b.directCalls == d.calls && b.thrown == d.thrown
  {
    var e := SyncEvent(kind, action, now);
    var posted := if t.hasChannel then Some(e) else None;
    var h := HandleStorage(t, StorageNotice(Some(SyncKey), Some(c.encode(e))), c, throws);
    var d := Deliver(t.listeners, e, throws);
    Broadcast(e, posted, h.calls, d.calls, h.logged, d.thrown)
  }

  /** How many calls in `cs` went to listener `l`. */
  function CallsTo(cs: seq<Call>, l: ListenerId): nat
    decreases |cs|
  {
    if |cs| == 0 then 0
    else (if cs[0].listener == l then 1 else 0) + CallsTo(cs[1..], l)
  }

  lemma {:induction false} CallsToAppend(a: seq<Call>, b: seq<Call>, l: ListenerId)
    ensures CallsTo(a + b, l) == CallsTo(a, l) + CallsTo(b, l)
    decreases |a|
  {
    if |a| == 0 {
      assert a + b == b;
    } else {
      assert (a + b)[1..] == a[1..] + b;
      CallsToAppend(a[1..], b, l);
    }
  }

  /** A full pass over a duplicate-free listener set calls each registered
      listener exactly once and no other. */
  lemma {:induction false} CallsOfCountsOnce(ls: seq<ListenerId>, e: SyncEvent, l: ListenerId)
    requires NoDuplicates(ls)
    ensures CallsTo(CallsOf(ls, e), l) == if l in ls then 1 else 0
    decreases |ls|
  {
    if |ls| > 0 {
      assert CallsOf(ls, e)[1..] == CallsOf(ls[1..], e);
      CallsOfCountsOnce(ls[1..], e, l);
      assert ls == [ls[0]] + ls[1..];
    }
  }

  /** A listener outside the set is never called, however the loop ends. */
  lemma {:induction false} DeliverSkipsOutsiders(ls: seq<ListenerId>, e: SyncEvent,
                                                 throws: (ListenerId, SyncEvent) -> bool, l: ListenerId)
    requires l !in ls
    ensures CallsTo(Deliver(ls, e, throws).calls, l) == 0
    decreases |ls|
  {
    if |ls| > 0 && !throws(ls[0], e) {
      DeliverSkipsOutsiders(ls[1..], e, throws, l);
    }
  }

  /** In the broadcasting tab, when no listener throws and the codec round
      trips, every registered listener is called twice with the event (once
      through the self-dispatched storage event, once directly), nothing
      is logged and nothing escapes. */
  lemma BroadcastReachesEachListenerTwice(t: Tab, kind: SyncEventType, action: SyncAction, now: int,
                                          c: Codec, throws: (ListenerId, SyncEvent) -> bool, l: ListenerId)
    requires NoDuplicates(t.listeners)
    requires RoundTrips(c, SyncEvent(kind, action, now))
    requires forall i :: 0 <= i < |t.listeners| ==> !throws(t.listeners[i], SyncEvent(kind, action, now))
    ensures var b := BroadcastChange(t, kind, action, now, c, throws);
            && b.storageCalls == CallsOf(t.listeners, b.event)
            && b.directCalls == CallsOf(t.listeners, b.event)
            && !b.logged && !b.thrown
            && CallsTo(b.AllCalls(), l) == if l in t.listeners then 2 else 0
  {
    var b := BroadcastChange(t, kind, action, now, c, throws);
    CallsToAppend(b.storageCalls, b.directCalls, l);
    CallsOfCountsOnce(t.listeners, b.event, l);
  }

  /** After its disposer has run, a listener receives nothing from any later
      broadcast in this tab, by either path. */
  lemma DisposedListenerHearsNothing(t: Tab, d: Disposer, kind: SyncEventType, action: SyncAction, now: int,
                                     c: Codec, throws: (ListenerId, SyncEvent) -> bool)
    ensures var b := BroadcastChange(Dispose(t, d), kind, action, now, c, throws);
            CallsTo(b.AllCalls(), d.listener) == 0
  {
    var t' := Dispose(t, d);
    var b := BroadcastChange(t', kind, action, now, c, throws);
    CallsToAppend(b.storageCalls, b.directCalls, d.listener);
    DeliverSkipsOutsiders(t'.listeners, b.event, throws, d.listener);
    var n := StorageNotice(Some(SyncKey), Some(c.encode(b.event)));
    if n.newValue.value != "" && c.parse(n.newValue.value).Some? {
      DeliverSkipsOutsiders(t'.listeners, c.parse(n.newValue.value).value, throws, d.listener);
    }
  }

  /** A listener that throws is not isolated. The storage path swallows the
      exception (and logs it) but skips the listeners after it; the direct
      loop then stops at the same listener and the exception escapes
      `broadcastChange`, so its caller stops too. */
  lemma ThrowingListenerEscapesBroadcast(t: Tab, kind: SyncEventType, action: SyncAction, now: int,
                                         c: Codec, throws: (ListenerId, SyncEvent) -> bool, k: nat)
    requires k < |t.listeners|
    requires RoundTrips(c, SyncEvent(kind, action, now))
    requires throws(t.listeners[k], SyncEvent(kind, action, now))
    requires forall i :: 0 <= i < k ==> !throws(t.listeners[i], SyncEvent(kind, action, now))
    ensures var b := BroadcastChange(t, kind, action, now, c, throws);
            && b.logged && b.thrown
            && b.storageCalls == CallsOf(t.listeners[..k + 1], b.event)
            && b.directCalls == CallsOf(t.listeners[..k + 1], b.event)
  {
    var e := SyncEvent(kind, action, now);
    var d := Deliver(t.listeners, e, throws);
    assert |d.calls| == k + 1;
    assert d.calls == CallsOf(t.listeners[..k + 1], e);
  }

  /** Without a BroadcastChannel nothing is posted, but the tab's own
      listeners are still reached directly. */
  lemma NoChannelStillNotifiesLocally(t: Tab, kind: SyncEventType, action: SyncAction, now: int,
                                      c: Codec, throws: (ListenerId, SyncEvent) -> bool)
    requires !t.hasChannel
    requires forall i :: 0 <= i < |t.listeners| ==> !throws(t.listeners[i], SyncEvent(kind, action, now))
    ensures var b := BroadcastChange(t, kind, action, now, c, throws);
            b.posted.None? && b.directCalls == CallsOf(t.listeners, b.event) && !b.thrown
  {
  }

  // ----- other tabs -----

  /** The BroadcastChannel `message` handler of a receiving tab. A tab
      without a channel installs no handler and hears nothing. */
  function ReceiveMessage(t: Tab, e: SyncEvent, throws: (ListenerId, SyncEvent) -> bool): (d: Delivery)
    ensures !t.hasChannel ==> d == Delivery([], false)
    ensures (t.hasChannel && forall i :: 0 <= i < |t.listeners| ==> !throws(t.listeners[i], e))
              ==> d.calls == CallsOf(t.listeners, e) && !d.thrown
  {
    if t.hasChannel then Deliver(t.listeners, e, throws) else Delivery([], false)
  }

  /** Deliver what one tab's broadcast posted to another tab. */
  function CrossTab(sent: Broadcast, receiver: Tab, throws: (ListenerId, SyncEvent) -> bool): Delivery {
    match sent.posted
    case Some(e) => ReceiveMessage(receiver, e, throws)
    case None => Delivery([], false)
  }

  /** A broadcast reaches each listener of another tab exactly once, and
      only when both tabs have a channel. */
  lemma CrossTabDeliversOnce(sender: Tab, receiver: Tab, kind: SyncEventType, action: SyncAction, now: int,
                             c: Codec, throws: (ListenerId, SyncEvent) -> bool, l: ListenerId)
    requires NoDuplicates(receiver.listeners)
    requires forall i :: 0 <= i < |receiver.listeners| ==> !throws(receiver.listeners[i], SyncEvent(kind, action, now))
    ensures var d := CrossTab(BroadcastChange(sender, kind, action, now, c, throws), receiver, throws);
            CallsTo(d.calls, l) == if sender.hasChannel && receiver.hasChannel && l in receiver.listeners then 1 else 0
  {
    var e := SyncEvent(kind, action, now);
    if sender.hasChannel && receiver.hasChannel {
      CallsOfCountsOnce(receiver.listeners, e, l);
    }
  }

  /** Saving a collection makes the browser fire `storage` in other tabs
      with the collection's key; the handler ignores it. The only `storage`
      events carrying the sync key are the ones a tab dispatches to itself,
      so the storage path never carries an event across tabs. */
  lemma DataKeyStorageEventsIgnored(t: Tab, key: string, value: Option<string>, c: Codec,
                                    throws: (ListenerId, SyncEvent) -> bool)
    requires key != SyncKey
    ensures HandleStorage(t, StorageNotice(Some(key), value), c, throws) == HandlerOutcome([], false)
  {
  }

  // ----- useAutoRefresh and useDataSync -----

  /** The callback `useAutoRefresh(types, onRefresh)` subscribes: does it run
      `onRefresh` for this event? Only the event's type matters. */
  function AutoRefreshFires(types: seq<SyncEventType>, e: SyncEvent): (fires: bool)
    ensures fires <==> exists i :: 0 <= i < |types| && types[i] == e.kind
  {
    e.kind in types
  }

  /** The action and the timestamp never matter, and an empty interest list
      never fires. */
  lemma AutoRefreshIgnoresActionAndTime(types: seq<SyncEventType>, e1: SyncEvent, e2: SyncEvent)
    requires e1.kind == e2.kind
    ensures AutoRefreshFires(types, e1) == AutoRefreshFires(types, e2)
    ensures !AutoRefreshFires([], e1)
  {
  }

  /** How many times a binding's `onRefresh` ran, given all calls its tab's
      listeners received. */
  function RefreshCount(cs: seq<Call>, l: ListenerId, types: seq<SyncEventType>): nat
    decreases |cs|
  {
    if |cs| == 0 then 0
    else (if cs[0].listener == l && AutoRefreshFires(types, cs[0].event) then 1 else 0)
         + RefreshCount(cs[1..], l, types)
  }

  lemma {:induction false} RefreshCountAppend(a: seq<Call>, b: seq<Call>, l: ListenerId, types: seq<SyncEventType>)
    ensures RefreshCount(a + b, l, types) == RefreshCount(a, l, types) + RefreshCount(b, l, types)
    decreases |a|
  {
    if |a| == 0 {
      assert a + b == b;
    } else {
      assert (a + b)[1..] == a[1..] + b;
      RefreshCountAppend(a[1..], b, l, types);
    }
  }

  lemma {:induction false} RefreshCountOfCalls(ls: seq<ListenerId>, e: SyncEvent, l: ListenerId, types: seq<SyncEventType>)
    requires NoDuplicates(ls)
    ensures RefreshCount(CallsOf(ls, e), l, types) == if l in ls && AutoRefreshFires(types, e) then 1 else 0
    decreases |ls|
  {
    if |ls| > 0 {
      assert CallsOf(ls, e)[1..] == CallsOf(ls[1..], e);
      RefreshCountOfCalls(ls[1..], e, l, types);
      assert ls == [ls[0]] + ls[1..];
    }
  }

  /** `useAutoRefresh` mounted as listener `l` in the broadcasting tab: a
      broadcast whose type is in the interest list runs `onRefresh` twice
      (storage path and direct loop); any other type never runs it. */
  lemma AutoRefreshInBroadcastingTab(t: Tab, l: ListenerId, types: seq<SyncEventType>,
                                     kind: SyncEventType, action: SyncAction, now: int,
                                     c: Codec, throws: (ListenerId, SyncEvent) -> bool)
    requires NoDuplicates(t.listeners)
    requires RoundTrips(c, SyncEvent(kind, action, now))
    requires forall x :: !throws(x, SyncEvent(kind, action, now))
    ensures var t1 := Subscribe(t, l).0;
            var b := BroadcastChange(t1, kind, action, now, c, throws);
            RefreshCount(b.AllCalls(), l, types) == if kind in types then 2 else 0
  {
    var t1 := Subscribe(t, l).0;
    var b := BroadcastChange(t1, kind, action, now, c, throws);
    BroadcastReachesEachListenerTwice(t1, kind, action, now, c, throws, l);
    RefreshCountAppend(b.storageCalls, b.directCalls, l, types);
    RefreshCountOfCalls(t1.listeners, b.event, l, types);
  }

  /** `useDataSync()`: the context value, or the error it throws outside a
      provider. */
  function UseDataSync(provider: Option<Tab>): (r: Result<Tab, string>)
    ensures r.Success? <==> provider.Some?
    ensures r.Success? ==> r.value == provider.value
    ensures r.Failure? ==> r.error == "useDataSync must be used within DataSyncProvider"
  {
    match provider
    case Some(t) => Success(t)
    case None => Failure("useDataSync must be used within DataSyncProvider")
  }
}

=== FILE: domain.dfy ===
/** The four persisted entities of the storefront (products, orders,
    promotions, reviews) and the few facts about them that several screens
    share. Prices and stock are whole numbers; an order's total is a `real`
    because a percentage discount can make it fractional. */
module Domain {
  import opened Options
  import Seqs
  import Text

  datatype Category = Ceiling | Wall | Decorative | LedBulbs | Fixtures

  datatype Product = Product(
    id: string,
    name: string,
    category: Category,
    price: int,
    stock: int,
    image: string,
    description: string,
    lowStockThreshold: int)

  datatype OrderItem = OrderItem(productId: string, productName: string, quantity: int, price: int)

  datatype OrderStatus = Pending | Processing | Completed | Cancelled

  datatype Order = Order(
    id: string,
    customerName: string,
    items: seq<OrderItem>,
    total: real,
    status: OrderStatus,
    date: string,
    promoCode: Option<string>,
    discount: Option<int>)

  datatype Promotion = Promotion(
    id: string,
    code: string,
    discount: int,
    validFrom: string,
    validTo: string,
    active: bool,
    maxUses: Option<int>,
    currentUses: Option<int>)

  datatype Review = Review(
    id: string,
    productId: string,
    orderId: string,
    customerName: string,
    rating: int,
    comment: string,
    date: string)

  /** A product is low on stock when its stock is at or below its threshold;
      the dashboard, the inventory screen and the shop all use this test. */
  predicate IsLowStock(p: Product) {
    p.stock <= p.lowStockThreshold
  }

  /** Price times quantity of one order line. */
  function LineAmount(item: OrderItem): int {
    item.price * item.quantity
  }

  /** Sum of price times quantity over an order's lines. */
  function ItemsSubtotal(items: seq<OrderItem>): int {
    Seqs.Sum(items, LineAmount)
  }

  /** No two products share an id. Ids are generated from distinct seeds or
      from creation timestamps, so the store keeps this in practice. */
  predicate ProductIdsDistinct(ps: seq<Product>) {
    forall i, j :: 0 <= i < j < |ps| ==> ps[i].id != ps[j].id
  }

  /** A list with the same ids in the same places keeps them distinct. */
  lemma SameIdsKeepDistinct(a: seq<Product>, b: seq<Product>)
    requires |a| == |b| && forall i :: 0 <= i < |a| ==> a[i].id == b[i].id
    requires ProductIdsDistinct(a)
    ensures ProductIdsDistinct(b)
  {
    forall i, j | 0 <= i < j < |b| ensures b[i].id != b[j].id {
      assert a[i].id == b[i].id && a[j].id == b[j].id;
    }
  }

  /** The order lines include one for product `productId`. */
  predicate OrderHasProduct(o: Order, productId: string) {
    exists k :: 0 <= k < |o.items| && o.items[k].productId == productId
  }

  /** `products.find(p => p.id === id)`. */
  function FindProduct(ps: seq<Product>, id: string): (r: Option<Product>)
    ensures r.None? <==> forall i :: 0 <= i < |ps| ==> ps[i].id != id
    ensures r.Some? ==> r.value in ps && r.value.id == id
    ensures ProductIdsDistinct(ps) ==> forall i :: 0 <= i < |ps| && ps[i].id == id ==> r == Some(ps[i])
  {
    Seqs.Find(ps, (p: Product) => p.id == id)
  }

  /** JavaScript truthiness of an optional string: present and non-empty. */
  predicate TruthyText(o: Option<string>) {
    o.Some? && |o.value| > 0
  }

  /** JavaScript truthiness of an optional number: present and non-zero. */
  predicate TruthyNumber(o: Option<int>) {
    o.Some? && o.value != 0
  }

  /** `promo.currentUses || 0`. */
  function UsesOrZero(p: Promotion): int {
    if TruthyNumber(p.currentUses) then p.currentUses.value else 0
  }

  function StockOf(p: Product): int { p.stock }

  /** Total stock units: the sum of all stock values. */
  function TotalStock(ps: seq<Product>): (t: int)
    ensures |ps| == 0 ==> t == 0
    ensures (forall i :: 0 <= i < |ps| ==> ps[i].stock >= 0) ==> t >= 0
  {
    if forall i :: 0 <= i < |ps| ==> StockOf(ps[i]) >= 0 then
      Seqs.SumNonNegative(ps, StockOf);
      Seqs.Sum(ps, StockOf)
    else
      Seqs.Sum(ps, StockOf)
  }

  /** Each product adds exactly its own stock to the total. */
  lemma TotalStockCons(p: Product, ps: seq<Product>)
    ensures TotalStock([p] + ps) == p.stock + TotalStock(ps)
  {
    assert ([p] + ps)[0] == p;
    assert ([p] + ps)[1..] == ps;
  }

  /** The total of two lists of products is the sum of their totals. */
  lemma TotalStockAppend(ps: seq<Product>, qs: seq<Product>)
    ensures TotalStock(ps + qs) == TotalStock(ps) + TotalStock(qs)
  {
    Seqs.SumAppend(ps, qs, StockOf);
  }

  /** The category selector: every category, or one. */
  datatype CategoryFilter = AllCategories | OnlyCategory(category: Category)

  predicate InCategory(f: CategoryFilter, p: Product) {
    f.AllCategories? || p.category == f.category
  }

  /** The product's name contains the search text, ignoring case. */
  predicate NameMatches(p: Product, search: string) {
    Text.Includes(Text.Lower(p.name), Text.Lower(search))
  }
}

=== FILE: effects.dfy ===
/** What a handler does to the outside world, in order: whole-collection
    saves and change broadcasts. Handlers return such a trace; running it
    applies the saves to the store. A listener that throws inside a
    broadcast ends the handler there, so the effects that ran are a prefix
    of the trace that ends at that broadcast. */
module Effects {
  import Store
  import DataSync

  datatype Effect =
    | Save(write: Store.Write)
    | Notify(kind: DataSync.SyncEventType, action: DataSync.SyncAction)

  /** The broadcast a `Notify` stands for, without its timestamp. */
  datatype Notice = Notice(kind: DataSync.SyncEventType, action: DataSync.SyncAction)

  /** The saves of a trace, in order. */
  function Writes(es: seq<Effect>): (ws: seq<Store.Write>)
    ensures |ws| <= |es|
    ensures (forall i :: 0 <= i < |es| ==> es[i].Notify?) ==> ws == []
    decreases |es|
  {
    if |es| == 0 then []
    else if es[0].Save? then [es[0].write] + Writes(es[1..])
    else Writes(es[1..])
  }

  /** The broadcasts of a trace, in order. */
  function Notices(es: seq<Effect>): (ns: seq<Notice>)
    ensures |ns| <= |es|
    ensures (forall i :: 0 <= i < |es| ==> es[i].Save?) ==> ns == []
    decreases |es|
  {
    if |es| == 0 then []
    else if es[0].Notify? then [Notice(es[0].kind, es[0].action)] + Notices(es[1..])
    else Notices(es[1..])
  }

  lemma {:induction false} WritesAppend(a: seq<Effect>, b: seq<Effect>)
    ensures Writes(a + b) == Writes(a) + Writes(b)
    decreases |a|
  {
    if |a| == 0 {
      assert a + b == b;
    } else {
      assert (a + b)[1..] == a[1..] + b;
      WritesAppend(a[1..], b);
    }
  }

  lemma {:induction false} NoticesAppend(a: seq<Effect>, b: seq<Effect>)
    ensures Notices(a + b) == Notices(a) + Notices(b)
    decreases |a|
  {
    if |a| == 0 {
      assert a + b == b;
    } else {
      assert (a + b)[1..] == a[1..] + b;
      NoticesAppend(a[1..], b);
    }
  }

  lemma WritesCons(e: Effect, rest: seq<Effect>)
    ensures Writes([e] + rest) == (if e.Save? then [e.write] else []) + Writes(rest)
  {
    assert ([e] + rest)[1..] == rest;
  }

  lemma NoticesCons(e: Effect, rest: seq<Effect>)
    ensures Notices([e] + rest) == (if e.Notify? then [Notice(e.kind, e.action)] else []) + Notices(rest)
  {
    assert ([e] + rest)[1..] == rest;
  }

  /** The store after the trace's saves. */
  function Run(s: Store.Store, es: seq<Effect>): Store.Store {
    Store.ApplyAll(s, Writes(es))
  }

  lemma {:induction false} ApplyAllAppend(s: Store.Store, a: seq<Store.Write>, b: seq<Store.Write>)
    ensures Store.ApplyAll(s, a + b) == Store.ApplyAll(Store.ApplyAll(s, a), b)
    decreases |a|
  {
    if |a| == 0 {
      assert a + b == b;
    } else {
      assert (a + b)[1..] == a[1..] + b;
      ApplyAllAppend(Store.Apply(s, a[0]), a[1..], b);
    }
  }

  lemma ApplyAllCons(s: Store.Store, w: Store.Write, ws: seq<Store.Write>)
    ensures Store.ApplyAll(s, [w] + ws) == Store.ApplyAll(Store.Apply(s, w), ws)
  {
    assert ([w] + ws)[1..] == ws;
  }

  /** Running two traces one after the other is running their
      concatenation. */
  lemma RunAppend(s: Store.Store, a: seq<Effect>, b: seq<Effect>)
    ensures Run(s, a + b) == Run(Run(s, a), b)
  {
    WritesAppend(a, b);
    ApplyAllAppend(s, Writes(a), Writes(b));
  }
}

=== FILE: inventory.dfy ===
/** The admin inventory screen. It works on the product list it was given
    (its props), not on a fresh read of the store: a stock adjustment is
    computed from that list and the whole list is saved. */
module Inventory {
  import opened Options
  import opened Domain
  import Seqs
  import Store
  import DataSync
  import opened Effects

  /** The stock after adding `change`, never below zero. */
  function ClampedStock(stock: int, change: int): (n: int)
    ensures n >= 0
    ensures n >= stock + change
    ensures stock + change >= 0 ==> n == stock + change
    ensures stock + change < 0 ==> n == 0
  {
    if stock + change > 0 then stock + change else 0
  }

  datatype StockUpdate =
    | UnknownProduct
    | Updated(products: seq<Product>, effects: seq<Effect>)

  /** `handleStockUpdate(productId, change)` on the screen's product list:
      an unknown id does nothing; otherwise the product's stock becomes the
      clamped sum, the whole list is saved and an inventory update is
      announced. */
  function HandleStockUpdate(view: seq<Product>, id: string, change: int): (r: StockUpdate)
    ensures r.UnknownProduct? <==> forall i :: 0 <= i < |view| ==> view[i].id != id
    ensures r.Updated? ==> |r.products| == |view|
    ensures r.Updated? ==> forall i :: 0 <= i < |view| && view[i].id != id ==> r.products[i] == view[i]
    ensures r.Updated? ==> forall i :: 0 <= i < |view| && view[i].id == id ==>
              r.products[i] == view[i].(stock := ClampedStock(FindProduct(view, id).value.stock, change))
              && r.products[i].stock >= 0
    ensures r.Updated? ==> r.effects == [Save(Store.SaveProducts(r.products)), Notify(DataSync.Inventory, DataSync.Update)]
  {
    match FindProduct(view, id)
    case None => UnknownProduct
    case Some(p) =>
      var n := ClampedStock(p.stock, change);
      var ps := seq(|view|, i requires 0 <= i < |view| => if view[i].id == id then view[i].(stock := n) else view[i]);
      Updated(ps, [Save(Store.SaveProducts(ps)), Notify(DataSync.Inventory, DataSync.Update)])
  }

  /** After an update the store holds exactly the adjusted list, and the
      only broadcast is an inventory update (no products event). */
  lemma StockUpdateSavesList(s: Store.Store, view: seq<Product>, id: string, change: int)
    ensures var r := HandleStockUpdate(view, id, change);
            r.Updated? ==>
              && Store.GetProducts(Run(s, r.effects)) == r.products
              && Notices(r.effects) == [Notice(DataSync.Inventory, DataSync.Update)]
              && Store.GetOrders(Run(s, r.effects)) == Store.GetOrders(s)
  {
    var r := HandleStockUpdate(view, id, change);
    if r.Updated? {
      assert r.effects == [r.effects[0]] + ([r.effects[1]] + []);
      WritesCons(r.effects[0], [r.effects[1]] + []);
      WritesCons(r.effects[1], []);
      NoticesCons(r.effects[0], [r.effects[1]] + []);
      NoticesCons(r.effects[1], []);
      ApplyAllCons(s, Store.SaveProducts(r.products), []);
    }
  }

  /** With distinct ids an update replaces exactly one product. */
  lemma UpdateIsPointUpdate(view: seq<Product>, k: nat, change: int)
    requires k < |view| && ProductIdsDistinct(view)
    ensures var r := HandleStockUpdate(view, view[k].id, change);
            r.Updated? && r.products == view[k := view[k].(stock := ClampedStock(view[k].stock, change))]
  {
    var r := HandleStockUpdate(view, view[k].id, change);
    assert FindProduct(view, view[k].id) == Some(view[k]);
    forall i | 0 <= i < |view| && i != k ensures view[i].id != view[k].id {
      if i < k {} else {}
    }
  }

  /** An adjustment that does not hit zero is undone by the opposite
      adjustment made on the refreshed list. */
  lemma OppositeAdjustmentRestores(view: seq<Product>, k: nat, change: int)
    requires k < |view| && ProductIdsDistinct(view)
    requires view[k].stock >= 0 && view[k].stock + change >= 0
    ensures var r1 := HandleStockUpdate(view, view[k].id, change);
            r1.Updated? && HandleStockUpdate(r1.products, view[k].id, -change).Updated?
            && HandleStockUpdate(r1.products, view[k].id, -change).products == view
  {
    var p := view[k];
    var raised := p.(stock := p.stock + change);
    var v1 := view[k := raised];
    UpdateIsPointUpdate(view, k, change);
    assert ClampedStock(p.stock, change) == p.stock + change;
    assert HandleStockUpdate(view, p.id, change).products == v1;
    assert forall i :: 0 <= i < |view| ==> view[i].id == v1[i].id;
    SameIdsKeepDistinct(view, v1);
    assert v1[k] == raised && raised.id == p.id;
    UpdateIsPointUpdate(v1, k, -change);
    assert ClampedStock(raised.stock, -change) == p.stock;
    assert raised.(stock := p.stock) == p;
    assert HandleStockUpdate(v1, p.id, -change).products == v1[k := p];
    assert v1[k := p] == view;
  }

  /** Clamping is not additive: taking 10 from a stock of 5 and then adding
      10 leaves 10, not 5. */
  lemma ClampingLosesUnits()
    ensures ClampedStock(ClampedStock(5, -10), 10) == 10
    ensures ClampedStock(5, -10 + 10) == 5
  {
  }

  // ----- pending changes -----

  /** The per-product adjustment typed but not yet applied. */
  type PendingChanges = map<string, int>

  /** `stockChange[id] || 0`. */
  function CurrentChange(m: PendingChanges, id: string): int {
    if id in m then m[id] else 0
  }

  /** The ±10 buttons and the number field set the pending change; a field
      that does not parse as a number (`parseInt` gives NaN) sets 0. */
  function QuickAdjust(m: PendingChanges, id: string, amount: Option<int>): (r: PendingChanges)
    ensures CurrentChange(r, id) == if amount.Some? then amount.value else 0
    ensures forall other :: other != id ==> CurrentChange(r, other) == CurrentChange(m, other)
  {
    m[id := if amount.Some? then amount.value else 0]
  }

  /** The Update button shows for a product with a non-zero pending
      change. */
  predicate ShowsUpdate(m: PendingChanges, id: string) {
    CurrentChange(m, id) != 0
  }

  /** After an update the product's pending change is reset, which hides
      its Update button; other products' pending changes stay. */
  function ResetChange(m: PendingChanges, id: string): (r: PendingChanges)
    ensures !ShowsUpdate(r, id)
    ensures forall other :: other != id ==> CurrentChange(r, other) == CurrentChange(m, other)
  {
    m[id := 0]
  }

  // ----- summary -----

  /** The number of products at or below their threshold. */
  function LowStockCount(view: seq<Product>): (n: nat)
    ensures n <= |view|
    ensures n == 0 <==> forall i :: 0 <= i < |view| ==> !IsLowStock(view[i])
  {
    Seqs.Count(view, IsLowStock)
  }

  /** The low-stock count and the count of the others add up to the number
      of products. */
  lemma LowStockCountComplement(view: seq<Product>)
    ensures LowStockCount(view) + |Seqs.Filter(view, (p: Product) => !IsLowStock(p))| == |view|
  {
    Seqs.FilterPartition(view, IsLowStock, (p: Product) => !IsLowStock(p));
  }

  /** An update moves the total stock by exactly what the product gained
      or lost. */
  lemma TotalStockAfterUpdate(view: seq<Product>, k: nat, change: int)
    requires k < |view| && ProductIdsDistinct(view)
    ensures var r := HandleStockUpdate(view, view[k].id, change);
            r.Updated? && TotalStock(r.products) == TotalStock(view) - view[k].stock + ClampedStock(view[k].stock, change)
  {
    UpdateIsPointUpdate(view, k, change);
    Seqs.SumUpdate(view, k, view[k].(stock := ClampedStock(view[k].stock, change)), StockOf);
  }
}

=== FILE: login.dfy ===
/** The login page: sign-up validation against the stored customer
    accounts, and credential resolution on sign-in. Two built-in accounts,
    `admin` and `customer`, are fixed in the page; registered accounts live
    in their own list. */
module Login {
  import opened Options
  import Seqs
  import Text

  datatype Account = Account(username: string, password: string, name: string, email: string)

  datatype Role = Admin | Customer

  const ShortPassword: string := "Password must be at least 6 characters long"
  const Mismatch: string := "Passwords do not match"
  const NameTaken: string := "Username already exists. Please choose another one."
  const BadCredentials: string := "Invalid credentials. Please check your username and password."

  datatype SignUpResult = SignUpRefused(message: string) | SignedUp(accounts: seq<Account>)

  datatype LoginResult = LoginRefused(message: string) | LoggedIn(username: string, role: Role)

  /** The name is one of the built-in accounts (exact case) or matches a
      registered account ignoring case. */
  predicate NameUnavailable(accounts: seq<Account>, username: string) {
    username == "admin" || username == "customer"
    || Seqs.Any(accounts, (a: Account) => Text.Lower(a.username) == Text.Lower(username))
  }

  /** `handleSignUp`: the checks run in order (password length, then
      confirmation, then the name) and the first failure is reported;
      otherwise the account is appended to the list. */
  function SignUp(accounts: seq<Account>, username: string, password: string, confirm: string,
                  name: string, email: string): (r: SignUpResult)
    ensures |password| < 6 ==> r == SignUpRefused(ShortPassword)
    ensures |password| >= 6 && password != confirm ==> r == SignUpRefused(Mismatch)
    ensures |password| >= 6 && password == confirm && NameUnavailable(accounts, username) ==> r == SignUpRefused(NameTaken)
    ensures r.SignedUp? <==> |password| >= 6 && password == confirm && !NameUnavailable(accounts, username)
    ensures r.SignedUp? ==> r.accounts == accounts + [Account(username, password, name, email)]
  {
    if |password| < 6 then SignUpRefused(ShortPassword)
    else if password != confirm then SignUpRefused(Mismatch)
    else if NameUnavailable(accounts, username) then SignUpRefused(NameTaken)
    else SignedUp(accounts + [Account(username, password, name, email)])
  }

  /** The built-in names are reserved only in their exact spelling:
      `Admin` can be registered, while a registered name blocks every
      spelling of itself. */
  lemma ReservedNamesAreCaseSensitive(accounts: seq<Account>)
    requires forall i :: 0 <= i < |accounts| ==> Text.Lower(accounts[i].username) != "admin"
    ensures !NameUnavailable(accounts, "Admin")
    ensures forall i :: 0 <= i < |accounts| ==> NameUnavailable(accounts, Text.Upper(accounts[i].username))
  {
    assert Text.Lower("Admin") == "admin";
    forall i | 0 <= i < |accounts| ensures NameUnavailable(accounts, Text.Upper(accounts[i].username)) {
      var u := accounts[i].username;
      assert Text.Lower(Text.Upper(u)) == Text.Lower(u) by {
        forall j | 0 <= j < |u| ensures Text.Lower(Text.Upper(u))[j] == Text.Lower(u)[j] {
        }
      }
    }
  }

  /** `handleSubmit`: the built-in admin, then the built-in customer, then
      the first registered account with exactly this name and password. */
  function SignIn(accounts: seq<Account>, username: string, password: string): (r: LoginResult)
    ensures r.LoggedIn? ==> r.username == username
    ensures r.LoggedIn? && r.role == Admin <==> username == "admin" && password == "admin123"
    ensures r.LoggedIn? <==> (username == "admin" && password == "admin123")
                             || (username == "customer" && password == "customer123")
                             || exists i :: 0 <= i < |accounts| && accounts[i].username == username
                                                             && accounts[i].password == password
    ensures r.LoginRefused? ==> r.message == BadCredentials
  {
    if username == "admin" && password == "admin123" then LoggedIn(username, Admin)
    else if username == "customer" && password == "customer123" then LoggedIn(username, Customer)
    else
      match Seqs.Find(accounts, (a: Account) => a.username == username && a.password == password)
      case Some(_) => LoggedIn(username, Customer)
      case None => LoginRefused(BadCredentials)
  }

  /** No registered account reaches the admin role: only the built-in
      credentials do. */
  lemma RegisteredAccountsAreCustomers(accounts: seq<Account>, k: nat)
    requires k < |accounts|
    requires accounts[k].username != "admin" || accounts[k].password != "admin123"
    ensures SignIn(accounts, accounts[k].username, accounts[k].password) == LoggedIn(accounts[k].username, Customer)
  {
  }

  /** Whoever signs up can sign in with the same name and password, as a
      customer. */
  lemma SignUpThenSignIn(accounts: seq<Account>, username: string, password: string, name: string, email: string)
    requires SignUp(accounts, username, password, password, name, email).SignedUp?
    ensures SignIn(SignUp(accounts, username, password, password, name, email).accounts, username, password)
            == LoggedIn(username, Customer)
  {
    var after := SignUp(accounts, username, password, password, name, email).accounts;
    assert after[|accounts|].username == username && after[|accounts|].password == password;
  }

  /** Sign-in compares names exactly: an account registered as `Maria`
      cannot sign in as `maria`. */
  lemma SignInIsCaseSensitive(password: string)
    requires password != "customer123" && password != "admin123"
    ensures SignIn([Account("Maria", password, "", "")], "maria", password).LoginRefused?
  {
  }
}

=== FILE: options.dfy ===
/** The optional-value and result types shared by every module of the model.
    `Option` stands for the source's `undefined`/`null`-able values; `Result`
    stands for an operation that either succeeds or stops with an error. */
module Options {

  datatype Option<+T> = None | Some(value: T) {

    /** The wrapped value, or `default` when there is none (the source's `x ?? d`). */
    function GetOr(default: T): T {
      match this
      case Some(v) => v
      case None => default
    }
  }

  datatype Result<+R, +E> = Success(value: R) | Failure(error: E)
}

=== FILE: order_history.dfy ===
/** The customer's order history: which orders it lists, and when an
    order offers Write Review or shows Reviewed. */
module OrderHistory {
  import opened Options
  import opened Domain
  import Seqs
  import Store
  import DataSync
  import opened Effects
  import ReviewDialog
  import CustomerShop

  /** The orders placed under exactly this customer name, newest first as
      stored. */
  function CustomerOrders(os: seq<Order>, customer: string): (r: seq<Order>)
    ensures forall i :: 0 <= i < |r| ==> r[i] in os && r[i].customerName == customer
    ensures forall i :: 0 <= i < |os| && os[i].customerName == customer ==> os[i] in r
    ensures Seqs.Subsequence(r, os)
    ensures forall x :: multiset(r)[x] == if x.customerName == customer then multiset(os)[x] else 0
  {
    var mine := (o: Order) => o.customerName == customer;
    var r := Seqs.Filter(os, mine);
    assert forall x :: multiset(r)[x] == if x.customerName == customer then multiset(os)[x] else 0 by {
      forall x ensures multiset(r)[x] == if x.customerName == customer then multiset(os)[x] else 0 {
        Seqs.FilterMultiplicity(os, mine, x);
      }
    }
    Seqs.FilterSubsequence(os, mine);
    r
  }

  /** An order in front of the list heads its own customer's history and
      leaves everyone else's alone. */
  lemma CustomerOrdersCons(o: Order, os: seq<Order>, customer: string)
    ensures CustomerOrders([o] + os, customer)
            == (if o.customerName == customer then [o] else []) + CustomerOrders(os, customer)
  {
    assert ([o] + os)[1..] == os;
  }

  /** After a placement the new order is at the top of the customer's
      history, above the orders listed before; every other customer's
      history is unchanged. */
  lemma PlacementHeadsHistory(s: Store.Store, cart: seq<CustomerShop.CartItem>, customer: string,
                              promoCode: Option<string>, discount: Option<int>, orderId: string, today: string,
                              other: string)
    ensures var r := CustomerShop.PlaceOrder(s, cart, customer, promoCode, discount, orderId, today);
            var after := Store.GetOrders(Run(s, r.Trace()));
            r.Placed? ==>
              && CustomerOrders(after, customer) == [r.order] + CustomerOrders(Store.GetOrders(s), customer)
              && (other != customer ==> CustomerOrders(after, other) == CustomerOrders(Store.GetOrders(s), other))
  {
    var r := CustomerShop.PlaceOrder(s, cart, customer, promoCode, discount, orderId, today);
    if r.Placed? {
      CustomerShop.PlaceOrderPrependsOrder(s, cart, customer, promoCode, discount, orderId, today);
      CustomerOrdersCons(r.order, Store.GetOrders(s), customer);
      CustomerOrdersCons(r.order, Store.GetOrders(s), other);
    }
  }

  /** `hasReview(orderId)`: some stored review names the order. */
  predicate HasReview(rs: seq<Review>, orderId: string) {
    Seqs.Any(rs, (r: Review) => r.orderId == orderId)
  }

  /** The Write Review button: completed and not yet reviewed. */
  predicate OffersWriteReview(rs: seq<Review>, o: Order) {
    o.status == Completed && !HasReview(rs, o.id)
  }

  /** The Reviewed mark: some review names the order, whatever its status. */
  predicate ShowsReviewed(rs: seq<Review>, o: Order) {
    HasReview(rs, o.id)
  }

  /** An order never shows both; a completed order shows exactly one. */
  lemma ReviewMarksExclusive(rs: seq<Review>, o: Order)
    ensures !(OffersWriteReview(rs, o) && ShowsReviewed(rs, o))
    ensures o.status == Completed ==> (OffersWriteReview(rs, o) <==> !ShowsReviewed(rs, o))
  {
  }

  /** The event types the history refreshes on. */
  const RefreshTypes: seq<DataSync.SyncEventType> := [DataSync.Orders, DataSync.Reviews]

  /** The history refreshes on order and review changes and on nothing
      else. */
  lemma HistoryRefreshesOnOrdersAndReviews(e: DataSync.SyncEvent)
    ensures DataSync.AutoRefreshFires(RefreshTypes, e) <==> e.kind == DataSync.Orders || e.kind == DataSync.Reviews
  {
  }

  /** Once a review of the order is saved, the order shows Reviewed and no
      longer offers Write Review, and the other orders' marks only gain. */
  lemma ReviewClosesWriteReview(s: Store.Store, order: Order, customer: string, rating: int, productId: string,
                                comment: string, reviewId: string, today: string)
    ensures var r := ReviewDialog.SubmitReview(s, order, customer, rating, productId, comment, reviewId, today);
            r.Saved? ==>
              var after := Store.GetReviews(Run(s, r.effects));
              && ShowsReviewed(after, order)
              && !OffersWriteReview(after, order)
              && forall o :: ShowsReviewed(Store.GetReviews(s), o) ==> ShowsReviewed(after, o)
  {
    var r := ReviewDialog.SubmitReview(s, order, customer, rating, productId, comment, reviewId, today);
    if r.Saved? {
      ReviewDialog.SubmitPrependsReview(s, order, customer, rating, productId, comment, reviewId, today);
      var before := Store.GetReviews(s);
      var after := [r.review] + before;
      assert after[0].orderId == order.id;
      forall o | ShowsReviewed(before, o) ensures ShowsReviewed(after, o) {
        var i :| 0 <= i < |before| && before[i].orderId == o.id;
        assert after[i + 1] == before[i];
      }
    }
  }
}

=== FILE: order_management.dfy ===
/** The admin order screen: status changes on the order list it was given,
    the status actions it offers, and the status filter. */
module OrderManagement {
  import opened Options
  import opened Domain
  import Seqs
  import Store
  import DataSync
  import opened Effects

  /** What a status update produces: the new list and its effects. */
  datatype StatusUpdate = StatusUpdate(orders: seq<Order>, effects: seq<Effect>)

  /** `updateOrderStatus(orderId, newStatus)`: every order with the id takes
      the new status, whatever its current one; the whole list is saved and
      an orders update announced, even when no order has the id. */
  function UpdateOrderStatus(view: seq<Order>, id: string, status: OrderStatus): (r: StatusUpdate)
    ensures |r.orders| == |view|
    ensures forall i :: 0 <= i < |view| && view[i].id == id ==> r.orders[i] == view[i].(status := status)
    ensures forall i :: 0 <= i < |view| && view[i].id != id ==> r.orders[i] == view[i]
    ensures r.effects == [Save(Store.SaveOrders(r.orders)), Notify(DataSync.Orders, DataSync.Update)]
  {
    var os := seq(|view|, i requires 0 <= i < |view| => if view[i].id == id then view[i].(status := status) else view[i]);
    StatusUpdate(os, [Save(Store.SaveOrders(os)), Notify(DataSync.Orders, DataSync.Update)])
  }

  /** The store holds the updated list afterwards, and nothing but orders
      changed. */
  lemma StatusUpdateSavesList(s: Store.Store, view: seq<Order>, id: string, status: OrderStatus)
    ensures var r := UpdateOrderStatus(view, id, status);
            && Store.GetOrders(Run(s, r.effects)) == r.orders
            && Store.GetProducts(Run(s, r.effects)) == Store.GetProducts(s)
            && Notices(r.effects) == [Notice(DataSync.Orders, DataSync.Update)]
  {
    var r := UpdateOrderStatus(view, id, status);
    assert r.effects == [r.effects[0]] + ([r.effects[1]] + []);
    WritesCons(r.effects[0], [r.effects[1]] + []);
    WritesCons(r.effects[1], []);
    NoticesCons(r.effects[0], [r.effects[1]] + []);
    NoticesCons(r.effects[1], []);
    ApplyAllCons(s, Store.SaveOrders(r.orders), []);
  }

  /** The update itself enforces no rule: a completed order can be put back
      to pending. */
  lemma UpdateEnforcesNoTransitionRule(o: Order)
    requires o.status == Completed
    ensures UpdateOrderStatus([o], o.id, Pending).orders[0].status == Pending
  {
  }

  /** The detail dialog's order follows the update when it shows that
      order. */
  function RefreshSelected(selected: Option<Order>, id: string, status: OrderStatus): (r: Option<Order>)
    ensures r.Some? <==> selected.Some?
    ensures selected.Some? && selected.value.id == id ==> r == Some(selected.value.(status := status))
    ensures selected.Some? && selected.value.id != id ==> r == selected
  {
    match selected
    case Some(o) => if o.id == id then Some(o.(status := status)) else selected
    case None => None
  }

  // ----- the actions the screen offers -----

  /** The status buttons shown for an order in each status, in the
      table and in the detail dialog alike. */
  function OfferedStatuses(s: OrderStatus): (r: seq<OrderStatus>)
    ensures s == Pending ==> r == [Processing, Cancelled]
    ensures s == Processing ==> r == [Completed, Cancelled]
    ensures s == Completed || s == Cancelled ==> r == []
  {
    match s
    case Pending => [Processing, Cancelled]
    case Processing => [Completed, Cancelled]
    case Completed => []
    case Cancelled => []
  }

  /** The screen can take an order from `a` to `b`. */
  predicate Offered(a: OrderStatus, b: OrderStatus) {
    b in OfferedStatuses(a)
  }

  /** How far along an order is; every offered action moves it further. */
  function Stage(s: OrderStatus): nat {
    match s
    case Pending => 0
    case Processing => 1
    case Completed => 2
    case Cancelled => 2
  }

  /** Offered actions only move forward, and completed and cancelled orders
      offer none. */
  lemma OfferedActionsAdvance(a: OrderStatus, b: OrderStatus)
    ensures Offered(a, b) ==> Stage(b) > Stage(a)
    ensures a == Completed || a == Cancelled ==> !Offered(a, b)
    ensures Offered(a, b) <==> (a == Pending && (b == Processing || b == Cancelled))
                               || (a == Processing && (b == Completed || b == Cancelled))
  {
  }

  /** Following offered actions, an order takes at most two steps, and
      never returns to a status it left. */
  predicate OfferedPath(path: seq<OrderStatus>) {
    forall i :: 0 <= i < |path| - 1 ==> Offered(path[i], path[i + 1])
  }

  lemma {:induction false} OfferedPathsAreShort(path: seq<OrderStatus>)
    requires OfferedPath(path)
    ensures |path| <= 3
    ensures forall i, j :: 0 <= i < j < |path| ==> path[i] != path[j]
  {
    forall i, j | 0 <= i < j < |path| ensures Stage(path[i]) + (j - i) <= Stage(path[j]) {
      StagesClimb(path, i, j);
    }
    if |path| > 3 {
      StagesClimb(path, 0, 3);
    }
  }

  lemma {:induction false} StagesClimb(path: seq<OrderStatus>, i: nat, j: nat)
    requires OfferedPath(path) && i <= j < |path|
    ensures Stage(path[i]) + (j - i) <= Stage(path[j])
    decreases j - i
  {
    if i < j {
      StagesClimb(path, i + 1, j);
      OfferedActionsAdvance(path[i], path[i + 1]);
    }
  }

  // ----- the status filter -----

  datatype StatusFilter = All | Only(status: OrderStatus)

  predicate HasStatus(st: OrderStatus, o: Order) {
    o.status == st
  }

  /** The orders the table lists under a filter. */
  function FilterOrders(view: seq<Order>, f: StatusFilter): (r: seq<Order>)
    ensures f.All? ==> r == view
    ensures f.Only? ==> forall i :: 0 <= i < |r| ==> r[i] in view && r[i].status == f.status
    ensures f.Only? ==> forall i :: 0 <= i < |view| && view[i].status == f.status ==> view[i] in r
    ensures Seqs.Subsequence(r, view)
    ensures f.Only? ==> forall x :: multiset(r)[x] == if x.status == f.status then multiset(view)[x] else 0
  {
    match f
    case All =>
      Seqs.SubsequenceReflexive(view);
      view
    case Only(st) =>
      var keep := (o: Order) => HasStatus(st, o);
      var r := Seqs.Filter(view, keep);
      assert forall x :: multiset(r)[x] == if x.status == st then multiset(view)[x] else 0 by {
        forall x ensures multiset(r)[x] == if x.status == st then multiset(view)[x] else 0 {
          Seqs.FilterMultiplicity(view, keep, x);
        }
      }
      Seqs.FilterSubsequence(view, keep);
      r
  }

  /** Every order appears under exactly one status filter: the four lists
      together have as many entries as the whole list. */
  lemma {:induction false} StatusFiltersPartition(view: seq<Order>)
    ensures |FilterOrders(view, Only(Pending))| + |FilterOrders(view, Only(Processing))|
            + |FilterOrders(view, Only(Completed))| + |FilterOrders(view, Only(Cancelled))| == |view|
    decreases |view|
  {
    if |view| > 0 {
      StatusFiltersPartition(view[1..]);
      FilterOrdersCons(view, Pending);
      FilterOrdersCons(view, Processing);
      FilterOrdersCons(view, Completed);
      FilterOrdersCons(view, Cancelled);
    }
  }

  /** A status list gains the first order exactly when it has the status. */
  lemma FilterOrdersCons(view: seq<Order>, st: OrderStatus)
    requires |view| > 0
    ensures |FilterOrders(view, Only(st))| == (if view[0].status == st then 1 else 0) + |FilterOrders(view[1..], Only(st))|
  {
  }
}

=== FILE: product_catalog.dfy ===
/** The admin product catalogue: its filter, the stock label on each card,
    and the per-product review summary. */
module ProductCatalog {
  import opened Domain
  import Seqs
  import Reviews
  import ProductListing

  /** `filteredProducts` of the catalogue: name and category only; products
      without stock stay. */
  function AdminListing(ps: seq<Product>, f: CategoryFilter, search: string): (r: seq<Product>)
    ensures forall i :: 0 <= i < |r| ==> r[i] in ps && NameMatches(r[i], search) && InCategory(f, r[i])
    ensures forall i :: 0 <= i < |ps| && NameMatches(ps[i], search) && InCategory(f, ps[i]) ==> ps[i] in r
    ensures Seqs.Subsequence(r, ps)
    ensures forall x :: multiset(r)[x] == if NameMatches(x, search) && InCategory(f, x) then multiset(ps)[x] else 0
  {
    var shown := (p: Product) => NameMatches(p, search) && InCategory(f, p);
    var r := Seqs.Filter(ps, shown);
    assert forall x :: multiset(r)[x] == if NameMatches(x, search) && InCategory(f, x) then multiset(ps)[x] else 0 by {
      forall x ensures multiset(r)[x] == if NameMatches(x, search) && InCategory(f, x) then multiset(ps)[x] else 0 {
        Seqs.FilterMultiplicity(ps, shown, x);
      }
    }
    Seqs.FilterSubsequence(ps, shown);
    r
  }

  /** The customer grid is the catalogue under the same filter with the
      products without stock taken out. */
  lemma {:induction false} CustomerGridIsCatalogInStock(ps: seq<Product>, f: CategoryFilter, search: string)
    ensures ProductListing.CustomerListing(ps, f, search)
            == Seqs.Filter(AdminListing(ps, f, search), (p: Product) => p.stock > 0)
    decreases |ps|
  {
    if |ps| > 0 {
      CustomerGridIsCatalogInStock(ps[1..], f, search);
    }
  }

  datatype StockLabel = InStock | LowStock | OutOfStock

  /** The label at the foot of a card. */
  function StockLabelOf(p: Product): (l: StockLabel)
    ensures l == InStock <==> p.stock > p.lowStockThreshold
    ensures l == LowStock <==> 0 < p.stock <= p.lowStockThreshold
    ensures l == OutOfStock <==> p.stock <= 0 && p.stock <= p.lowStockThreshold
  {
    if p.stock > p.lowStockThreshold then InStock
    else if p.stock > 0 then LowStock
    else OutOfStock
  }

  /** Every label but In Stock marks exactly the low-stock products, and
      with a non-negative threshold Out of Stock means no units at all. */
  lemma LabelsAgreeWithLowStock(p: Product)
    ensures StockLabelOf(p) != InStock <==> IsLowStock(p)
    ensures p.lowStockThreshold >= 0 ==> (StockLabelOf(p) == OutOfStock <==> p.stock <= 0)
  {
  }

  /** A negative threshold labels an empty product In Stock. */
  lemma NegativeThresholdHidesEmptyStock(p: Product)
    requires p.stock == 0 && p.lowStockThreshold == -1
    ensures StockLabelOf(p) == InStock
  {
  }

  /** `getProductReviews(productId)`. */
  function ProductReviews(all: seq<Review>, productId: string): (r: seq<Review>)
    ensures forall i :: 0 <= i < |r| ==> r[i] in all && r[i].productId == productId
    ensures Seqs.Subsequence(r, all)
    ensures forall x :: multiset(r)[x] == if x.productId == productId then multiset(all)[x] else 0
    ensures forall i :: 0 <= i < |all| && all[i].productId == productId ==> all[i] in r
  {
    Reviews.ReviewsFor(all, productId)
  }

  /** The star row shows when the product has reviews. */
  predicate ShowsStars(all: seq<Review>, productId: string) {
    |ProductReviews(all, productId)| > 0
  }

  /** `getAverageRating(productId)`: 0 without reviews; otherwise on the
      five-star scale when the ratings are. */
  lemma CatalogAverage(all: seq<Review>, productId: string)
    requires forall i :: 0 <= i < |all| ==> Reviews.RatingInRange(all[i])
    ensures !ShowsStars(all, productId) ==> Reviews.AverageRating(ProductReviews(all, productId)) == 0.0
    ensures ShowsStars(all, productId) ==> 1.0 <= Reviews.AverageRating(ProductReviews(all, productId)) <= 5.0
    ensures ShowsStars(all, productId) <==> exists i :: 0 <= i < |all| && all[i].productId == productId
  {
    var rs := ProductReviews(all, productId);
    if |rs| > 0 {
      assert rs[0] in all;
      Reviews.AverageWithinScale(rs);
    }
  }
}

=== FILE: product_detail.dfy ===
/** The product detail dialog's quantity picker and its Add to Cart
    button. The picker only shows for a customer when the product has
    stock and an add-to-cart callback was given. */
module ProductDetail {
  import opened Options
  import opened Domain
  import CustomerShop

  function Max(a: int, b: int): int { if a >= b then a else b }
  function Min(a: int, b: int): int { if a <= b then a else b }

  /** The quantity the dialog opens with. */
  const InitialQuantity: int := 1

  /** The quantity picker is on screen. */
  predicate ShowsControls(isCustomer: bool, p: Product, hasCallback: bool) {
    isCustomer && p.stock > 0 && hasCallback
  }

  /** The - button: one less, never below 1. */
  function Decrement(q: int): (r: int)
    ensures r >= 1
    ensures q > 1 ==> r == q - 1
    ensures q <= 1 ==> r == 1
  {
    Max(1, q - 1)
  }

  /** The + button: one more, never above the stock. */
  function Increment(p: Product, q: int): (r: int)
    ensures r <= p.stock
    ensures q + 1 <= p.stock ==> r == q + 1
    ensures q + 1 > p.stock ==> r == p.stock
  {
    Min(p.stock, q + 1)
  }

  /** Typing in the box: the parsed number (`None` when it does not parse),
      with 0 and non-numbers read as 1, then held between 1 and the stock. */
  function Typed(p: Product, parsed: Option<int>): (r: int)
    ensures r >= 1
    ensures p.stock >= 1 ==> r <= p.stock
    ensures parsed.Some? && 1 <= parsed.value <= p.stock ==> r == parsed.value
    ensures parsed.None? || parsed == Some(0) ==> r == 1
  {
    Max(1, Min(p.stock, if TruthyNumber(parsed) then parsed.value else 1))
  }

  /** A press or a keystroke on the picker. */
  datatype Input = Minus | Plus | Type(parsed: Option<int>)

  function Step(p: Product, q: int, i: Input): int {
    match i
    case Minus => Decrement(q)
    case Plus => Increment(p, q)
    case Type(parsed) => Typed(p, parsed)
  }

  /** The quantity after a series of inputs from `q`. */
  function Steps(p: Product, q: int, ins: seq<Input>): int
    decreases |ins|
  {
    if |ins| == 0 then q else Steps(p, Step(p, q, ins[0]), ins[1..])
  }

  /** While the picker is shown, whatever the customer does keeps the
      quantity between 1 and the stock. */
  lemma {:induction false} QuantityStaysInRange(p: Product, q: int, ins: seq<Input>)
    requires p.stock >= 1
    requires 1 <= q <= p.stock
    ensures 1 <= Steps(p, q, ins) <= p.stock
    decreases |ins|
  {
    if |ins| > 0 {
      QuantityStaysInRange(p, Step(p, q, ins[0]), ins[1..]);
    }
  }

  /** Starting from the initial quantity, every quantity the picker shows
      is one the store can serve. */
  lemma PickerQuantitiesAreServable(p: Product, ins: seq<Input>)
    requires p.stock >= 1
    ensures 1 <= Steps(p, InitialQuantity, ins) <= p.stock
  {
    QuantityStaysInRange(p, InitialQuantity, ins);
  }

  /** What pressing Add to Cart did: the cart afterwards and whether the
      dialog closed. */
  datatype AddResult = AddResult(cart: seq<CustomerShop.CartItem>, closed: bool)

  /** `handleAddToCart()`: with a callback and a positive quantity, add that
      many and close; otherwise nothing happens. */
  function ModalAddToCart(cart: seq<CustomerShop.CartItem>, p: Product, q: int, hasCallback: bool): (r: AddResult)
    ensures r.closed <==> hasCallback && q > 0
    ensures !r.closed ==> r.cart == cart
    ensures r.closed ==> CustomerShop.QuantityOf(r.cart, p.id) == CustomerShop.QuantityOf(cart, p.id) + q
    ensures r.closed ==> forall other :: other != p.id ==> CustomerShop.QuantityOf(r.cart, other) == CustomerShop.QuantityOf(cart, other)
  {
    if hasCallback && q > 0 then AddResult(CustomerShop.AddToCart(cart, p, q), true)
    else AddResult(cart, false)
  }

  /** With the picker shown, the button always adds: the quantity it holds
      is positive. */
  lemma ShownPickerAlwaysAdds(cart: seq<CustomerShop.CartItem>, p: Product, ins: seq<Input>)
    requires ShowsControls(true, p, true)
    ensures ModalAddToCart(cart, p, Steps(p, InitialQuantity, ins), true).closed
  {
    QuantityStaysInRange(p, InitialQuantity, ins);
  }
}

=== FILE: product_listing.dfy ===
/** The customer's product grid: what it lists for a category and a search
    text, its add-to-cart button and its low-stock badge. */
module ProductListing {
  import opened Domain
  import Seqs
  import Text
  import CustomerShop

  /** The grid shows the product: right category, name containing the
      search text ignoring case, and stock left. */
  predicate Listed(f: CategoryFilter, search: string, p: Product) {
    InCategory(f, p) && NameMatches(p, search) && p.stock > 0
  }

  /** `filteredProducts`: the listed products in their stored order. */
  function CustomerListing(ps: seq<Product>, f: CategoryFilter, search: string): (r: seq<Product>)
    ensures forall i :: 0 <= i < |r| ==> r[i] in ps && Listed(f, search, r[i])
    ensures forall i :: 0 <= i < |ps| && Listed(f, search, ps[i]) ==> ps[i] in r
    ensures forall i :: 0 <= i < |r| ==> r[i].stock > 0
    ensures Seqs.Subsequence(r, ps)
    ensures forall x :: multiset(r)[x] == if Listed(f, search, x) then multiset(ps)[x] else 0
  {
    var listed := (p: Product) => Listed(f, search, p);
    var r := Seqs.Filter(ps, listed);
    assert forall x :: multiset(r)[x] == if Listed(f, search, x) then multiset(ps)[x] else 0 by {
      forall x ensures multiset(r)[x] == if Listed(f, search, x) then multiset(ps)[x] else 0 {
        Seqs.FilterMultiplicity(ps, listed, x);
      }
    }
    Seqs.FilterSubsequence(ps, listed);
    r
  }

  /** With every category selected and nothing typed, the grid is every
      product with stock left, in order. */
  lemma {:induction false} UnfilteredListingIsInStock(ps: seq<Product>)
    ensures CustomerListing(ps, AllCategories, "") == Seqs.Filter(ps, (p: Product) => p.stock > 0)
    decreases |ps|
  {
    if |ps| > 0 {
      Text.IncludesEmpty(Text.Lower(ps[0].name));
      UnfilteredListingIsInStock(ps[1..]);
    }
  }

  /** `handleAddToCart(product)`: a product without stock is refused (the
      cart is unchanged); otherwise one unit is added. */
  function HandleAddToCart(cart: seq<CustomerShop.CartItem>, p: Product): (r: seq<CustomerShop.CartItem>)
    ensures p.stock <= 0 ==> r == cart
    ensures p.stock > 0 ==> CustomerShop.QuantityOf(r, p.id) == CustomerShop.QuantityOf(cart, p.id) + 1
    ensures p.stock > 0 ==> forall other :: other != p.id ==> CustomerShop.QuantityOf(r, other) == CustomerShop.QuantityOf(cart, other)
  {
    if p.stock <= 0 then cart else CustomerShop.AddToCart(cart, p, 1)
  }

  /** The Low Stock badge: the shared low-stock test. */
  predicate ShowsLowStockBadge(p: Product) {
    IsLowStock(p)
  }

  /** Every product in the grid with the badge still has between one unit
      and its threshold. */
  lemma BadgedListedProducts(ps: seq<Product>, f: CategoryFilter, search: string, i: nat)
    requires i < |CustomerListing(ps, f, search)|
    requires ShowsLowStockBadge(CustomerListing(ps, f, search)[i])
    ensures var p := CustomerListing(ps, f, search)[i];
            1 <= p.stock <= p.lowStockThreshold
  {
  }
}

=== FILE: promotion_management.dfy ===
/** The admin promotion screen: the create/edit form, its submit (an
    upsert), delete, and the validity test that splits the list into active
    and expired promotions. The screen keeps its own copy of the list, read
    once when it opens. Number fields are parsed by `parse` (standing for
    `parseInt`/`parseFloat`) and shown by `show` (`toString`). */
module PromotionManagement {
  import opened Options
  import opened Domain
  import Seqs
  import Text
  import Store
  import DataSync
  import opened Effects
  import Cart

  /** The form's fields as the inputs hold them. */
  datatype PromoForm = PromoForm(
    code: string,
    discount: string,
    validFrom: string,
    validTo: string,
    active: bool,
    maxUses: string,
    currentUses: string)

  /** The form for a new promotion: empty fields, active, uses "0". */
  const BlankForm: PromoForm := PromoForm("", "", "", "", true, "", "0")

  /** `parse` reads back what `show` writes, and reads "0" as 0. */
  ghost predicate NumberText(show: int -> string, parse: string -> int) {
    && (forall n :: parse(show(n)) == n)
    && (forall n :: |show(n)| > 0)
    && parse("0") == 0
  }

  /** The form opened on an existing promotion: a missing or zero limit
      shows as an empty field, and a missing or zero use count as "0". */
  function EditForm(p: Promotion, show: int -> string): (f: PromoForm)
    ensures f.code == p.code && f.validFrom == p.validFrom && f.validTo == p.validTo && f.active == p.active
    ensures f.discount == show(p.discount)
    ensures f.maxUses == (if TruthyNumber(p.maxUses) then show(p.maxUses.value) else "")
    ensures f.currentUses == (if TruthyNumber(p.currentUses) then show(p.currentUses.value) else "0")
  {
    PromoForm(p.code, show(p.discount), p.validFrom, p.validTo, p.active,
              if TruthyNumber(p.maxUses) then show(p.maxUses.value) else "",
              if TruthyNumber(p.currentUses) then show(p.currentUses.value) else "0")
  }

  /** The promotion a submitted form describes: the code upper-cased, an
      empty limit meaning no limit, an empty use count meaning 0. */
  function FromForm(f: PromoForm, id: string, parse: string -> int): (p: Promotion)
    ensures p.id == id && p.code == Text.Upper(f.code)
    ensures forall i :: 0 <= i < |p.code| ==> !Text.IsLowerLetter(p.code[i])
    ensures p.discount == parse(f.discount)
    ensures p.validFrom == f.validFrom && p.validTo == f.validTo && p.active == f.active
    ensures p.maxUses.None? <==> f.maxUses == ""
    ensures f.maxUses != "" ==> p.maxUses == Some(parse(f.maxUses))
    ensures p.currentUses.Some?
    ensures f.currentUses == "" ==> p.currentUses == Some(0)
    ensures f.currentUses != "" ==> p.currentUses == Some(parse(f.currentUses))
  {
    Promotion(id, Text.Upper(f.code), parse(f.discount), f.validFrom, f.validTo, f.active,
              if |f.maxUses| > 0 then Some(parse(f.maxUses)) else None,
              if |f.currentUses| > 0 then Some(parse(f.currentUses)) else Some(0))
  }

  datatype Submitted = Submitted(promotions: seq<Promotion>, effects: seq<Effect>)

  /** `handleSubmit`: editing replaces the promotion with the edited one's
      id, in place, keeping that id; creating puts a promotion with id
      `newId` first. The list is saved and an update or create announced. */
  function Submit(view: seq<Promotion>, editing: Option<Promotion>, f: PromoForm, newId: string,
                  parse: string -> int): (r: Submitted)
    ensures editing.Some? ==> |r.promotions| == |view|
    ensures editing.Some? ==> forall i :: 0 <= i < |view| ==>
              r.promotions[i] == if view[i].id == editing.value.id then FromForm(f, editing.value.id, parse) else view[i]
    ensures editing.None? ==> r.promotions == [FromForm(f, newId, parse)] + view
    ensures r.effects == [Save(Store.SavePromotions(r.promotions)),
                          Notify(DataSync.Promotions, if editing.Some? then DataSync.Update else DataSync.Create)]
  {
    var ps := match editing
      case Some(e) =>
        var np := FromForm(f, e.id, parse);
        seq(|view|, i requires 0 <= i < |view| => if view[i].id == e.id then np else view[i])
      case None => [FromForm(f, newId, parse)] + view;
    Submitted(ps, [Save(Store.SavePromotions(ps)),
                   Notify(DataSync.Promotions, if editing.Some? then DataSync.Update else DataSync.Create)])
  }

  /** Opening a promotion and saving the form unchanged gives the
      promotion back when its code is upper case, its limit is absent or
      non-zero and its use count is present. */
  lemma EditUnchangedRoundTrips(view: seq<Promotion>, k: nat, show: int -> string, parse: string -> int)
    requires NumberText(show, parse)
    requires k < |view|
    requires Text.Upper(view[k].code) == view[k].code
    requires view[k].maxUses != Some(0)
    requires view[k].currentUses.Some?
    ensures Submit(view, Some(view[k]), EditForm(view[k], show), "", parse).promotions[k] == view[k]
  {
    var p := view[k];
    var f := EditForm(p, show);
    assert parse(show(p.discount)) == p.discount;
    if p.maxUses.Some? {
      assert parse(show(p.maxUses.value)) == p.maxUses.value;
      assert |show(p.maxUses.value)| > 0;
    }
    if TruthyNumber(p.currentUses) {
      assert parse(show(p.currentUses.value)) == p.currentUses.value;
      assert |show(p.currentUses.value)| > 0;
    }
  }

  /** Saving an unchanged form drops a limit of 0: the promotion comes back
      with no limit. */
  lemma EditDropsZeroLimit(p: Promotion, show: int -> string, parse: string -> int)
    requires p.maxUses == Some(0)
    ensures FromForm(EditForm(p, show), p.id, parse).maxUses.None?
  {
  }

  /** `handleDeletePromotion(id)` once confirmed: every promotion with the
      id goes, the rest keep their order; the list is saved and a delete
      announced. */
  function Delete(view: seq<Promotion>, id: string): (r: Submitted)
    ensures forall i :: 0 <= i < |r.promotions| ==> r.promotions[i].id != id && r.promotions[i] in view
    ensures forall i :: 0 <= i < |view| && view[i].id != id ==> view[i] in r.promotions
    ensures Seqs.Subsequence(r.promotions, view)
    ensures forall x :: multiset(r.promotions)[x] == if x.id != id then multiset(view)[x] else 0
    ensures r.effects == [Save(Store.SavePromotions(r.promotions)), Notify(DataSync.Promotions, DataSync.Delete)]
  {
    var keep := (p: Promotion) => p.id != id;
    var ps := Seqs.Filter(view, keep);
    assert forall x :: multiset(ps)[x] == if x.id != id then multiset(view)[x] else 0 by {
      forall x ensures multiset(ps)[x] == if x.id != id then multiset(view)[x] else 0 {
        Seqs.FilterMultiplicity(view, keep, x);
      }
    }
    Seqs.FilterSubsequence(view, keep);
    Submitted(ps, [Save(Store.SavePromotions(ps)), Notify(DataSync.Promotions, DataSync.Delete)])
  }

  /** Deleting what was just created, under a fresh id, restores the list. */
  lemma DeleteUndoesCreate(view: seq<Promotion>, f: PromoForm, newId: string, parse: string -> int)
    requires forall i :: 0 <= i < |view| ==> view[i].id != newId
    ensures Delete(Submit(view, None, f, newId, parse).promotions, newId).promotions == view
  {
    var created := Submit(view, None, f, newId, parse).promotions;
    assert created[1..] == view;
    Seqs.FilterAllPass(view, (p: Promotion) => p.id != newId);
  }

  // ----- validity -----

  /** `isPromotionValid`: active and `today` within the window. Use counts
      play no part. */
  predicate IsPromotionValid(p: Promotion, today: string)
    ensures IsPromotionValid(p, today) ==> Text.LexLe(p.validFrom, p.validTo)
  {
    if p.active && Text.LexLe(p.validFrom, today) && Text.LexLe(today, p.validTo) then
      Text.LexLeTransitive(p.validFrom, today, p.validTo);
      true
    else
      false
  }

  /** The cart accepts a code for a promotion exactly when the code matches
      and the admin screen lists the promotion as active — unless its use
      limit has been reached, which this screen does not look at. */
  lemma CartMatchIsValidity(p: Promotion, typed: string, today: string)
    ensures Cart.Matches(p, typed, today) <==> Text.Upper(p.code) == Text.Upper(typed) && IsPromotionValid(p, today)
  {
  }

  /** A promotion listed as active can still be refused by the cart once it
      has reached its limit. */
  lemma ActiveButSpent(p: Promotion, today: string)
    requires IsPromotionValid(p, today)
    requires p.maxUses == Some(5) && p.currentUses == Some(5)
    ensures Cart.ApplyPromoCode([p], p.code, today) == Cart.PromoState(None, Cart.LimitMessage)
  {
  }

  /** The active list: the valid promotions in their stored order, each as
      often as stored. */
  function ActivePromotions(view: seq<Promotion>, today: string): (r: seq<Promotion>)
    ensures Seqs.Subsequence(r, view)
    ensures forall x :: multiset(r)[x] == if IsPromotionValid(x, today) then multiset(view)[x] else 0
  {
    var valid := (p: Promotion) => IsPromotionValid(p, today);
    var r := Seqs.Filter(view, valid);
    assert forall x :: multiset(r)[x] == if IsPromotionValid(x, today) then multiset(view)[x] else 0 by {
      forall x ensures multiset(r)[x] == if IsPromotionValid(x, today) then multiset(view)[x] else 0 {
        Seqs.FilterMultiplicity(view, valid, x);
      }
    }
    Seqs.FilterSubsequence(view, valid);
    r
  }

  /** The expired (or inactive) list: the promotions that are not valid, in
      their stored order, each as often as stored. */
  function ExpiredPromotions(view: seq<Promotion>, today: string): (r: seq<Promotion>)
    ensures Seqs.Subsequence(r, view)
    ensures forall x :: multiset(r)[x] == if IsPromotionValid(x, today) then 0 else multiset(view)[x]
  {
    var expired := (p: Promotion) => !IsPromotionValid(p, today);
    var r := Seqs.Filter(view, expired);
    assert forall x :: multiset(r)[x] == if IsPromotionValid(x, today) then 0 else multiset(view)[x] by {
      forall x ensures multiset(r)[x] == if IsPromotionValid(x, today) then 0 else multiset(view)[x] {
        Seqs.FilterMultiplicity(view, expired, x);
      }
    }
    Seqs.FilterSubsequence(view, expired);
    r
  }

  /** The two lists split the promotions: together they hold each
      promotion exactly as often as the whole list does. */
  lemma ActiveExpiredPartition(view: seq<Promotion>, today: string)
    ensures multiset(ActivePromotions(view, today)) + multiset(ExpiredPromotions(view, today)) == multiset(view)
    ensures forall i :: 0 <= i < |ActivePromotions(view, today)| ==> IsPromotionValid(ActivePromotions(view, today)[i], today)
    ensures forall i :: 0 <= i < |ExpiredPromotions(view, today)| ==> !IsPromotionValid(ExpiredPromotions(view, today)[i], today)
  {
    Seqs.FilterPartition(view, (p: Promotion) => IsPromotionValid(p, today), (p: Promotion) => !IsPromotionValid(p, today));
  }

  /** Once `today` is past a promotion's end date it is expired for good. */
  lemma ExpiryIsPermanent(p: Promotion, today: string, later: string)
    requires Text.LexLe(today, later)
    requires !Text.LexLe(today, p.validTo)
    ensures !IsPromotionValid(p, later)
  {
    if Text.LexLe(later, p.validTo) {
      Text.LexLeTransitive(today, later, p.validTo);
    }
  }
}

=== FILE: review_dialog.dfy ===
/** The customer's review dialog for one order: which product it reviews
    by default, and what submitting does. */
module ReviewDialog {
  import opened Domain
  import Store
  import DataSync
  import opened Effects

  /** The product the dialog starts on: the order's first line, or none
      (the empty id) for an order without lines. */
  function DefaultProduct(o: Order): (id: string)
    ensures |o.items| > 0 ==> id == o.items[0].productId
    ensures |o.items| == 0 ==> id == ""
  {
    if |o.items| > 0 then o.items[0].productId else ""
  }

  /** The star picker: the rating starts at 0 (none picked) and a star
      sets it to its number, 1 to 5. */
  predicate PickableRating(rating: int) {
    0 <= rating <= 5
  }

  datatype SubmitOutcome =
    | RatingMissing
    | ProductMissing
    | Saved(review: Review, effects: seq<Effect>)

  /** `handleSubmit` by `customer` for `order` on `today`, the review taking
      id `reviewId`: without a rating or a product nothing is written;
      otherwise the review is put in front of a fresh read of the stored
      reviews and a review creation is announced. */
  function SubmitReview(s: Store.Store, order: Order, customer: string, rating: int, productId: string,
                        comment: string, reviewId: string, today: string): (r: SubmitOutcome)
    ensures r.RatingMissing? <==> rating == 0
    ensures r.ProductMissing? <==> rating != 0 && productId == ""
    ensures r.Saved? ==>
              && r.review == Review(reviewId, productId, order.id, customer, rating, comment, today)
              && r.effects == [Save(Store.SaveReviews([r.review] + Store.GetReviews(s))),
                               Notify(DataSync.Reviews, DataSync.Create)]
  {
    if rating == 0 then RatingMissing
    else if productId == "" then ProductMissing
    else
      var rev := Review(reviewId, productId, order.id, customer, rating, comment, today);
      Saved(rev, [Save(Store.SaveReviews([rev] + Store.GetReviews(s))), Notify(DataSync.Reviews, DataSync.Create)])
  }

  /** A saved review is first among the stored reviews, the ones before it
      follow unchanged, nothing else in the store changes, and only a
      review creation is announced. */
  lemma SubmitPrependsReview(s: Store.Store, order: Order, customer: string, rating: int, productId: string,
                             comment: string, reviewId: string, today: string)
    ensures var r := SubmitReview(s, order, customer, rating, productId, comment, reviewId, today);
            r.Saved? ==>
              var after := Run(s, r.effects);
              && Store.GetReviews(after) == [r.review] + Store.GetReviews(s)
              && after.products == s.products && after.orders == s.orders && after.promotions == s.promotions
              && Notices(r.effects) == [Notice(DataSync.Reviews, DataSync.Create)]
  {
    var r := SubmitReview(s, order, customer, rating, productId, comment, reviewId, today);
    if r.Saved? {
      assert r.effects == [r.effects[0]] + ([r.effects[1]] + []);
      WritesCons(r.effects[0], [r.effects[1]] + []);
      WritesCons(r.effects[1], []);
      NoticesCons(r.effects[0], [r.effects[1]] + []);
      NoticesCons(r.effects[1], []);
      ApplyAllCons(s, r.effects[0].write, []);
    }
  }

  /** A rating picked with the stars is saved only once it is on the
      five-star scale. */
  lemma SavedRatingsAreOnScale(s: Store.Store, order: Order, customer: string, rating: int, productId: string,
                               comment: string, reviewId: string, today: string)
    requires PickableRating(rating)
    ensures var r := SubmitReview(s, order, customer, rating, productId, comment, reviewId, today);
            r.Saved? ==> 1 <= r.review.rating <= 5
  {
  }

  /** Submitting on the default product saves a review of the order's
      first line; an order without lines cannot be reviewed. */
  lemma DefaultProductReviewsFirstLine(s: Store.Store, order: Order, customer: string, rating: int,
                                       comment: string, reviewId: string, today: string)
    requires rating != 0
    ensures var r := SubmitReview(s, order, customer, rating, DefaultProduct(order), comment, reviewId, today);
            && (|order.items| == 0 ==> r.ProductMissing?)
            && (|order.items| > 0 && order.items[0].productId != "" ==>
                  r.Saved? && r.review.productId == order.items[0].productId && r.review.orderId == order.id)
  {
  }
}

=== FILE: review_management.dfy ===
/** The admin review screen: deleting a review from the list it loaded,
    the rating distribution, and the order a review refers to. */
module ReviewManagement {
  import opened Options
  import opened Domain
  import Seqs
  import Store
  import opened Effects
  import Reviews
  import ReviewDialog

  datatype Deleted = Deleted(reviews: seq<Review>, effects: seq<Effect>)

  /** `handleDeleteReview(id)` after the confirmation: the list the screen
      loaded, without the review, is saved. Nothing is announced. */
  function DeleteReview(view: seq<Review>, id: string): (r: Deleted)
    ensures forall i :: 0 <= i < |r.reviews| ==> r.reviews[i] in view && r.reviews[i].id != id
    ensures forall i :: 0 <= i < |view| && view[i].id != id ==> view[i] in r.reviews
    ensures Seqs.Subsequence(r.reviews, view)
    ensures forall x :: multiset(r.reviews)[x] == if x.id != id then multiset(view)[x] else 0
    ensures r.effects == [Save(Store.SaveReviews(r.reviews))]
  {
    var keep := (x: Review) => x.id != id;
    var kept := Seqs.Filter(view, keep);
    assert forall x :: multiset(kept)[x] == if x.id != id then multiset(view)[x] else 0 by {
      forall x ensures multiset(kept)[x] == if x.id != id then multiset(view)[x] else 0 {
        Seqs.FilterMultiplicity(view, keep, x);
      }
    }
    Seqs.FilterSubsequence(view, keep);
    Deleted(kept, [Save(Store.SaveReviews(kept))])
  }

  /** A deletion replaces the stored reviews with the screen's list and
      announces nothing, so other tabs do not refresh. */
  lemma DeleteIsSilent(s: Store.Store, view: seq<Review>, id: string)
    ensures var r := DeleteReview(view, id);
            && Store.GetReviews(Run(s, r.effects)) == r.reviews
            && Run(s, r.effects).orders == s.orders
            && Notices(r.effects) == []
  {
    var r := DeleteReview(view, id);
    WritesCons(r.effects[0], []);
    assert r.effects == [r.effects[0]] + [];
    ApplyAllCons(s, r.effects[0].write, []);
  }

  /** The screen deletes from the list it loaded: a review saved in the
      meantime (say from a customer's tab) is dropped from the store by
      the next deletion. */
  lemma StaleDeleteDropsNewReviews(s: Store.Store, view: seq<Review>, order: Order, customer: string,
                                   rating: int, productId: string, comment: string, reviewId: string,
                                   today: string, id: string)
    requires view == Store.GetReviews(s)
    requires forall i :: 0 <= i < |view| ==> view[i].id != reviewId
    requires reviewId != id
    ensures var sub := ReviewDialog.SubmitReview(s, order, customer, rating, productId, comment, reviewId, today);
            sub.Saved? ==>
              var mid := Run(s, sub.effects);
              var del := DeleteReview(view, id);
              && sub.review in Store.GetReviews(mid)
              && sub.review !in Store.GetReviews(Run(mid, del.effects))
  {
    var sub := ReviewDialog.SubmitReview(s, order, customer, rating, productId, comment, reviewId, today);
    if sub.Saved? {
      ReviewDialog.SubmitPrependsReview(s, order, customer, rating, productId, comment, reviewId, today);
      var mid := Run(s, sub.effects);
      assert Store.GetReviews(mid)[0] == sub.review;
      DeleteIsSilent(mid, view, id);
    }
  }

  /** The number of reviews with exactly `k` stars. */
  function RatingCount(rs: seq<Review>, k: int): (n: nat)
    ensures n <= |rs|
    ensures n == 0 <==> forall i :: 0 <= i < |rs| ==> rs[i].rating != k
    decreases |rs|
  {
    if |rs| == 0 then 0
    else
      assert forall i :: 1 <= i < |rs| ==> rs[i] == rs[1..][i - 1];
      (if rs[0].rating == k then 1 else 0) + RatingCount(rs[1..], k)
  }

  /** The distribution rows, five stars first. */
  function Distribution(rs: seq<Review>): (d: seq<nat>)
    ensures |d| == 5
    ensures forall i :: 0 <= i < 5 ==> d[i] == RatingCount(rs, 5 - i)
  {
    [RatingCount(rs, 5), RatingCount(rs, 4), RatingCount(rs, 3), RatingCount(rs, 2), RatingCount(rs, 1)]
  }

  lemma RatingCountCons(r: Review, rs: seq<Review>, k: int)
    ensures RatingCount([r] + rs, k) == (if r.rating == k then 1 else 0) + RatingCount(rs, k)
  {
    assert ([r] + rs)[0] == r;
    assert ([r] + rs)[1..] == rs;
  }

  /** With every rating on the five-star scale, the rows count every
      review exactly once. */
  lemma {:induction false} DistributionCoversAll(rs: seq<Review>)
    requires forall i :: 0 <= i < |rs| ==> Reviews.RatingInRange(rs[i])
    ensures var d := Distribution(rs);
            d[0] + d[1] + d[2] + d[3] + d[4] == |rs|
    decreases |rs|
  {
    if |rs| > 0 {
      DistributionCoversAll(rs[1..]);
      assert rs == [rs[0]] + rs[1..];
      RatingCountCons(rs[0], rs[1..], 5);
      RatingCountCons(rs[0], rs[1..], 4);
      RatingCountCons(rs[0], rs[1..], 3);
      RatingCountCons(rs[0], rs[1..], 2);
      RatingCountCons(rs[0], rs[1..], 1);
    }
  }

  /** The bar width of a row, in percent; 0 for an empty list. */
  function Percentage(rs: seq<Review>, k: int): (pct: real)
    ensures |rs| == 0 ==> pct == 0.0
    ensures 0.0 <= pct <= 100.0
  {
    if |rs| > 0 then
      FractionBounds(RatingCount(rs, k) as real, |rs| as real);
      RatingCount(rs, k) as real / |rs| as real * 100.0
    else 0.0
  }

  lemma FractionBounds(c: real, n: real)
    requires 0.0 <= c <= n && n > 0.0
    ensures 0.0 <= c / n <= 1.0
  {
    assert c / n * n == c;
  }

  lemma SharesAdd(a: real, b: real, n: real)
    requires n > 0.0
    ensures a / n * 100.0 + b / n * 100.0 == (a + b) / n * 100.0
  {
    assert a / n + b / n == (a + b) / n;
  }

  /** Five counts that make up `n` give shares that make up 100 %. */
  lemma FiveShares(c5: real, c4: real, c3: real, c2: real, c1: real, n: real)
    requires n > 0.0 && c5 + c4 + c3 + c2 + c1 == n
    ensures c5 / n * 100.0 + c4 / n * 100.0 + c3 / n * 100.0 + c2 / n * 100.0 + c1 / n * 100.0 == 100.0
  {
    SharesAdd(c5, c4, n);
    SharesAdd(c5 + c4, c3, n);
    SharesAdd(c5 + c4 + c3, c2, n);
    SharesAdd(c5 + c4 + c3 + c2, c1, n);
    assert n / n == 1.0;
  }

  /** With every rating on the scale, the five bars of a non-empty list
      add up to 100 %. */
  lemma PercentagesSumToHundred(rs: seq<Review>)
    requires |rs| > 0
    requires forall i :: 0 <= i < |rs| ==> Reviews.RatingInRange(rs[i])
    ensures Percentage(rs, 5) + Percentage(rs, 4) + Percentage(rs, 3) + Percentage(rs, 2) + Percentage(rs, 1) == 100.0
  {
    DistributionCoversAll(rs);
    FiveShares(RatingCount(rs, 5) as real, RatingCount(rs, 4) as real, RatingCount(rs, 3) as real,
               RatingCount(rs, 2) as real, RatingCount(rs, 1) as real, |rs| as real);
  }

  /** `getOrderDetails(orderId)`: the first stored order with the id. */
  function GetOrderDetails(os: seq<Order>, orderId: string): (r: Option<Order>)
    ensures r.None? <==> forall i :: 0 <= i < |os| ==> os[i].id != orderId
    ensures r.Some? ==> r.value in os && r.value.id == orderId
    ensures r.Some? ==> exists i :: 0 <= i < |os| && os[i] == r.value && os[i].id == orderId
                                    && forall j :: 0 <= j < i ==> os[j].id != orderId
  {
    Seqs.Find(os, (o: Order) => o.id == orderId)
  }

  /** A review written from the dialog names its order, so the screen finds
      that order as long as it is stored. */
  lemma SubmittedReviewFindsItsOrder(s: Store.Store, order: Order, customer: string, rating: int, productId: string,
                                     comment: string, reviewId: string, today: string)
    requires order in Store.GetOrders(s)
    ensures var sub := ReviewDialog.SubmitReview(s, order, customer, rating, productId, comment, reviewId, today);
            sub.Saved? ==> GetOrderDetails(Store.GetOrders(s), sub.review.orderId).Some?
  {
  }
}

=== FILE: reviews.dfy ===
/** Facts about reviews that several screens compute the same way: the
    reviews of one product and the mean rating. The mean is exact here; the
    screens show it rounded to one decimal. */
module Reviews {
  import opened Domain
  import Seqs

  /** `reviews.filter(r => r.productId === productId)`. */
  function ReviewsFor(rs: seq<Review>, productId: string): (r: seq<Review>)
    ensures forall i :: 0 <= i < |r| ==> r[i] in rs && r[i].productId == productId
    ensures forall i :: 0 <= i < |rs| && rs[i].productId == productId ==> rs[i] in r
    ensures Seqs.Subsequence(r, rs)
    ensures forall x :: multiset(r)[x] == if x.productId == productId then multiset(rs)[x] else 0
  {
    var about := (x: Review) => x.productId == productId;
    var r := Seqs.Filter(rs, about);
    assert forall x :: multiset(r)[x] == if x.productId == productId then multiset(rs)[x] else 0 by {
      forall x ensures multiset(r)[x] == if x.productId == productId then multiset(rs)[x] else 0 {
        Seqs.FilterMultiplicity(rs, about, x);
      }
    }
    Seqs.FilterSubsequence(rs, about);
    r
  }

  function RatingOf(r: Review): int { r.rating }

  /** The rating lies on the five-star scale. */
  predicate RatingInRange(r: Review) {
    1 <= r.rating <= 5
  }

  /** The mean rating, 0 when there are no reviews. */
  function AverageRating(rs: seq<Review>): (avg: real)
    ensures |rs| == 0 ==> avg == 0.0
    ensures |rs| > 0 ==> avg * |rs| as real == Seqs.Sum(rs, RatingOf) as real
  {
    if |rs| == 0 then 0.0 else Seqs.Sum(rs, RatingOf) as real / |rs| as real
  }

  lemma {:induction false} SumOfRatingsBounds(rs: seq<Review>)
    requires forall i :: 0 <= i < |rs| ==> RatingInRange(rs[i])
    ensures |rs| <= Seqs.Sum(rs, RatingOf) <= 5 * |rs|
    decreases |rs|
  {
    if |rs| > 0 {
      SumOfRatingsBounds(rs[1..]);
    }
  }

  /** A total between one and five times the count gives a mean between
      one and five. */
  lemma MeanBounds(s: real, n: real)
    requires n > 0.0 && n <= s <= 5.0 * n
    ensures 1.0 <= s / n <= 5.0
  {
    assert s / n * n == s;
    assert (s / n - 1.0) * n == s - n;
    assert (5.0 - s / n) * n == 5.0 * n - s;
  }

  /** When every rating is on the scale, so is the mean of a non-empty
      list. */
  lemma AverageWithinScale(rs: seq<Review>)
    requires |rs| > 0
    requires forall i :: 0 <= i < |rs| ==> RatingInRange(rs[i])
    ensures 1.0 <= AverageRating(rs) <= 5.0
  {
    SumOfRatingsBounds(rs);
    MeanBounds(Seqs.Sum(rs, RatingOf) as real, |rs| as real);
  }
}

=== FILE: seqs.dfy ===
/** Array operations the storefront uses everywhere, as functions over
    sequences: `filter`, `find`, `some`, `reduce` to a sum, `slice(0, n)`. */
module Seqs {
  import opened Options

  /** `r` is `s` with some elements left out and the others kept in their
      order: `r` can be matched against `s` from left to right. */
  ghost predicate Subsequence<T>(r: seq<T>, s: seq<T>)
    decreases |s|
  {
    if |r| == 0 then true
    else if |s| == 0 then false
    else if r[0] == s[0] then Subsequence(r[1..], s[1..])
    else Subsequence(r, s[1..])
  }

  /** Every sequence is a subsequence of itself. */
  lemma {:induction false} SubsequenceReflexive<T>(s: seq<T>)
    ensures Subsequence(s, s)
    decreases |s|
  {
    if |s| > 0 {
      SubsequenceReflexive(s[1..]);
    }
  }

  /** `s.filter(p)`: the elements satisfying `p`, in their original order,
      each as often as it occurs in `s`. */
  function Filter<T>(s: seq<T>, p: T -> bool): (r: seq<T>)
    ensures |r| <= |s|
    ensures forall i :: 0 <= i < |r| ==> r[i] in s && p(r[i])
    ensures forall i :: 0 <= i < |s| && p(s[i]) ==> s[i] in r
    decreases |s|
  {
    if |s| == 0 then []
    else if p(s[0]) then [s[0]] + Filter(s[1..], p)
    else Filter(s[1..], p)
  }

  /** `Filter` keeps the relative order of what it keeps. */
  lemma {:induction false} FilterSubsequence<T>(s: seq<T>, p: T -> bool)
    ensures Subsequence(Filter(s, p), s)
    decreases |s|
  {
    if |s| > 0 {
      FilterSubsequence(s[1..], p);
      var rest := Filter(s[1..], p);
      if p(s[0]) {
        assert ([s[0]] + rest)[1..] == rest;
      } else {
        assert |rest| > 0 ==> rest[0] != s[0];
      }
    }
  }

  /** `Filter` keeps every passing value as often as `s` holds it, and no
      other value. */
  lemma {:induction false} FilterMultiplicity<T>(s: seq<T>, p: T -> bool, x: T)
    ensures multiset(Filter(s, p))[x] == if p(x) then multiset(s)[x] else 0
    decreases |s|
  {
    if |s| > 0 {
      FilterMultiplicity(s[1..], p, x);
      assert s == [s[0]] + s[1..];
      if p(s[0]) {
        assert Filter(s, p) == [s[0]] + Filter(s[1..], p);
      }
    }
  }

  /** Positions listed from left to right, each once. */
  predicate Increasing(idx: seq<nat>) {
    forall k, l :: 0 <= k < l < |idx| ==> idx[k] < idx[l]
  }

  /** The positions `Filter` keeps: increasing, exactly those whose element
      passes, and holding the result's elements in turn. */
  lemma {:induction false} FilterPositions<T>(s: seq<T>, p: T -> bool) returns (idx: seq<nat>)
    ensures |idx| == |Filter(s, p)|
    ensures forall k :: 0 <= k < |idx| ==> idx[k] < |s| && Filter(s, p)[k] == s[idx[k]]
    ensures Increasing(idx)
    ensures forall i :: 0 <= i < |s| ==> (p(s[i]) <==> i in idx)
    decreases |s|
  {
    if |s| == 0 {
      idx := [];
    } else {
      var tail := FilterPositions(s[1..], p);
      var shifted := Shift(tail);
      ShiftPositions(s, p, tail);
      ShiftIncreasing(tail);
      if p(s[0]) {
        idx := [0] + shifted;
        PrependPositions(s, p, shifted);
        PrependMembers(s, p, shifted);
      } else {
        idx := shifted;
        assert Filter(s, p) == Filter(s[1..], p);
        forall i | 0 <= i < |s| ensures (p(s[i]) <==> i in idx) {
          if i == 0 {
            assert !p(s[0]) && 0 !in idx;
          }
        }
      }
    }
  }

  /** Every position moved one place right. */
  function Shift(idx: seq<nat>): (r: seq<nat>)
    ensures |r| == |idx|
    ensures forall k :: 0 <= k < |idx| ==> r[k] == idx[k] + 1
  {
    seq(|idx|, k requires 0 <= k < |idx| => idx[k] + 1)
  }

  /** Positions of the tail's filter, shifted, are positions in `s`. */
  lemma ShiftPositions<T>(s: seq<T>, p: T -> bool, tail: seq<nat>)
    requires |s| > 0
    requires |tail| == |Filter(s[1..], p)|
    requires forall k :: 0 <= k < |tail| ==> tail[k] < |s[1..]| && Filter(s[1..], p)[k] == s[1..][tail[k]]
    requires forall i :: 0 <= i < |s[1..]| ==> (p(s[1..][i]) <==> i in tail)
    ensures forall k :: 0 <= k < |tail| ==> 0 < Shift(tail)[k] < |s| && Filter(s[1..], p)[k] == s[Shift(tail)[k]]
    ensures forall i :: 0 < i < |s| ==> (p(s[i]) <==> i in Shift(tail))
    ensures 0 !in Shift(tail)
  {
    var sh := Shift(tail);
    forall i | 0 < i < |s| ensures (p(s[i]) <==> i in sh) {
      assert s[i] == s[1..][i - 1];
      if i in sh {
        var k :| 0 <= k < |sh| && sh[k] == i;
        assert tail[k] == i - 1;
      }
      if p(s[i]) {
        assert i - 1 in tail;
        var k :| 0 <= k < |tail| && tail[k] == i - 1;
        assert sh[k] == i;
      }
    }
  }

  lemma ShiftIncreasing(tail: seq<nat>)
    requires Increasing(tail)
    ensures Increasing(Shift(tail)) && Increasing([0] + Shift(tail))
  {
    var sh := Shift(tail);
    forall k, l | 0 <= k < l < |[0] + sh| ensures ([0] + sh)[k] < ([0] + sh)[l] {
      assert ([0] + sh)[l] == sh[l - 1];
      if k > 0 {
        assert ([0] + sh)[k] == sh[k - 1];
      }
    }
  }

  /** When the head passes, position 0 joins the shifted positions. */
  lemma PrependPositions<T>(s: seq<T>, p: T -> bool, sh: seq<nat>)
    requires |s| > 0 && p(s[0])
    requires |sh| == |Filter(s[1..], p)|
    requires forall k :: 0 <= k < |sh| ==> 0 < sh[k] < |s| && Filter(s[1..], p)[k] == s[sh[k]]
    ensures |[0] + sh| == |Filter(s, p)|
    ensures forall k :: 0 <= k < |[0] + sh| ==> ([0] + sh)[k] < |s| && Filter(s, p)[k] == s[([0] + sh)[k]]
  {
    var idx := [0] + sh;
    var f := Filter(s, p);
    assert f == [s[0]] + Filter(s[1..], p);
    forall k | 0 <= k < |idx| ensures idx[k] < |s| && f[k] == s[idx[k]] {
      if k > 0 {
        assert idx[k] == sh[k - 1];
      }
    }
  }

  /** Position 0 joins the positions of a passing tail when the head
      passes too. */
  lemma PrependMembers<T>(s: seq<T>, p: T -> bool, sh: seq<nat>)
    requires |s| > 0 && p(s[0])
    requires forall i :: 0 < i < |s| ==> (p(s[i]) <==> i in sh)
    ensures forall i :: 0 <= i < |s| ==> (p(s[i]) <==> i in [0] + sh)
  {
    forall i | 0 < i < |s| ensures (i in sh <==> i in [0] + sh) {
    }
  }

  /** Filtering distributes over concatenation, so it keeps the relative
      order of the elements it keeps. */
  lemma {:induction false} FilterAppend<T>(s: seq<T>, t: seq<T>, p: T -> bool)
    ensures Filter(s + t, p) == Filter(s, p) + Filter(t, p)
    decreases |s|
  {
    if |s| == 0 {
      assert s + t == t;
    } else {
      assert (s + t)[1..] == s[1..] + t;
      FilterAppend(s[1..], t, p);
    }
  }

  /** A filter that every element passes returns the sequence unchanged. */
  lemma {:induction false} FilterAllPass<T>(s: seq<T>, p: T -> bool)
    requires forall i :: 0 <= i < |s| ==> p(s[i])
    ensures Filter(s, p) == s
    decreases |s|
  {
    if |s| > 0 {
      FilterAllPass(s[1..], p);
      assert s == [s[0]] + s[1..];
    }
  }

  /** Complementary filters split a sequence: every element lands in
      exactly one of the two results, with its multiplicity. */
  lemma {:induction false} FilterPartition<T>(s: seq<T>, p: T -> bool, q: T -> bool)
    requires forall x :: q(x) == !p(x)
    ensures multiset(Filter(s, p)) + multiset(Filter(s, q)) == multiset(s)
    ensures |Filter(s, p)| + |Filter(s, q)| == |s|
    decreases |s|
  {
    if |s| > 0 {
      FilterPartition(s[1..], p, q);
      assert s == [s[0]] + s[1..];
    }
  }

  /** `s.filter(p).length`. */
  function Count<T>(s: seq<T>, p: T -> bool): (n: nat)
    ensures n <= |s|
    ensures n == 0 <==> forall i :: 0 <= i < |s| ==> !p(s[i])
  {
    var r := Filter(s, p);
    assert |r| > 0 ==> p(r[0]) && r[0] in s;
    assert forall i :: 0 <= i < |s| && p(s[i]) ==> |r| > 0 by {
      forall i | 0 <= i < |s| && p(s[i]) ensures |r| > 0 {
        assert s[i] in r;
      }
    }
    |r|
  }

  /** `s.reduce((sum, x) => sum + f(x), 0)` over integers. */
  function Sum<T>(s: seq<T>, f: T -> int): int
    decreases |s|
  {
    if |s| == 0 then 0 else f(s[0]) + Sum(s[1..], f)
  }

  lemma {:induction false} SumAppend<T>(s: seq<T>, t: seq<T>, f: T -> int)
    ensures Sum(s + t, f) == Sum(s, f) + Sum(t, f)
    decreases |s|
  {
    if |s| == 0 {
      assert s + t == t;
    } else {
      assert (s + t)[1..] == s[1..] + t;
      SumAppend(s[1..], t, f);
    }
  }

  /** Replacing one element changes the sum by the difference of its
      terms. */
  lemma {:induction false} SumUpdate<T>(s: seq<T>, i: nat, x: T, f: T -> int)
    requires i < |s|
    ensures Sum(s[i := x], f) == Sum(s, f) - f(s[i]) + f(x)
    decreases |s|
  {
    if i > 0 {
      assert s[i := x][1..] == s[1..][i - 1 := x];
      SumUpdate(s[1..], i - 1, x, f);
    } else {
      assert s[i := x][1..] == s[1..];
    }
  }

  /** A sum of non-negative terms is non-negative. */
  lemma {:induction false} SumNonNegative<T>(s: seq<T>, f: T -> int)
    requires forall i :: 0 <= i < |s| ==> f(s[i]) >= 0
    ensures Sum(s, f) >= 0
    decreases |s|
  {
    if |s| > 0 {
      SumNonNegative(s[1..], f);
    }
  }

  /** `s.reduce((sum, x) => sum + f(x), 0)` over real-valued amounts. */
  function SumReal<T>(s: seq<T>, f: T -> real): real
    decreases |s|
  {
    if |s| == 0 then 0.0 else f(s[0]) + SumReal(s[1..], f)
  }

  /** Elements contributing nothing can be dropped from a real sum. */
  lemma {:induction false} SumRealFilter<T>(s: seq<T>, f: T -> real, p: T -> bool)
    requires forall i :: 0 <= i < |s| && !p(s[i]) ==> f(s[i]) == 0.0
    ensures SumReal(Filter(s, p), f) == SumReal(s, f)
    decreases |s|
  {
    if |s| > 0 {
      SumRealFilter(s[1..], f, p);
    }
  }

  /** Replacing one element changes a real sum by the difference of its
      terms. */
  lemma {:induction false} SumRealUpdate<T>(s: seq<T>, i: nat, x: T, f: T -> real)
    requires i < |s|
    ensures SumReal(s[i := x], f) == SumReal(s, f) - f(s[i]) + f(x)
    decreases |s|
  {
    if i > 0 {
      assert s[i := x][1..] == s[1..][i - 1 := x];
      SumRealUpdate(s[1..], i - 1, x, f);
    } else {
      assert s[i := x][1..] == s[1..];
    }
  }

  /** `s.find(p)`: the first element satisfying `p`, if any. */
  function Find<T>(s: seq<T>, p: T -> bool): (r: Option<T>)
    ensures r.None? <==> forall i :: 0 <= i < |s| ==> !p(s[i])
    ensures r.Some? ==> exists i :: 0 <= i < |s| && s[i] == r.value && p(s[i]) && forall j :: 0 <= j < i ==> !p(s[j])
    decreases |s|
  {
    if |s| == 0 then None
    else if p(s[0]) then Some(s[0])
    else
      var r := Find(s[1..], p);
      assert r.Some? ==> exists i :: 1 <= i < |s| && s[i] == r.value && p(s[i]) && forall j :: 1 <= j < i ==> !p(s[j]) by {
        if r.Some? {
          var i :| 0 <= i < |s[1..]| && s[1..][i] == r.value && p(s[1..][i]) && forall j :: 0 <= j < i ==> !p(s[1..][j]);
          assert s[i + 1] == r.value && forall j :: 1 <= j < i + 1 ==> !p(s[j]) by {
            forall j | 1 <= j < i + 1 ensures !p(s[j]) {
              assert s[j] == s[1..][j - 1];
            }
          }
        }
      }
      r
  }

  /** `s.some(p)`. */
  predicate Any<T>(s: seq<T>, p: T -> bool) {
    exists i :: 0 <= i < |s| && p(s[i])
  }

  /** `s.slice(0, n)`: the first `min(n, |s|)` elements. */
  function Take<T>(s: seq<T>, n: nat): (r: seq<T>)
    ensures |r| == if n < |s| then n else |s|
    ensures forall i :: 0 <= i < |r| ==> r[i] == s[i]
  {
    if n < |s| then s[..n] else s
  }
}

=== FILE: store.dfy ===
/** The browser's key-value store as the storefront uses it: four keys
    (`products`, `orders`, `promotions`, `reviews`), each holding a whole
    collection or nothing. Getters fall back to the seed arrays when a key
    is absent, every save replaces the whole collection, and `initializeData`
    fills only the keys that are missing. Serialisation to JSON text is not
    modelled: a slot holds the collection itself. */
module Store {
  import opened Options
  import opened Domain
  import Text
  import Seqs

  /** The arrays the data module falls back to for a missing key and
      writes on initialisation. */
  datatype Seeds = Seeds(
    products: seq<Product>,
    orders: seq<Order>,
    promotions: seq<Promotion>,
    reviews: seq<Review>)

  /** The four stored slots, together with the seed arrays the getters fall
      back to. In the application the seeds are always `MockSeeds()`; the
      operations hold for any seeds, so they are a field of the state rather
      than fixed constants. */
  datatype Store = Store(
    products: Option<seq<Product>>,
    orders: Option<seq<Order>>,
    promotions: Option<seq<Promotion>>,
    reviews: Option<seq<Review>>,
    seeds: Seeds)

  datatype Key = ProductsKey | OrdersKey | PromotionsKey | ReviewsKey

  /** One whole-collection write, the only write primitive the store has. */
  datatype Write =
    | SaveProducts(products: seq<Product>)
    | SaveOrders(orders: seq<Order>)
    | SavePromotions(promotions: seq<Promotion>)
    | SaveReviews(reviews: seq<Review>)

  function KeyOf(w: Write): Key {
    match w
    case SaveProducts(_) => ProductsKey
    case SaveOrders(_) => OrdersKey
    case SavePromotions(_) => PromotionsKey
    case SaveReviews(_) => ReviewsKey
  }

  predicate Present(s: Store, k: Key) {
    match k
    case ProductsKey => s.products.Some?
    case OrdersKey => s.orders.Some?
    case PromotionsKey => s.promotions.Some?
    case ReviewsKey => s.reviews.Some?
  }

  /** Stores `a` and `b` hold the same thing (or nothing) under key `k`. */
  predicate SameAt(a: Store, b: Store, k: Key) {
    match k
    case ProductsKey => a.products == b.products
    case OrdersKey => a.orders == b.orders
    case PromotionsKey => a.promotions == b.promotions
    case ReviewsKey => a.reviews == b.reviews
  }

  // ----- seed data -----

  /** The `products` seed array of mockData.ts. */
  function SeedProducts(): seq<Product> {
    [ Product("p1", "Modern LED Ceiling Light", Ceiling, 2499, 45, "ceiling-modern", "Energy-efficient LED ceiling light with modern design", 10),
      Product("p2", "Crystal Chandelier", Ceiling, 8999, 8, "chandelier", "Elegant crystal chandelier for luxurious spaces", 5),
      Product("p3", "Wall Sconce Light", Wall, 1299, 32, "wall-sconce", "Contemporary wall sconce with adjustable brightness", 15),
      Product("p4", "Outdoor Wall Lantern", Wall, 1899, 18, "outdoor-lantern", "Weather-resistant outdoor wall lantern", 10),
      Product("p5", "Pendant Decorative Light", Decorative, 3499, 4, "pendant-decorative", "Artistic pendant light for statement decor", 8),
      Product("p6", "Table Lamp Decorative", Decorative, 1599, 25, "table-lamp", "Stylish table lamp with decorative base", 12),
      Product("p7", "LED Bulb 9W Warm White", LedBulbs, 199, 150, "led-bulb-warm", "9W LED bulb with warm white light", 50),
      Product("p8", "LED Bulb 12W Cool White", LedBulbs, 249, 120, "led-bulb-cool", "12W LED bulb with cool white light", 50),
      Product("p9", "RGB Smart LED Bulb", LedBulbs, 799, 6, "smart-bulb", "WiFi-enabled RGB smart LED bulb", 20),
      Product("p10", "Track Light Fixture", Fixtures, 3299, 15, "track-light", "Adjustable track light fixture system", 8),
      Product("p11", "Recessed Light Fixture", Fixtures, 899, 42, "recessed-fixture", "Flush mount recessed light fixture", 20),
      Product("p12", "Industrial Fixture Set", Fixtures, 4599, 3, "industrial-fixture", "Complete industrial-style fixture set", 5) ]
  }

  /** Seed products have non-negative price, stock and threshold. */
  lemma SeedProductsNonNegative()
    ensures forall i :: 0 <= i < |SeedProducts()| ==>
              SeedProducts()[i].stock >= 0 && SeedProducts()[i].price >= 0 && SeedProducts()[i].lowStockThreshold >= 0
  {
  }

  /** Seed products have pairwise distinct ids. */
  lemma SeedProductIdsDistinct()
    ensures ProductIdsDistinct(SeedProducts())
  {
    SeedProductIdsListed();
    SeedIdListDistinct();
  }

  /** The ids of the seed products, in order. */
  function SeedIdList(): seq<string> {
    ["p1", "p2", "p3", "p4", "p5", "p6", "p7", "p8", "p9", "p10", "p11", "p12"]
  }

  lemma SeedProductIdsListed()
    ensures |SeedProducts()| == |SeedIdList()|
    ensures forall i :: 0 <= i < |SeedIdList()| ==> SeedProducts()[i].id == SeedIdList()[i]
  {
  }

  lemma SeedIdListDistinct()
    ensures forall i, j :: 0 <= i < j < |SeedIdList()| ==> SeedIdList()[i] != SeedIdList()[j]
  {
    var ids := SeedIdList();
    assert forall i :: 0 <= i < 9 ==> |ids[i]| == 2 && ids[i][1] as int == '1' as int + i;
    assert forall i :: 9 <= i < 12 ==> |ids[i]| == 3 && ids[i][2] as int == '0' as int + i - 9;
  }

  /** The `orders` seed array of mockData.ts. */
  function SeedOrders(): seq<Order> {
    var o1 := Order("o1", "Juan Santos",
      [ OrderItem("p1", "Modern LED Ceiling Light", 2, 2499),
        OrderItem("p7", "LED Bulb 9W Warm White", 10, 199) ],
      6988.0, Pending, "2026-01-22", None, None);
    var o2 := Order("o2", "Maria Cruz",
      [ OrderItem("p2", "Crystal Chandelier", 1, 8999) ],
      8999.0, Processing, "2026-01-21", None, None);
    var o3 := Order("o3", "Roberto Diaz",
      [ OrderItem("p3", "Wall Sconce Light", 4, 1299),
        OrderItem("p6", "Table Lamp Decorative", 2, 1599) ],
      8394.0, Completed, "2026-01-20", None, None);
    var o4 := Order("o4", "Ana Garcia",
      [ OrderItem("p10", "Track Light Fixture", 1, 3299),
        OrderItem("p8", "LED Bulb 12W Cool White", 8, 249) ],
      5291.0, Completed, "2026-01-19", None, None);
    [o1, o2, o3, o4]
  }

  /** Every seed order's total is the sum of price times quantity over its
      lines (no seed order carries a discount). */
  lemma SeedOrderTotals()
    ensures forall i :: 0 <= i < |SeedOrders()| ==>
              SeedOrders()[i].discount.None? && SeedOrders()[i].total == ItemsSubtotal(SeedOrders()[i].items) as real
  {
    var os := SeedOrders();
    SubtotalOfTwo(os[0].items);
    SubtotalOfOne(os[1].items);
    SubtotalOfTwo(os[2].items);
    SubtotalOfTwo(os[3].items);
  }

  lemma SubtotalOfOne(items: seq<OrderItem>)
    requires |items| == 1
    ensures ItemsSubtotal(items) == LineAmount(items[0])
  {
    assert items[1..] == [];
    assert Seqs.Sum(items[1..], LineAmount) == 0;
  }

  lemma SubtotalOfTwo(items: seq<OrderItem>)
    requires |items| == 2
    ensures ItemsSubtotal(items) == LineAmount(items[0]) + LineAmount(items[1])
  {
    assert items[1..][1..] == [];
    assert Seqs.Sum(items[1..][1..], LineAmount) == 0;
    assert Seqs.Sum(items[1..], LineAmount) == LineAmount(items[1]);
  }

  /** The `promotions` seed array of mockData.ts. */
  function SeedPromotions(): seq<Promotion> {
    [ Promotion("pr1", "NEWYEAR2026", 15, "2026-01-01", "2026-01-31", true, Some(50), Some(3)),
      Promotion("pr2", "WELCOME10", 10, "2026-01-01", "2026-12-31", true, Some(100), Some(12)) ]
  }

  /** Every seed promotion is active, carries both counts, still has uses
      left, and starts no later than it ends. */
  lemma SeedPromotionsWellFormed()
    ensures forall i :: 0 <= i < |SeedPromotions()| ==>
              && SeedPromotions()[i].maxUses.Some? && SeedPromotions()[i].currentUses.Some?
              && SeedPromotions()[i].currentUses.value < SeedPromotions()[i].maxUses.value
              && SeedPromotions()[i].active
              && Text.LexLe(SeedPromotions()[i].validFrom, SeedPromotions()[i].validTo)
  {
    SeedPromotionDatesOrdered();
  }

  /** Every seed promotion's validity window starts no later than it ends:
      the two dates agree up to the first character where the start's is
      the smaller. */
  lemma SeedPromotionDatesOrdered()
    ensures forall i :: 0 <= i < |SeedPromotions()| ==>
              Text.LexLe(SeedPromotions()[i].validFrom, SeedPromotions()[i].validTo)
  {
    var ps := SeedPromotions();
    forall i | 0 <= i < |ps| ensures Text.LexLe(ps[i].validFrom, ps[i].validTo) {
      var from, to := ps[i].validFrom, ps[i].validTo;
      if i == 0 {
        assert from == "2026-01-01" && to == "2026-01-31";
        Text.LexLeAtFirstDifference(from, to, 8);
      } else {
        assert from == "2026-01-01" && to == "2026-12-31";
        Text.LexLeAtFirstDifference(from, to, 5);
      }
    }
  }

  /** The `reviews` seed array of mockData.ts. */
  function SeedReviews(): seq<Review> {
    [ Review("r1", "p3", "o3", "Roberto Diaz", 5, "Excellent products and fast delivery! Very satisfied with my purchase.", "2026-01-21"),
      Review("r2", "p10", "o4", "Ana Garcia", 4, "Good quality lights. The track fixture works perfectly in my studio.", "2026-01-20") ]
  }

  /** Every seed rating lies in 1..5. */
  lemma SeedReviewRatings()
    ensures forall i :: 0 <= i < |SeedReviews()| ==> 1 <= SeedReviews()[i].rating <= 5
  {
  }

  /** Every seed review belongs to a seed order that bought the reviewed
      product, and carries that order's customer name. */
  lemma SeedReviewsReferenceSeedOrders()
    ensures forall i :: 0 <= i < |SeedReviews()| ==>
              exists j :: 0 <= j < |SeedOrders()|
                && SeedOrders()[j].id == SeedReviews()[i].orderId
                && SeedOrders()[j].customerName == SeedReviews()[i].customerName
                && OrderHasProduct(SeedOrders()[j], SeedReviews()[i].productId)
  {
    var rs, os := SeedReviews(), SeedOrders();
    assert os[2].items[0].productId == rs[0].productId;
    assert os[3].items[0].productId == rs[1].productId;
  }

  /** The seed arrays of mockData.ts. */
  function MockSeeds(): Seeds {
    Seeds(SeedProducts(), SeedOrders(), SeedPromotions(), SeedReviews())
  }

  /** A fresh browser profile: no key has been written yet. */
  function EmptyStore(): Store {
    Store(None, None, None, None, MockSeeds())
  }

  // ----- mockData.ts getters, savers and initializeData -----

  function GetProducts(s: Store): seq<Product> {
    if s.products.Some? then s.products.value else s.seeds.products
  }

  function GetOrders(s: Store): seq<Order> {
    if s.orders.Some? then s.orders.value else s.seeds.orders
  }

  function GetPromotions(s: Store): seq<Promotion> {
    if s.promotions.Some? then s.promotions.value else s.seeds.promotions
  }

  function GetReviews(s: Store): seq<Review> {
    if s.reviews.Some? then s.reviews.value else s.seeds.reviews
  }

  /** `saveProducts` / `saveOrders` / `savePromotions` / `saveReviews`:
      the key written holds exactly the new collection and every other key
      is untouched. */
  function Apply(s: Store, w: Write): (r: Store)
    ensures Present(r, KeyOf(w))
    ensures forall k :: k != KeyOf(w) ==> SameAt(r, s, k)
    ensures r.seeds == s.seeds
  {
    match w
    case SaveProducts(ps) => s.(products := Some(ps))
    case SaveOrders(os) => s.(orders := Some(os))
    case SavePromotions(ps) => s.(promotions := Some(ps))
    case SaveReviews(rs) => s.(reviews := Some(rs))
  }

  /** A sequence of saves applied in order. */
  function ApplyAll(s: Store, ws: seq<Write>): (r: Store)
    ensures r.seeds == s.seeds
    decreases |ws|
  {
    if |ws| == 0 then s else ApplyAll(Apply(s, ws[0]), ws[1..])
  }

  /** Reading back what was just saved returns exactly it. */
  lemma GetAfterSave(s: Store, ps: seq<Product>, os: seq<Order>, qs: seq<Promotion>, rs: seq<Review>)
    ensures GetProducts(Apply(s, SaveProducts(ps))) == ps
    ensures GetOrders(Apply(s, SaveOrders(os))) == os
    ensures GetPromotions(Apply(s, SavePromotions(qs))) == qs
    ensures GetReviews(Apply(s, SaveReviews(rs))) == rs
  {
  }

  /** Of two saves to the same key the later one wins: the earlier one
      leaves no trace, whatever it held. */
  lemma LastSaveWins(s: Store, w1: Write, w2: Write)
    requires KeyOf(w1) == KeyOf(w2)
    ensures Apply(Apply(s, w1), w2) == Apply(s, w2)
  {
  }

  /** Saves to different keys commute. */
  lemma SavesToDifferentKeysCommute(s: Store, w1: Write, w2: Write)
    requires KeyOf(w1) != KeyOf(w2)
    ensures Apply(Apply(s, w1), w2) == Apply(Apply(s, w2), w1)
  {
  }

  /** Whatever sequence of saves came before, the key of the final save
      holds exactly what that save wrote: no merge with earlier content. */
  lemma {:induction false} FinalSaveDecides(s: Store, ws: seq<Write>, w: Write)
    ensures Apply(ApplyAll(s, ws), w) == ApplyAll(s, ws + [w])
    ensures SameAt(ApplyAll(s, ws + [w]), Apply(s, w), KeyOf(w))
    decreases |ws|
  {
    if |ws| > 0 {
      assert (ws + [w])[1..] == ws[1..] + [w];
      FinalSaveDecides(Apply(s, ws[0]), ws[1..], w);
    }
  }

  /** Saves that touch other keys leave key `k` alone. */
  lemma {:induction false} ApplyAllFrame(s: Store, ws: seq<Write>, k: Key)
    requires forall i :: 0 <= i < |ws| ==> KeyOf(ws[i]) != k
    ensures SameAt(ApplyAll(s, ws), s, k)
    decreases |ws|
  {
    if |ws| > 0 {
      ApplyAllFrame(Apply(s, ws[0]), ws[1..], k);
    }
  }

  /** Every key holding its seed array. */
  function Seeded(s: Store): Store {
    Store(Some(s.seeds.products), Some(s.seeds.orders), Some(s.seeds.promotions), Some(s.seeds.reviews), s.seeds)
  }

  /** One step of `initializeData`: write the seed array under `k` if, and
      only if, `k` is absent. */
  function FillIfAbsent(s: Store, k: Key): (r: Store)
    ensures Present(r, k)
    ensures Present(s, k) ==> r == s
    ensures !Present(s, k) ==> SameAt(r, Seeded(s), k)
    ensures forall k' :: k' != k ==> SameAt(r, s, k')
    ensures r.seeds == s.seeds
  {
    if Present(s, k) then s
    else
      match k
      case ProductsKey => s.(products := Some(s.seeds.products))
      case OrdersKey => s.(orders := Some(s.seeds.orders))
      case PromotionsKey => s.(promotions := Some(s.seeds.promotions))
      case ReviewsKey => s.(reviews := Some(s.seeds.reviews))
  }

  /** `initializeData`: each absent key receives its seed array; a key that
      already holds a collection, even an empty one, is left alone. */
  function Initialize(s: Store): (r: Store)
    ensures forall k :: Present(r, k)
    ensures forall k :: Present(s, k) ==> SameAt(r, s, k)
    ensures forall k :: !Present(s, k) ==> SameAt(r, Seeded(s), k)
    ensures r.seeds == s.seeds
  {
    var s1 := FillIfAbsent(s, ProductsKey);
    var s2 := FillIfAbsent(s1, OrdersKey);
    var s3 := FillIfAbsent(s2, PromotionsKey);
    FillIfAbsent(s3, ReviewsKey)
  }

  /** Running `initializeData` again changes nothing. */
  lemma InitializeIdempotent(s: Store)
    ensures Initialize(Initialize(s)) == Initialize(s)
  {
  }

  /** `initializeData` is invisible through the getters: they already fall
      back to the seed arrays for an absent key. */
  lemma InitializeInvisibleToGetters(s: Store)
    ensures GetProducts(Initialize(s)) == GetProducts(s)
    ensures GetOrders(Initialize(s)) == GetOrders(s)
    ensures GetPromotions(Initialize(s)) == GetPromotions(s)
    ensures GetReviews(Initialize(s)) == GetReviews(s)
  {
  }

  /** A store with no key written reads as its seed arrays, and
      `initializeData` writes exactly those. For a fresh profile,
      `EmptyStore()`, these are the arrays of mockData.ts. */
  lemma FreshStoreReadsSeeds(s: Store)
    requires forall k :: !Present(s, k)
    ensures GetProducts(s) == s.seeds.products
    ensures GetOrders(s) == s.seeds.orders
    ensures GetPromotions(s) == s.seeds.promotions
    ensures GetReviews(s) == s.seeds.reviews
    ensures Initialize(s) == Seeded(s)
  {
    assert !Present(s, ProductsKey) && !Present(s, OrdersKey);
    assert !Present(s, PromotionsKey) && !Present(s, ReviewsKey);
  }
}

=== FILE: text.dfy ===
/** String helpers with the meaning the storefront's code gives them:
    ASCII case folding (`toUpperCase`/`toLowerCase`), JavaScript's
    lexicographic `<=` on strings (used on ISO calendar dates), and
    `includes` (substring search). */
module Text {

  predicate IsLowerLetter(c: char) { 'a' <= c <= 'z' }

  predicate IsUpperLetter(c: char) { 'A' <= c <= 'Z' }

  function UpperChar(c: char): char {
    if IsLowerLetter(c) then (c as int - 32) as char else c
  }

  function LowerChar(c: char): char {
    if IsUpperLetter(c) then (c as int + 32) as char else c
  }

  /** `s.toUpperCase()`, restricted to ASCII letters. */
  function Upper(s: string): (r: string)
    ensures |r| == |s|
    ensures forall i :: 0 <= i < |r| ==> !IsLowerLetter(r[i])
    ensures forall i :: 0 <= i < |s| && !IsLowerLetter(s[i]) ==> r[i] == s[i]
    ensures forall i :: 0 <= i < |s| && IsLowerLetter(s[i]) ==> r[i] as int == s[i] as int - 32
  {
    seq(|s|, i requires 0 <= i < |s| => UpperChar(s[i]))
  }

  /** `s.toLowerCase()`, restricted to ASCII letters. */
  function Lower(s: string): (r: string)
    ensures |r| == |s|
    ensures forall i :: 0 <= i < |r| ==> !IsUpperLetter(r[i])
    ensures forall i :: 0 <= i < |s| && !IsUpperLetter(s[i]) ==> r[i] == s[i]
    ensures forall i :: 0 <= i < |s| && IsUpperLetter(s[i]) ==> r[i] as int == s[i] as int + 32
  {
    seq(|s|, i requires 0 <= i < |s| => LowerChar(s[i]))
  }

  /** Upper-casing twice is upper-casing once: a stored (upper-cased) code
      is its own normal form. */
  lemma UpperIdempotent(s: string)
    ensures Upper(Upper(s)) == Upper(s)
  {
  }

  /** Matching `a.toUpperCase() === b.toUpperCase()` and matching
      `a.toLowerCase() === b.toLowerCase()` accept the same pairs. */
  lemma FoldingsAgree(a: string, b: string)
    ensures Upper(a) == Upper(b) <==> Lower(a) == Lower(b)
  {
    if Upper(a) == Upper(b) {
      assert |a| == |b|;
      forall i | 0 <= i < |a| ensures Lower(a)[i] == Lower(b)[i] {
        assert UpperChar(a[i]) == UpperChar(b[i]);
      }
    }
    if Lower(a) == Lower(b) {
      assert |a| == |b|;
      forall i | 0 <= i < |a| ensures Upper(a)[i] == Upper(b)[i] {
        assert LowerChar(a[i]) == LowerChar(b[i]);
      }
    }
  }

  /** JavaScript's `a <= b` on strings: lexicographic order on characters,
      a proper prefix coming first. */
  function LexLe(a: string, b: string): bool
    decreases |a|
  {
    |a| == 0 || (|b| > 0 && (a[0] < b[0] || (a[0] == b[0] && LexLe(a[1..], b[1..]))))
  }

  /** Strings that agree on their first `n` characters and then differ
      compare as the first differing characters do. */
  lemma {:induction false} LexLeAtFirstDifference(a: string, b: string, n: nat)
    requires n < |a| && n < |b| && a[..n] == b[..n] && a[n] < b[n]
    ensures LexLe(a, b)
    decreases n
  {
    if n > 0 {
      assert a[0] == a[..n][0] == b[..n][0] == b[0];
      assert a[1..][..n - 1] == a[..n][1..] && b[1..][..n - 1] == b[..n][1..];
      LexLeAtFirstDifference(a[1..], b[1..], n - 1);
    }
  }

  lemma {:induction false} LexLeReflexive(a: string)
    ensures LexLe(a, a)
    decreases |a|
  {
    if |a| > 0 {
      LexLeReflexive(a[1..]);
    }
  }

  lemma {:induction false} LexLeTransitive(a: string, b: string, c: string)
    requires LexLe(a, b) && LexLe(b, c)
    ensures LexLe(a, c)
    decreases |a|
  {
    if |a| > 0 && a[0] == b[0] && b[0] == c[0] {
      LexLeTransitive(a[1..], b[1..], c[1..]);
    }
  }

  lemma {:induction false} LexLeAntisymmetric(a: string, b: string)
    requires LexLe(a, b) && LexLe(b, a)
    ensures a == b
    decreases |a|
  {
    if |a| > 0 {
      LexLeAntisymmetric(a[1..], b[1..]);
      assert a == [a[0]] + a[1..];
      assert b == [b[0]] + b[1..];
    }
  }

  lemma {:induction false} LexLeTotal(a: string, b: string)
    ensures LexLe(a, b) || LexLe(b, a)
    decreases |a|
  {
    if |a| > 0 && |b| > 0 && a[0] == b[0] {
      LexLeTotal(a[1..], b[1..]);
    }
  }

  /** `needle` occurs in `hay` starting at position `k`. */
  predicate OccursAt(hay: string, needle: string, k: int) {
    0 <= k && k + |needle| <= |hay| && hay[k..k + |needle|] == needle
  }

  /** `hay.includes(needle)`, computed by scanning start positions. */
  function Includes(hay: string, needle: string): (r: bool)
    ensures r <==> exists k :: OccursAt(hay, needle, k)
    decreases |hay|
  {
    if |needle| <= |hay| && hay[..|needle|] == needle then
      assert OccursAt(hay, needle, 0);
      true
    else if |hay| == 0 then
      false
    else
      var r := Includes(hay[1..], needle);
      if r then
        var k :| OccursAt(hay[1..], needle, k);
        assert OccursAt(hay, needle, k + 1);
        true
      else
        assert forall k :: OccursAt(hay, needle, k) ==> k >= 1 && OccursAt(hay[1..], needle, k - 1);
        false
  }

  /** The empty search text is contained in every name. */
  lemma IncludesEmpty(hay: string)
    ensures Includes(hay, "")
  {
    assert OccursAt(hay, "", 0);
  }
}
